=== FILE: README.md ===
# neutrino runtime core, modelled in Dafny

This project models the core of the neutrino C runtime: tagged values, the semi-space heap,
object memory and arrays, the identity hash map, the process stack and frames, frame iteration
and backtrace capture, module binding, and a few rules of the syntax-tree compiler and of the
small tagged values.

Each C component has its own Dafny module:

- `Wrappers` (wrappers.dfy) holds `Option`, `Result` and the signal causes.
- `Globals` (globals.dfy) holds the shared size helpers and enum flags.
- `Layout` (layout.dfy) holds the frame header constants and frame flags.
- `Values` (values.dfy) holds the tagged value words and object layout.
- `Heap` (heap.dfy) holds alignment and spaces.
- `ObjectMemory` (objmem.dfy) holds object sizes, byte memory and arrays.
- `IdHashMap` (idmap.dfy) holds the identity hash map.
- `StackPiece` (stack.dfy) holds stack pieces and frames.
- `StackGrowth` (stackgrow.dfy) holds new stacks and pushing a frame onto a new piece.
- `FrameIteration` (frameiter.dfy) holds frame iteration and backtraces.
- `Binding` (bind.dfy) holds module binding.
- `Syntax` (syntax.dfy) holds parameter ordering and code emission.
- `Tagged` (tagged.dfy) holds stage offsets, orderings and relations.
- `Collections` (collections.dfy) holds small facts about distinct sequences and sets.

The model uses these conventions:

- Memory that the C code addresses through pointers is a sequence: bytes for object memory, values for stack pieces.
- Offsets are counted from the start of that sequence.
- A `CHECK_*` assertion in the C code becomes a `requires` clause.
- A condition the C code returns becomes a `Failure` of a `Result`.
- Whether a heap allocation succeeds is a boolean parameter (`heapOk`, `newOk`, `arrayAllocated`), because the garbage collector and its allocation fuzzer are outside the model.
- Whether appending to an array buffer succeeds is a function parameter `addOk`: `addOk(n)` says whether an append to a buffer of length `n` finds memory. `add_to_array_buffer` is not part of this model.
- The identity hash is a function parameter.
- The opcode decoder of a code block is a function parameter.

## Model

| member | source | states |
|---|---|---|
| Globals.MaxSize | src/c/globals.h:44-46 | the result is one of the two arguments and no smaller than either |
| Globals.MinSize | src/c/globals.h:49-51 | the result is one of the two arguments and no larger than either |
| Globals.SetEnumFlag | src/c/globals.h:71 | a bit is set in the result exactly when it is set in the mask or in the flag |
| Globals.MegabyteSize | src/c/globals.h:24-25 | example: a megabyte is 1024 kilobytes of 1024 bytes |
| Layout.HeaderLayout | src/c/process.h:83-99 | the frame header has six fields at distinct offsets inside the header, and the captured state has five |
| Layout.FlagWord | src/c/process.h:48-62 | a flag word has a frame flag set exactly when the flag is in the set it was built from |
| Layout.FlagBitsDistinct | src/c/process.h:48-62 | each frame flag is a single bit, and two different flags share no bit |
| Layout.FlagWordInjective | src/c/process.h:48-62 | different flag sets give different flag words |
| Values.NewInteger | src/c/value.h:99-104 | the word is in the integer domain and carries the value modulo the payload width |
| Values.GetIntegerValue | src/c/value.h:107-110 | the value read is a signed 61-bit payload congruent to the word's payload |
| Values.IntegerRoundTrip | src/c/value.h:99-110 | reading back a new integer gives the integer exactly when it fits the payload |
| Values.Success | src/c/value.h:114-116 | success is the integer zero and is not a signal |
| Values.CauseCode | src/c/value.h:30-51 | each signal cause has a code below 13, small enough for the upper half of a signal word; Values.SignalRoundTrip shows that no two causes share a code |
| Values.NewSignal | src/c/value.h:129-134 | the word is in the signal domain and carries the cause's code in its upper half |
| Values.GetSignalCause | src/c/value.h:137-140 | the cause read has the code that the upper half of the word carries |
| Values.SignalRoundTrip | src/c/value.h:129-140 | reading the cause of a new signal gives back the cause, whatever the other bits hold |
| Values.NewMovedObject | src/c/value.h:156-162 | a forward pointer to an object is in the moved-object domain |
| Values.GetMovedObjectTarget | src/c/value.h:147-154 | the target of a forward pointer is in the object domain |
| Values.MovedObjectRoundTrip | src/c/value.h:147-162 | making a forward pointer and taking its target are inverse, in both orders |
| Values.NewObject | src/c/value.h:260-269 | an aligned address becomes an object word whose address reads back unchanged |
| Values.GetObjectAddress | src/c/value.h:267-270 | the address of an object word has its tag bits clear, so it is aligned to the tag width |
| Values.ObjectLayout | src/c/value.h:233-241 | object size and field offset agree, field n fits inside an object with more than n fields, and fields do not overlap |
| Heap.RoundUpBounds | src/c/heap.c:16-18 | rounding up with a full-width mask gives the least multiple of the alignment at or above the input |
| Heap.AlignAddressAsWritten | src/c/heap.c:11-14 | as written, the mask clears every bit above bit 31 of the address |
| Heap.AlignAddressDropsHighBits | src/c/heap.c:11-14 | as written, the address 2^32 aligns to 0, while the corrected version returns it unchanged |
| Heap.AlignAddress | src/c/heap.c:11-14 | the aligned address is the least multiple of the alignment at or above the input |
| Heap.AlignSizeAsWritten | src/c/heap.c:16-18 | as written, the mask clears every bit above bit 31 of the size |
| Heap.AlignSizeDropsHighBits | src/c/heap.c:16-18 | as written, the size 2^32 aligns to 0, while the corrected version returns it unchanged |
| Heap.AlignSizeAsWrittenAgreesBelow4G | src/c/heap.c:16-18 | below 2^32 the as-written and corrected alignments agree |
| Heap.AlignSize | src/c/heap.c:16-18 | the aligned size is the least multiple of the alignment at or above the input |
| Heap.AlignSizeValue | src/c/heap.c:16-18 | the aligned size is the quotient rounded up, times the alignment |
| Heap.AlignSizeIdempotent | src/c/heap.c:16-18 | aligning an aligned size changes nothing |
| Heap.SpaceIsEmpty | src/c/heap.c:74-76 | definition only: a space is empty when its free pointer is null; Heap.SpaceClear and Heap.SpaceDispose state which operations leave it empty |
| Heap.SpaceClear | src/c/heap.c:68-76 | a cleared space is empty |
| Heap.SpaceDispose | src/c/heap.c:61-66 | disposing an unallocated space changes nothing, and disposing an allocated one leaves it empty with no memory |
| Heap.DisposeClearedSpace | src/c/heap.c:61-72 | disposing a cleared space gives a cleared space |
| Heap.SpaceInit | src/c/heap.c:30-59 | no memory is a system error; otherwise the space is valid, its free range is exactly the requested size, and it starts less than one value past the start of the memory |
| Heap.SpaceTryAlloc | src/c/heap.c:78-94 | an allocation succeeds exactly when the aligned size fits below the limit; it returns the old free pointer and bumps it by the aligned size; on failure nothing changes |
| Heap.TryAllocBlock | src/c/heap.c:78-94 | an allocated block is value-aligned, lies inside the space, and keeps the space valid |
| Heap.TryAllocDisjoint | src/c/heap.c:78-94 | two successive allocations do not overlap |
| Heap.HeapTryAlloc | src/c/heap.c:105-107 | heap allocation allocates in new space, never touches old space, and changes nothing on failure |
| Heap.AllocHeapObject | src/c/alloc.c:932-943 | allocation fails with heap exhaustion exactly when new space is full; otherwise the object word is in the object domain at the old free address |
| ObjectMemory.CalcStringSize | src/c/value.c:127-133 | a string object holds header, length, characters and terminator, rounded up to whole values |
| ObjectMemory.CalcBlobSize | src/c/value.c:198-202 | a blob object holds header, length and bytes, rounded up to whole values |
| ObjectMemory.CalcArraySize | src/c/value.c:305-309 | an array object has one length field and one field per element when that size fits in a word; otherwise the `size_t` sum wraps to a word-aligned size smaller than the array |
| ObjectMemory.CalcArraySizeWraps | src/c/value.c:305-309 | an array of 2^61 elements gets the size of an empty array |
| ObjectMemory.StoreWord | src/c/value.h:272-277 | storing a word writes its eight bytes and leaves every other byte alone |
| ObjectMemory.StoreThenLoad | src/c/value.h:272-277 | loading a stored word gives it back, and words that do not overlap it are unchanged |
| ObjectMemory.GetArrayAtAsWritten | src/c/value.c:321-325 | definition only: as written, element i is read at byte offset i past the elements start; ObjectMemory.ArrayElementsOverlapAsWritten shows what that reads |
| ObjectMemory.SetArrayAtAsWritten | src/c/value.c:327-331 | as written, element i is written at byte offset i past the elements start |
| ObjectMemory.ArrayElementsOverlapAsWritten | src/c/value.c:321-331 | as written, setting element 1 of a two-element array changes element 0 |
| ObjectMemory.OverlappingStore | src/c/value.c:327-331 | a word stored one byte past another word changes that word |
| ObjectMemory.GetArrayAt | src/c/value.c:321-325 | definition only: element i is read at byte offset i times the value size past the elements start; ObjectMemory.SetArrayAt states how it reads back what was set |
| ObjectMemory.SetArrayAt | src/c/value.c:327-331 | setting an element makes it read back as the new value and leaves every other element unchanged |
| ObjectMemory.NewHeapArray | src/c/alloc.c:129-137 | a new array has its length set and every element null |
| ObjectMemory.NewHeapPairArray | src/c/alloc.c:165-167 | a pair array of n pairs is an array of 2n null elements |
| IdHashMap.AllEmpty | src/c/alloc.c:193-204 | the entry array of a new map has no occupied slot |
| IdHashMap.Lookup | src/c/value.c:449-486 | a key is bound to a value exactly when some full slot holds that key and value |
| IdHashMap.Step | src/c/value.c:455-484 | the probe sequence stays inside the entry array |
| IdHashMap.StepWalk | src/c/value.c:455-484 | probing starts at the hash slot, moves one slot at a time with wrap-around, and visits no slot twice |
| IdHashMap.Find | src/c/value.c:449-486 | the probe stops at the first slot that matches the key or is empty, and every slot it passes is full with another key |
| IdHashMap.FindEntry | src/c/value.c:449-486 | in a valid map the probe finds the key exactly when the map binds it; otherwise it stops at an empty slot after a run of full ones |
| IdHashMap.FindComplete | src/c/value.c:449-486 | in a valid map, a probe that reaches an empty slot proves that the key is absent |
| IdHashMap.Validate | src/c/value.c:554-562 | a map validates exactly when its size is below its capacity and the entry array has that capacity |
| IdHashMap.NewIdMap | src/c/alloc.c:193-204 | a new map is empty and binds no key |
| IdHashMap.NewIdMapValid | src/c/alloc.c:193-204 | a new map with positive capacity satisfies the map invariant |
| IdHashMap.Get | src/c/value.c:512-522 | get succeeds exactly when the key is bound, returns its value, and otherwise fails with not found |
| IdHashMap.WriteSlot | src/c/value.c:488-510 | writing a key at its probe slot keeps the invariant, binds the key and changes no other key |
| IdHashMap.TrySet | src/c/value.c:488-510 | setting fails with map full exactly when the key is new and one more entry would fill the map; otherwise the key is bound, the size grows by one for a new key, and no other key changes |
| IdHashMap.GetAfterSet | src/c/value.c:488-522 | get after set returns the new value for the key and the old answer for every other key |
| IdHashMap.IterAdvance | src/c/value.c:524-552 | iteration moves to the next full slot, skipping only empty ones, or ends at the end of the array |
| IdHashMap.OccupiedSlots | src/c/value.c:524-552 | iteration visits exactly the full slots, in increasing order, once each |
| IdHashMap.ReinsertStep | src/c/alloc.c:945-969 | re-inserting the next old entry into the grown map succeeds and keeps the entries moved so far |
| IdHashMap.Extend | src/c/alloc.c:945-969 | extending fails with heap exhaustion exactly when the larger array cannot be allocated; otherwise capacity doubles, size is kept, and every key is bound as before |
| IdHashMap.ExtendKeepsAll | src/c/alloc.c:945-969 | once every old entry is re-inserted, the new map binds each key as the old one did |
| IdHashMap.SetAt | src/c/alloc.c:971-983 | setting a key grows a full map first; it fails only when that growth cannot be allocated; otherwise the key is bound and no other key changes |
| StackPiece.WriteHeader | src/c/process.c:234-268 | the six header fields of a new frame hold the previous frame's pointer, limit, flags and pc, and an empty code block and argument map; nothing outside the header changes |
| StackPiece.SetHeader | src/c/process.c:280-347 | a header setter accepts the offsets and slots `access_frame_header_field` accepts, writes one field, which reads back, and changes no other slot |
| StackPiece.TryPushNewFrame | src/c/process.c:234-268 | a frame is pushed exactly when header and capacity fit below the piece's end, keeping room for a lid unless this frame is the lid; the new frame sits just above the header, which records the frame below |
| StackPiece.WalkDown | src/c/process.c:186-196 | walking down restores the stack pointer to just below the header |
| StackPiece.PushThenWalkDown | src/c/process.c:186-268 | pushing a frame and walking down gives back the frame that was pushed onto |
| StackPiece.CloseFrame | src/c/process.c:130-140 | closing a frame records it under a lid frame and marks the piece closed, leaving the storage below the frame alone |
| StackPiece.ReadLid | src/c/process.c:116-122 | reading the lid gives a frame of this piece whose header ends at the lid pointer |
| StackPiece.OpenStackPiece | src/c/process.c:124-128 | opening a piece clears the lid, keeps the storage and restores the frame under the lid |
| StackPiece.CloseThenOpen | src/c/process.c:116-140 | closing a piece and opening it again gives back the closed frame |
| StackPiece.PushValue | src/c/process.c:349-356 | a push fails with out of bounds exactly when the frame is full; otherwise it writes the value at the stack pointer and moves it up by one |
| StackPiece.PopValue | src/c/process.c:387-391 | a pop fails with out of bounds exactly when the frame is empty; otherwise it moves the stack pointer down by one |
| StackPiece.PeekValue | src/c/process.c:393-395 | definition only: the value `index` places below the stack pointer; StackPiece.PushThenPop, StackPiece.PushKeepsBelow and StackPiece.GetLocal relate it to pushing and to locals |
| StackPiece.PushThenPop | src/c/process.c:349-395 | after a push, peeking at 0 and popping both give the pushed value, and popping restores the frame |
| StackPiece.PushKeepsBelow | src/c/process.c:349-395 | a push shifts every earlier peek index up by one |
| StackPiece.GetLocal | src/c/process.c:417-422 | local i exists exactly when it lies below the stack pointer and is the value i places above the frame pointer |
| StackPiece.GetArgument | src/c/process.c:397-402 | definition only: the argument map sends a parameter to a slot below the header; StackPiece.ArgumentIsCallerPeek states which value that slot holds |
| StackPiece.ArgumentIsCallerPeek | src/c/process.c:397-402 | in a frame pushed with an argument map, argument p is the caller's value at the peek index that the map gives |
| StackGrowth.NewStackPiece | src/c/alloc.c:483-508 | a new piece is closed with a lid right after an empty header, has room for the user capacity and is otherwise null |
| StackGrowth.OpenNewStackPiece | src/c/alloc.c:483-508 | the lid of a new piece is the synthetic empty frame |
| StackGrowth.PushStackBottomFrame | src/c/alloc.c:513-522 | the bottom frame of a new stack sits on the first header, carries the code block and flags, and walks down to the synthetic empty frame |
| StackGrowth.NewStack | src/c/alloc.c:524-536 | a new stack fails only with heap exhaustion; otherwise it has one closed piece whose lid is the stack-bottom frame, and that frame walks down to the synthetic empty frame |
| StackGrowth.PushPieceBottomFrame | src/c/process.c:96-113 | the bottom frame of a grown piece has room for the arguments and carries the argument map |
| StackGrowth.TransferTopArguments | src/c/process.c:85-94 | the caller's top values are copied in order onto the new piece, and nothing below moves |
| StackGrowth.PushTopValues | src/c/process.c:85-94 | pushing the top n values of one frame onto another copies them in order and keeps everything below |
| StackGrowth.RequiredCapacity | src/c/process.c:152-158 | the required size is the new frame's header and locals, the bottom frame's header and one local, and the arguments, so it exceeds the frame, the arguments and two headers |
| StackGrowth.PrepareNewPiece | src/c/process.c:159-167 | the grown piece links back to the previous piece, belongs to the stack, and holds the arguments above its bottom frame |
| StackGrowth.PushOnNewPiece | src/c/process.c:169-183 | the frame pushed on a grown piece is organic, starts empty, has the requested capacity, reaches the copied arguments through its argument map, and walks down to the piece-bottom frame |
| StackGrowth.PushOnTopPiece | src/c/process.c:142-147 | when the frame fits on the top piece, it is pushed there: organic, empty, with the requested capacity and the caller's top values as its arguments, walking down to the caller's frame |
| StackGrowth.GrowStack | src/c/process.c:142-184 | when the top piece is full, the old piece is closed on the current frame, which its lid then records, and a new top piece links back to it; its bottom frame holds the arguments, and the new frame above walks down to that bottom frame and sees the caller's top values as its arguments; no other piece changes |
| StackGrowth.PushStackFrame | src/c/process.c:142-184 | pushing a frame fails only when the top piece is full and no new piece can be allocated; it stays on the top piece, changing no other, when there is room and grows the stack otherwise; in both cases the new frame sees the caller's arguments |
| StackGrowth.PieceChain | src/c/process.c:71-83 | the chain of pieces from the top follows the previous links within the stack |
| StackGrowth.StackValidate | src/c/process.c:71-83 | a stack validates exactly when every piece on its chain belongs to it |
| FrameIteration.NextOrganic | src/c/process.c:435-452 | the next frame iteration stops at is organic and is no higher in the stack |
| FrameIteration.SkipsNonOrganic | src/c/process.c:435-452 | iteration passes over a non-organic frame that is not a stack bottom |
| FrameIteration.FrameIterAdvance | src/c/process.c:435-452 | advancing reports more exactly when an organic frame lies below, returns it, and otherwise stops at the stack bottom, also when the stack bottom is reached through a piece's lid |
| FrameIteration.FrameIterAdvanceAsWritten | src/c/process.c:435-452 | as written, a walk that reports more ends on an organic frame and one that reports no more on a stack-bottom frame; an unreadable header is a failed check |
| FrameIteration.AsWrittenFindsNextOrganic | src/c/process.c:435-452 | whenever an organic frame lies below, the as-written and corrected iterations return the same frame |
| FrameIteration.FirstFrameOnSecondPiece | src/c/process.c:142-184 | a new stack whose first frame does not fit on its first piece: the as-written iteration from that frame fails a header check, while the corrected one reports that no organic frame remains |
| FrameIteration.IsInvocationOpcode | src/c/process.c:747-758 | definition only: the five opcodes after which a backtrace entry is captured; FrameIteration.CaptureBacktraceEntry states what happens for every other opcode |
| FrameIteration.InvocationMap | src/c/process.c:788-795 | the invocation map binds exactly the tags of the call record |
| FrameIteration.InvocationMapLastWins | src/c/process.c:404-408 | a tag is bound to the pending argument of its last entry in the record |
| FrameIteration.CaptureBacktraceEntry | src/c/process.c:760-798 | no entry when the pc is not just after an invocation; an ensurer call has no invocation map; allocation failure is heap exhaustion |
| FrameIteration.CapturedArguments | src/c/process.c:760-798 | a captured invocation binds each tag to the argument that the caller passed for it |
| FrameIteration.NewHeapCallTags | src/c/alloc.c:647-656 | new call tags fail only with heap exhaustion and otherwise hold the sorted entries given |
| FrameIteration.NewHeapEscape | src/c/alloc.c:538-544 | a new escape fails only with heap exhaustion and otherwise holds the section given |
| FrameIteration.NewEscapeLiveness | src/c/process.c:474-478 | a new escape is live exactly when it was made over a section, and one made over nothing is never live |
| Binding.PathElements | src/c/alloc.c:390-398 | only the empty path has no names |
| Binding.NewHeapPathWithNames | src/c/alloc.c:390-398 | a path built from names past an offset holds exactly those names, and fails only with heap exhaustion when it needs an allocation |
| Binding.IsPresentCore | src/c/bind.c:282-294 | definition only: the stage is 0 and the path is one name, core; Binding.IsPresentCoreMeans states it in terms of the path's names |
| Binding.IsPresentCoreMeans | src/c/bind.c:282-294 | an identifier is the present core exactly when its stage is 0 and its path is the single name core |
| Binding.ClosestAsWritten | src/c/bind.c:501-524 | as written, the scan keeps the latest fragment strictly between the most negative stage and the stage asked for, and keeps the most negative stage when it finds none |
| Binding.GetFragmentEntryBeforeAsWritten | src/c/bind.c:501-524 | as written, the lookup fails with not found exactly when no fragment lies strictly between the most negative stage and the stage asked for, and otherwise returns the latest such fragment |
| Binding.FragmentAtMostNegativeStageMissed | src/c/bind.c:501-524 | as written, a fragment at the most negative stage is never found |
| Binding.StageBefore | src/c/bind.c:501-524 | the fragment found is the latest one strictly before the stage, and there is none exactly when no fragment is earlier |
| Binding.GetFragmentEntryBefore | src/c/bind.c:501-524 | the lookup fails with not found exactly when no fragment is earlier, and otherwise returns the latest earlier fragment |
| Binding.AsWrittenAgreesAboveMostNegative | src/c/bind.c:501-524 | when no fragment sits at the most negative stage, the as-written scan returns what the corrected one does |
| Binding.EntryOf | src/c/bind.c:528-554 | an identifier's entry has that identifier |
| Binding.ModuleOf | src/c/bind.c:528-554 | a module is exactly the fragments with its path |
| Binding.ShouldFragmentBeBound | src/c/bind.c:528-554 | a fragment is bound next exactly when it is unbound, the fragment of its module at the nearest earlier stage, if any, is bound, and every import it names is bound |
| Binding.ScheduleSoundMeans | src/c/bind.c:556-570 | every identifier of a schedule built step by step comes from the list of fragments and was ready given the ones before it |
| Binding.ScheduleSoundDistinct | src/c/bind.c:556-570 | a schedule built step by step has no repetitions |
| Binding.NoneReadyMeans | src/c/bind.c:556-570 | when a scan finds nothing to bind, no fragment of the list is ready |
| Binding.ScheduleStep | src/c/bind.c:561-566 | one step of the scan appends a ready fragment, fails with exhaustion when that append cannot allocate, and otherwise moves on knowing the fragment is not ready |
| Binding.ScheduleReady | src/c/bind.c:560-568 | the scan ends with a sound schedule and nothing ready, or stops at the first append that cannot allocate |
| Binding.ScheduleGrows | src/c/bind.c:556-570 | adding a ready fragment keeps the schedule duplicate-free and every fragment ready when it is bound |
| Binding.BuildBindingSchedule | src/c/bind.c:556-570 | the schedule has no duplicates, binds each fragment only when ready, and ends when no fragment is ready; it fails only with heap exhaustion, and only when an allocation fails |
| Binding.ExtendsTransitive | src/c/bind.c:227-250 | extending the module array is transitive |
| Binding.EnsureModuleInArray | src/c/bind.c:227-250 | a module already present leaves the array unchanged; otherwise the module is appended first and then, recursively, every module its fragments import; every module added is the module or imported by one before it; the only failures are heap exhaustion, which needs a failed append, and not found, which needs a loaded module to import a name the loader lacks; so with an import-closed loader and every append succeeding it succeeds |
| Binding.EnsureImportedName | src/c/bind.c:243-246 | one import is looked up and its module ensured in the array; a name the loader lacks is not found, not found otherwise needs some loaded module to import a missing name, and with an import-closed loader and every append succeeding it succeeds |
| Binding.EnsureImportsInArray | src/c/bind.c:242-247 | all imports of one fragment end up in the array and every one is known; not found needs a loaded module that imports a missing name, heap exhaustion needs a failed append, so with an import-closed loader and every append succeeding it succeeds |
| Binding.BuildTransitiveModuleArray | src/c/bind.c:254-260 | the array starts with the module, has no duplicates, is closed under imports, and holds only modules reachable from it by imports; it fails with heap exhaustion only when an allocation fails and with not found only when some loaded module imports a name the loader lacks, so it succeeds for an import-closed loader when every allocation succeeds |
| Binding.ValidateBuiltinMethodBinding | src/c/bind.c:88-100 | a builtin binds exactly when its argument count is the parameter count minus subject and selector, with size_t wrap-around |
| Binding.BindModuleFragment | src/c/bind.c:207-223 | binding a real fragment succeeds exactly when imports and elements both succeed; success ends in the complete epoch, failure in binding, and the first failure is reported |
| Syntax.OrderIndex | src/c/syntax.c:52-65 | the order index is the least index any tag contributes, capped by the maximum |
| Syntax.OrderIndexExamples | src/c/syntax.c:52-65 | examples: the subject orders first, the selector second, positional n at n+2, and other tags last |
| Syntax.RankBounds | src/c/syntax.c:69-81 | ranks are below the parameter count, and an earlier parameter in the order has a smaller rank |
| Syntax.RanksArePermutation | src/c/syntax.c:86-111 | the ranks of the parameters are a permutation of their positions |
| Syntax.CalcAbstractParameterOrdering | src/c/syntax.c:86-111 | the ordering is a permutation in which a smaller order index gives an earlier place, and the rest of the buffer is unchanged |
| Syntax.ArgumentOffsets | src/c/syntax.c:232-255 | argument i of n is n-i-1 places below the top, so the offsets are a permutation and the last argument is on top |
| Syntax.OffsetsReachArguments | src/c/syntax.c:232-255 | after pushing the arguments in order, peeking at each argument's offset gives that argument |
| Syntax.EmitInvocationAst | src/c/syntax.c:232-255 | the invocation emits each argument in order and records each tag with its offset, failing only on allocation |
| Syntax.RunPushes | src/c/syntax.c:232-255 | emitting the arguments pushes them in order |
| Syntax.InvocationRecordReachesArguments | src/c/syntax.c:232-255 | each record entry's offset reaches its argument on the evaluated stack |
| Syntax.EmitSequenceAst | src/c/syntax.c:316-337 | an empty sequence pushes null, a single element is just that element, and longer ones pop every value but the last |
| Syntax.RunAlternating | src/c/syntax.c:316-337 | running the alternating code from any element leaves only the last value on the stack |
| Syntax.SequenceLeavesLast | src/c/syntax.c:316-337 | a sequence leaves exactly one value on the stack: its last element's, or null when it is empty |
| Syntax.EmitLocalDeclarationAsWritten | src/c/syntax.c:381-397 | as written, the declaration succeeds exactly when the value emits, the symbol is new and the body emits; when the body fails the declared symbol's scope is left on the assembler |
| Syntax.LocalScopeLeaksAsWritten | src/c/syntax.c:381-397 | as written, a failure in the body leaves the declared symbol bound |
| Syntax.EmitLocalDeclaration | src/c/syntax.c:381-397 | the declaration succeeds exactly when the value emits, the symbol is new and the body emits; a bound symbol is invalid syntax; the scopes are the same afterwards |
| Syntax.LocalDeclarationAgreesOnSuccess | src/c/syntax.c:381-397 | when the declaration succeeds, the corrected and as-written versions agree |
| Tagged.StageOffsetPrintAsWritten | src/c/tagged.c:15-27 | the as-written printer, with the overflowing negation and increment wrapped |
| Tagged.StageOffsetExtremesPrintNothing | src/c/tagged.c:15-27 | as written, the most negative and most positive offsets both print as nothing |
| Tagged.AsWrittenAgreesInside | src/c/tagged.c:15-27 | away from the two extremes, the as-written printer prints what the corrected one does |
| Tagged.StageOffsetPrintOn | src/c/tagged.c:15-27 | a printed offset is a non-empty run of one character that reads back as the offset |
| Tagged.StageOffsetOrderingCompare | src/c/tagged.c:29-35 | stage offsets compare as signed numbers |
| Tagged.BooleanOrderingCompare | src/c/tagged.c:64-68 | false orders before true, and equal booleans are equal |
| Tagged.RelationPrint | src/c/tagged.c:73-90 | each relation prints as a short operator that reads back as the same relation |

## Left out

- Logging, the runtime and its garbage collector, float values, the Python tooling, and every `*_print_on` function except the two in `Tagged` are not part of this model.
- The allocation fuzzer and derived objects are not part of this model.
- `ffLid` is not defined in `process.h`; the lid flag is taken to be bit `0x20`.
- The identity hash (`value_transient_identity_hash`) is an abstract parameter, and its failure is not modelled.
- `alloc.c` calls `try_set_id_hash_map_at` with four arguments, while `value.c` defines it with three. The model follows `value.c`.
- `kMaxOrderIndex` and `kInvokeOperationSize` are not defined in the files modelled here, so they are parameters.
- `compare_signed_integers` is not part of this model; `Tagged.CompareSignedIntegers` assumes it compares numerically.
- `qsort` is not stable. The model breaks order-index ties by position.
- The sort of `build_fragment_identifier_array` is left out. The schedule takes the list of identifiers as a parameter.
- Binding.BuildBindingSchedule: `newOk` covers the creation of the schedule buffer and of the identifier array; the appends that fill the identifier array (bind.c:491) are not modelled, so their heap exhaustion is not either.
- `co_sort_pair_array` in `emit_invocation_ast` is left out. The invocation record is kept in argument order.
- `is_pair_array_sorted` is taken to order integer tags by `<=`.
- Syntax.EmitSequenceAst: does not model an element that fails to emit.
- Syntax.EmitInvocationAst: does not model an argument that fails to emit, only the allocation of the record.
- StackPiece.PeekValue: `frame_peek_value` has no bounds check; the model requires only that the index lies below the stack pointer, so a peek below the start of the piece is not modelled.
- StackPiece.SetHeader: `access_frame_header_field` (process.c:279-284) checks `offset <= kFrameHeaderSize` and that the slot lies at or above the bottom of the piece; the model requires the same, and in addition that the frame pointer lies inside the piece, which the C code does not check.
- IdHashMap.Extend: does not model `size_t` overflow when the capacity doubles.
- FrameIteration.FrameIterAdvance: it assumes that each step down the stack moves strictly lower and reaches a stack-bottom or organic frame (`Walkable`). `Walkable` is not derived from an invariant of whole stacks, and a corrupt stack whose previous frame pointer does not decrease is not modelled.
- FrameIteration.FrameIterAdvanceAsWritten: the fuel parameter only makes the as-written walk total; a walk that runs out of fuel is not a behaviour of the C code.
- FrameIteration.EscapeIsLive: `escape_is_live` is modelled by its one-line definition only; FrameIteration.NewEscapeLiveness states what it answers for a new escape.
- Heap.SpaceInit: it aligns the start of the memory with the corrected Heap.AlignAddress rather than the as-written mask of `align_address` (heap.c:52); the two agree below 2^32.
- Heap.SpaceTryAlloc: it uses the corrected Heap.AlignSize rather than the as-written mask of `align_size`; Heap.AlignSizeAsWrittenAgreesBelow4G shows that the two agree for sizes below 2^32.
- Heap.HeapTryAlloc: it uses the corrected Heap.AlignSize rather than the as-written mask of `align_size`; Heap.AlignSizeAsWrittenAgreesBelow4G shows that the two agree for sizes below 2^32.
- Heap.AllocHeapObject: the heap spaces hold no object memory, so neither the species written into the new object's header (alloc.c:941) nor the marker fill of `memset` in `space_try_alloc` (heap.c:85) is modelled; the result is only the object word and the updated spaces.
- Heap.AllocHeapObject: it uses the corrected Heap.AlignSize rather than the as-written mask of `align_size`; Heap.AlignSizeAsWrittenAgreesBelow4G shows that the two agree for sizes below 2^32.
- ObjectMemory.CalcStringSize: it uses the corrected Heap.AlignSize rather than the as-written mask of `align_size`; Heap.AlignSizeAsWrittenAgreesBelow4G shows that the two agree for sizes below 2^32.
- ObjectMemory.CalcBlobSize: it uses the corrected Heap.AlignSize rather than the as-written mask of `align_size`; Heap.AlignSizeAsWrittenAgreesBelow4G shows that the two agree for sizes below 2^32.
- ObjectMemory.NewHeapArray: it requires the array's size to fit in a word; for a length whose `calc_array_size` wraps (2^61 - 2 and above) the C code writes elements past its allocation, which the model does not follow.
- ObjectMemory.NewHeapArray: it sets the elements with the corrected ObjectMemory.SetArrayAt rather than the as-written `set_array_at` (alloc.c:135).
- ObjectMemory.NewHeapPairArray: it builds on ObjectMemory.NewHeapArray and so on the corrected ObjectMemory.SetArrayAt.
- Arrays read as sequences: every other reader of an array element (process.c:400, 413 and 786; syntax.c:55, 95, 241, 325 and 333; bind.c:240 and 243) reads a Dafny sequence, which is the corrected `get_array_at` (value.c:321-325, through `access_object_field` at value.h:274-278), not the as-written one.
- Binding.ShouldFragmentBeBound: it uses the corrected Binding.GetFragmentEntryBefore; Binding.AsWrittenAgreesAboveMostNegative shows that the as-written lookup agrees whenever no fragment sits at the most negative stage.
- Binding.BuildBindingSchedule: it decides readiness through Binding.ShouldFragmentBeBound and so through the corrected Binding.GetFragmentEntryBefore.
- FrameIteration.CaptureBacktraceEntry: the popped frame of a builtin escape is not returned, because the popped record is read only to build the map.

## Findings

| source | as written | input that shows it | evidently intended | confidence | as-written member | corrected member |
|---|---|---|---|---|---|---|
| src/c/heap.c:11-18 | `~(alignment - 1)` is computed on a `uint32_t` and zero-extended, so the mask clears bits 32-63 of a 64-bit address or size | alignment 8, address or size 2^32: the result is 0 | round up to the next multiple of the alignment and keep the high bits | medium, not executed | Heap.AlignAddressAsWritten, Heap.AlignSizeAsWritten, Heap.AlignAddressDropsHighBits, Heap.AlignSizeDropsHighBits | Heap.AlignAddress, Heap.AlignSize, Heap.SpaceInit, Heap.SpaceTryAlloc, Heap.HeapTryAlloc, Heap.AllocHeapObject, ObjectMemory.CalcStringSize, ObjectMemory.CalcBlobSize |
| src/c/value.c:321-331 | the element index is added to a byte offset (`kArrayElementsOffset + index`) without scaling by the value size | set element 1 of a two-element array: element 0 changes (reads 256) | element i at `kArrayElementsOffset + i * kValueSize` | medium, not executed | ObjectMemory.GetArrayAtAsWritten, ObjectMemory.SetArrayAtAsWritten, ObjectMemory.ArrayElementsOverlapAsWritten | ObjectMemory.GetArrayAt, ObjectMemory.SetArrayAt, ObjectMemory.NewHeapArray, ObjectMemory.NewHeapPairArray |
| src/c/bind.c:501-524 | the best stage so far starts at `kMostNegativeInt32`, and the comparison is a strict `>` | one fragment at stage INT32_MIN and lookup before stage 0: not found | the latest fragment strictly before the stage, whatever its stage | low, not executed | Binding.ClosestAsWritten, Binding.GetFragmentEntryBeforeAsWritten, Binding.FragmentAtMostNegativeStageMissed | Binding.GetFragmentEntryBefore, Binding.ShouldFragmentBeBound, Binding.BuildBindingSchedule |
| src/c/syntax.c:381-397 | `TRY(emit_value(body, assm))` returns before `assembler_pop_single_symbol_scope` | a body that fails to emit: the symbol stays bound in the assembler | the scope is popped on every path | low, not executed | Syntax.EmitLocalDeclarationAsWritten, Syntax.LocalScopeLeaksAsWritten | Syntax.EmitLocalDeclaration |
| src/c/tagged.c:15-27 | `-offset` and `offset + 1` overflow `int32_t` at the two extremes | offset INT32_MIN or INT32_MAX: nothing is printed, if the overflow wraps | print INT32_MIN as 2^31 at-signs and INT32_MAX as 2^31 dollar signs | low, not executed | Tagged.StageOffsetPrintAsWritten, Tagged.StageOffsetExtremesPrintNothing | Tagged.StageOffsetPrintOn |
| src/c/process.c:435-452 | after jumping to the previous piece it reads that piece's lid and loops while the frame is not organic, without testing for the stack-bottom flag | a new stack whose first frame does not fit on its first piece: iterating from that frame passes the stack-bottom frame recorded in the first piece's lid, walks down to the empty frame at offset 0 and fails the header check below it | stop with no more frames at a stack-bottom frame reached through a lid | medium, not executed | FrameIteration.FrameIterAdvanceAsWritten, FrameIteration.FirstFrameOnSecondPiece | FrameIteration.FrameIterAdvance, FrameIteration.NextOrganic |

=== FILE: bind.dfy ===
/** Module binding (bind.c): finding the fragment before a stage, deciding
    when a fragment can be bound, scheduling, collecting the transitive
    module set, and the epochs a fragment passes through. */
module Binding {
  import opened Wrappers
  import opened Globals
  import opened Collections

  // --- Paths and identifiers ---

  /** A path: a list of names. */
  datatype Path = EmptyPath | PathCons(head: string, tail: Path)

  function PathElements(p: Path): (names: seq<string>)
    ensures p.EmptyPath? <==> names == []
  {
    match p
    case EmptyPath => []
    case PathCons(head, tail) => [head] + PathElements(tail)
  }

  /** `new_heap_path_with_names`: the path of `names[offset..]`, built from
      the end. The empty path is a root and needs no allocation. */
  function NewHeapPathWithNames(names: seq<string>, offset: nat, heapOk: bool): (r: Result<Path, Cause>)
    requires offset <= |names|
    ensures r.Failure? <==> offset < |names| && !heapOk
    ensures r.Failure? ==> r.error == HeapExhausted
    ensures r.Success? ==> PathElements(r.value) == names[offset..]
    decreases |names| - offset
  {
    if offset == |names| then Success(EmptyPath)
    else
      var tail :- NewHeapPathWithNames(names, offset + 1, heapOk);
      if heapOk then Success(PathCons(names[offset], tail)) else Failure(HeapExhausted)
  }

  /** An identifier: a stage offset and a path. */
  datatype Ident = Ident(stage: Int32, path: Path)

  /** `is_present_core`: the identifier `$:core`. */
  predicate IsPresentCore(ident: Ident) {
    && ident.stage == 0
    && !ident.path.EmptyPath?
    && ident.path.tail.EmptyPath?
    && ident.path.head == "core"
  }

  lemma IsPresentCoreMeans(ident: Ident)
    ensures IsPresentCore(ident) <==> ident.stage == 0 && PathElements(ident.path) == ["core"]
  {
    if !ident.path.EmptyPath? {
      assert PathElements(ident.path) == [ident.path.head] + PathElements(ident.path.tail);
      if PathElements(ident.path) == ["core"] {
        assert |PathElements(ident.path.tail)| == 0;
        assert PathElements(ident.path)[0] == ident.path.head;
      }
    }
  }

  // --- Fragment entries ---

  /** A fragment entry: whether there is a real (unbound) fragment or only a
      synthetic one, the identifiers it imports, and its own identifier. */
  datatype FragmentEntry = FragmentEntry(isReal: bool, imports: seq<Ident>, ident: Ident)

  /** The preceding entry as `get_fragment_entry_before` computes it: a
      running best stage seeded with the most negative 32-bit integer,
      replaced only by a strictly larger stage below `stage`. */
  function ClosestAsWritten(fragments: seq<FragmentEntry>, stage: int): (r: (int, Option<FragmentEntry>))
    ensures r.1.None? ==> r.0 == MostNegativeInt32
    ensures r.1.Some? ==>
      r.1.value in fragments && r.0 == r.1.value.ident.stage && MostNegativeInt32 < r.0 < stage
    ensures forall i | 0 <= i < |fragments| && MostNegativeInt32 < fragments[i].ident.stage < stage ::
      fragments[i].ident.stage <= r.0
  {
    if |fragments| == 0 then (MostNegativeInt32, None)
    else
      var (closest, best) := ClosestAsWritten(fragments[..|fragments| - 1], stage);
      var e := fragments[|fragments| - 1];
      if e.ident.stage >= stage then (closest, best)
      else if e.ident.stage > closest then (e.ident.stage, Some(e))
      else (closest, best)
  }

  /** `get_fragment_entry_before` as written: it finds the latest fragment
      before `stage`, but only among stages above the most negative 32-bit
      integer. */
  function GetFragmentEntryBeforeAsWritten(fragments: seq<FragmentEntry>, stage: int): (r: Result<FragmentEntry, Cause>)
    ensures r.Failure? <==> forall i | 0 <= i < |fragments| ::
      fragments[i].ident.stage >= stage || fragments[i].ident.stage <= MostNegativeInt32
    ensures r.Failure? ==> r.error == NotFound
    ensures r.Success? ==> r.value in fragments && MostNegativeInt32 < r.value.ident.stage < stage
    ensures r.Success? ==> forall i | 0 <= i < |fragments| && MostNegativeInt32 < fragments[i].ident.stage < stage ::
      fragments[i].ident.stage <= r.value.ident.stage
  {
    match ClosestAsWritten(fragments, stage).1
    case None => Failure(NotFound)
    case Some(e) => Success(e)
  }

  /** A module whose only fragment has the most negative stage has a
      fragment before stage 0, but it is never picked. */
  lemma FragmentAtMostNegativeStageMissed()
    ensures var e := FragmentEntry(true, [], Ident(MostNegativeInt32, EmptyPath));
      GetFragmentEntryBeforeAsWritten([e], 0) == Failure(NotFound)
      && GetFragmentEntryBefore([e], 0) == Success(e)
  {
    var e := FragmentEntry(true, [], Ident(MostNegativeInt32, EmptyPath));
    assert [e][..0] == [];
    assert ClosestAsWritten([], 0) == (MostNegativeInt32, None);
    assert ClosestAsWritten([e], 0) == (MostNegativeInt32, None);
  }

  /** The entry with the largest stage strictly below `stage`; among equal
      stages the first one. */
  function StageBefore(fragments: seq<FragmentEntry>, stage: int): (r: Option<FragmentEntry>)
    ensures r.None? <==> forall i | 0 <= i < |fragments| :: fragments[i].ident.stage >= stage
    ensures r.Some? ==> r.value in fragments && r.value.ident.stage < stage
    ensures r.Some? ==> forall i | 0 <= i < |fragments| && fragments[i].ident.stage < stage ::
      fragments[i].ident.stage <= r.value.ident.stage
  {
    if |fragments| == 0 then None
    else
      var prefix := fragments[..|fragments| - 1];
      assert forall i | 0 <= i < |fragments| - 1 :: prefix[i] == fragments[i];
      var best := StageBefore(prefix, stage);
      var e := fragments[|fragments| - 1];
      if e.ident.stage >= stage then best
      else if best.None? || e.ident.stage > best.value.ident.stage then Some(e)
      else best
  }

  /** `get_fragment_entry_before` with the running best kept as an option,
      so that every stage can be found. */
  function GetFragmentEntryBefore(fragments: seq<FragmentEntry>, stage: int): (r: Result<FragmentEntry, Cause>)
    ensures r.Failure? <==> forall i | 0 <= i < |fragments| :: fragments[i].ident.stage >= stage
    ensures r.Failure? ==> r.error == NotFound
    ensures r.Success? ==> r.value in fragments && r.value.ident.stage < stage
    ensures r.Success? ==> forall i | 0 <= i < |fragments| && fragments[i].ident.stage < stage ::
      fragments[i].ident.stage <= r.value.ident.stage
  {
    match StageBefore(fragments, stage)
    case None => Failure(NotFound)
    case Some(e) => Success(e)
  }

  /** Away from the most negative stage the two agree. */
  lemma {:induction false} AsWrittenAgreesAboveMostNegative(fragments: seq<FragmentEntry>, stage: int)
    requires forall i | 0 <= i < |fragments| :: fragments[i].ident.stage > MostNegativeInt32
    ensures ClosestAsWritten(fragments, stage).1 == StageBefore(fragments, stage)
    ensures ClosestAsWritten(fragments, stage).0 ==
      (if StageBefore(fragments, stage).Some? then StageBefore(fragments, stage).value.ident.stage as int
       else MostNegativeInt32)
    ensures GetFragmentEntryBeforeAsWritten(fragments, stage) == GetFragmentEntryBefore(fragments, stage)
  {
    if |fragments| > 0 {
      var prefix := fragments[..|fragments| - 1];
      assert forall i | 0 <= i < |prefix| :: prefix[i] == fragments[i];
      AsWrittenAgreesAboveMostNegative(prefix, stage);
    }
  }

  // --- Scheduling ---

  /** Every fragment of every module, in the order of the entry map. */
  type Fragments = seq<FragmentEntry>

  predicate HasEntry(fs: Fragments, ident: Ident) {
    exists i | 0 <= i < |fs| :: fs[i].ident == ident
  }

  /** The first entry for `ident`. */
  function EntryOf(fs: Fragments, ident: Ident): (e: FragmentEntry)
    requires HasEntry(fs, ident)
    ensures e in fs && e.ident == ident
  {
    if fs[0].ident == ident then fs[0]
    else
      assert HasEntry(fs[1..], ident) by {
        var i :| 0 <= i < |fs| && fs[i].ident == ident;
        assert fs[1..][i - 1] == fs[i];
      }
      EntryOf(fs[1..], ident)
  }

  /** The entries of the module at `path`. */
  function ModuleOf(fs: Fragments, path: Path): (m: seq<FragmentEntry>)
    ensures forall e :: e in m <==> e in fs && e.ident.path == path
  {
    if |fs| == 0 then []
    else
      var rest := ModuleOf(fs[1..], path);
      assert forall e :: e in fs <==> e == fs[0] || e in fs[1..];
      if fs[0].ident.path == path then [fs[0]] + rest else rest
  }

  /** A fragment is ready to be bound: it exists and is not yet scheduled,
      everything it imports is scheduled, and so is the fragment of its
      module at the nearest earlier stage, if there is one. */
  ghost predicate Ready(fs: Fragments, schedule: seq<Ident>, ident: Ident) {
    && HasEntry(fs, ident)
    && ident !in schedule
    && (forall i | i in EntryOf(fs, ident).imports :: i in schedule)
    && forall e | NearestBefore(fs, e, ident) :: e.ident in schedule
  }

  /** `e` is a fragment of `ident`'s module at the largest stage below
      `ident`'s. */
  ghost predicate NearestBefore(fs: Fragments, e: FragmentEntry, ident: Ident) {
    && e in fs && e.ident.path == ident.path && e.ident.stage < ident.stage
    && forall e' | e' in fs && e'.ident.path == ident.path && e'.ident.stage < ident.stage ::
         e'.ident.stage <= e.ident.stage
  }

  /** `should_fragment_be_bound`. */
  method ShouldFragmentBeBound(fs: Fragments, schedule: seq<Ident>, ident: Ident) returns (r: bool)
    requires HasEntry(fs, ident)
    ensures r <==> Ready(fs, schedule, ident)
  {
    if ident in schedule {
      return false;
    }
    var entry := EntryOf(fs, ident);
    var i := 0;
    while i < |entry.imports|
      invariant 0 <= i <= |entry.imports|
      invariant forall j | 0 <= j < i :: entry.imports[j] in schedule
    {
      if entry.imports[i] !in schedule {
        return false;
      }
      i := i + 1;
    }
    match GetFragmentEntryBefore(ModuleOf(fs, ident.path), ident.stage)
    case Failure(_) =>
      return true;
    case Success(before) =>
      assert forall e | NearestBefore(fs, e, ident) :: e.ident == before.ident;
      return before.ident in schedule;
  }

  /** A schedule built one identifier at a time, each drawn from `all` and
      ready when it was appended. */
  ghost predicate ScheduleSound(fs: Fragments, all: seq<Ident>, schedule: seq<Ident>)
    decreases |schedule|
  {
    if |schedule| == 0 then true
    else
      && ScheduleSound(fs, all, schedule[..|schedule| - 1])
      && schedule[|schedule| - 1] in all
      && ReadyAt(fs, schedule, |schedule| - 1)
  }

  /** The identifier at position `k` of the schedule was ready given the
      ones before it. */
  ghost predicate ReadyAt(fs: Fragments, schedule: seq<Ident>, k: nat) {
    k < |schedule| && Ready(fs, schedule[..k], schedule[k])
  }

  lemma ReadyAtPrefix(fs: Fragments, schedule: seq<Ident>, n: nat, k: nat)
    requires k < n <= |schedule| && ReadyAt(fs, schedule[..n], k)
    ensures ReadyAt(fs, schedule, k)
  {
    assert schedule[..n][..k] == schedule[..k];
  }

  /** A sound schedule is drawn from `all`, and each identifier was ready
      given the ones before it. */
  lemma {:induction false} ScheduleSoundMeans(fs: Fragments, all: seq<Ident>, schedule: seq<Ident>)
    requires ScheduleSound(fs, all, schedule)
    ensures forall k | 0 <= k < |schedule| :: schedule[k] in all
    ensures forall k | 0 <= k < |schedule| :: ReadyAt(fs, schedule, k)
    decreases |schedule|
  {
    if |schedule| > 0 {
      var n := |schedule| - 1;
      var prefix := schedule[..n];
      ScheduleSoundMeans(fs, all, prefix);
      forall k | 0 <= k < |schedule|
        ensures schedule[k] in all && ReadyAt(fs, schedule, k)
      {
        if k < n {
          ReadyAtPrefix(fs, schedule, n, k);
          assert schedule[k] == prefix[k];
        }
      }
    }
  }

  /** A sound schedule has no repetitions: each identifier was unscheduled
      when it was appended. */
  lemma {:induction false} ScheduleSoundDistinct(fs: Fragments, all: seq<Ident>, schedule: seq<Ident>)
    requires ScheduleSound(fs, all, schedule)
    ensures Distinct(schedule)
    decreases |schedule|
  {
    if |schedule| > 0 {
      var n := |schedule| - 1;
      var prefix := schedule[..n];
      ScheduleSoundDistinct(fs, all, prefix);
      assert ReadyAt(fs, schedule, n);
      assert schedule[n] !in prefix;
      forall i, j | 0 <= i < j < |schedule|
        ensures schedule[i] != schedule[j]
      {
        assert schedule[i] == prefix[i];
        if j < n {
          assert schedule[j] == prefix[j];
        }
      }
    }
  }

  /** Appending a ready identifier of `all` keeps a schedule sound, and a
      sound schedule never outgrows `all`. */
  lemma ScheduleGrows(fs: Fragments, all: seq<Ident>, schedule: seq<Ident>, ident: Ident)
    requires ident in all
    requires ScheduleSound(fs, all, schedule)
    requires Ready(fs, schedule, ident)
    ensures ScheduleSound(fs, all, schedule + [ident])
    ensures |schedule| < |all|
  {
    var next := schedule + [ident];
    assert next[..|schedule|] == schedule;
    assert ReadyAt(fs, next, |schedule|);
    ScheduleSoundMeans(fs, all, next);
    ScheduleSoundDistinct(fs, all, next);
    DistinctWithin(next, all);
  }

  /** No identifier among `candidates` is ready. */
  ghost predicate NoneReady(fs: Fragments, schedule: seq<Ident>, candidates: seq<Ident>)
    decreases |candidates|
  {
    if |candidates| == 0 then true
    else
      && NoneReady(fs, schedule, candidates[..|candidates| - 1])
      && !Ready(fs, schedule, candidates[|candidates| - 1])
  }

  lemma NoneReadyGrows(fs: Fragments, schedule: seq<Ident>, all: seq<Ident>, i: nat)
    requires i < |all| && NoneReady(fs, schedule, all[..i]) && !Ready(fs, schedule, all[i])
    ensures NoneReady(fs, schedule, all[..i + 1])
  {
    assert all[..i + 1][..i] == all[..i];
  }

  lemma {:induction false} NoneReadyMeans(fs: Fragments, schedule: seq<Ident>, candidates: seq<Ident>)
    requires NoneReady(fs, schedule, candidates)
    ensures forall k | 0 <= k < |candidates| :: !Ready(fs, schedule, candidates[k])
    decreases |candidates|
  {
    if |candidates| > 0 {
      var prefix := candidates[..|candidates| - 1];
      NoneReadyMeans(fs, schedule, prefix);
      forall k | 0 <= k < |candidates|
        ensures !Ready(fs, schedule, candidates[k])
      {
        if k < |prefix| {
          assert candidates[k] == prefix[k];
        }
      }
    }
  }

  lemma AppendKeepsOk(addOk: nat -> bool, n: nat)
    requires addOk(n) && forall k: nat | k < n :: addOk(k)
    ensures forall k: nat | k < n + 1 :: addOk(k)
  {
  }

  /** One step of the scan in `build_binding_schedule`: append the
      identifier at position `i` if it is ready, failing when the append
      does. */
  method ScheduleStep(fs: Fragments, all: seq<Ident>, addOk: nat -> bool, schedule: seq<Ident>, i: nat)
    returns (next: seq<Ident>, appended: bool, exhausted: bool)
    requires i < |all| && HasEntry(fs, all[i])
    requires ScheduleSound(fs, all, schedule) && NoneReady(fs, schedule, all[..i])
    ensures exhausted ==> !appended && |schedule| < |all| && !addOk(|schedule|)
    ensures appended ==> next == schedule + [all[i]] && |schedule| < |all| && addOk(|schedule|)
    ensures appended ==> ScheduleSound(fs, all, next)
    ensures !appended && !exhausted ==> next == schedule && NoneReady(fs, schedule, all[..i + 1])
  {
    var ready := ShouldFragmentBeBound(fs, schedule, all[i]);
    if ready {
      ScheduleGrows(fs, all, schedule, all[i]);
      if !addOk(|schedule|) {
        return schedule, false, true;
      }
      return schedule + [all[i]], true, false;
    }
    NoneReadyGrows(fs, schedule, all, i);
    return schedule, false, false;
  }

  /** The scanning loop of `build_binding_schedule`: repeatedly scan all
      fragments from the start, appending the first ready one, until a
      full scan finds none or an append fails. */
  method ScheduleReady(fs: Fragments, all: seq<Ident>, addOk: nat -> bool)
    returns (schedule: seq<Ident>, exhausted: bool)
    requires forall k | 0 <= k < |all| :: HasEntry(fs, all[k])
    ensures ScheduleSound(fs, all, schedule)
    ensures forall n: nat | n < |schedule| :: addOk(n)
    ensures exhausted ==> |schedule| < |all| && !addOk(|schedule|)
    ensures !exhausted ==> NoneReady(fs, schedule, all)
  {
    schedule := [];
    var i := 0;
    while i < |all|
      invariant 0 <= i <= |all| && |schedule| <= |all|
      invariant ScheduleSound(fs, all, schedule)
      invariant forall n: nat | n < |schedule| :: addOk(n)
      invariant NoneReady(fs, schedule, all[..i])
      decreases |all| - |schedule|, |all| - i
    {
      var next, appended, failed := ScheduleStep(fs, all, addOk, schedule, i);
      if failed {
        return schedule, true;
      }
      if appended {
        AppendKeepsOk(addOk, |schedule|);
        schedule := next;
        i := 0;
        assert NoneReady(fs, schedule, all[..i]) by {
          assert all[..i] == [];
        }
      } else {
        i := i + 1;
      }
    }
    assert all[..i] == all;
    return schedule, false;
  }

  /** `build_binding_schedule`. `newOk` says whether the schedule buffer
      and the identifier array can be created, `addOk(n)` whether
      appending to a schedule of length `n` succeeds; the appends that
      fill the identifier array are not modelled. Each identifier is
      scheduled at most once, after its imports and its module's preceding
      fragment, and nothing ready is left behind; the only failure is heap
      exhaustion. */
  method BuildBindingSchedule(fs: Fragments, all: seq<Ident>, newOk: bool, addOk: nat -> bool)
    returns (r: Result<seq<Ident>, Cause>)
    requires forall k | 0 <= k < |all| :: HasEntry(fs, all[k])
    ensures !newOk ==> r == Failure(HeapExhausted)
    ensures r.Failure? ==> r.error == HeapExhausted
    ensures r.Failure? ==> !newOk || exists n: nat | n < |all| :: !addOk(n)
    ensures newOk && (forall n: nat | n < |all| :: addOk(n)) ==> r.Success?
    ensures r.Success? ==> forall n: nat | n < |r.value| :: addOk(n)
    ensures r.Success? ==> Distinct(r.value) && forall k | 0 <= k < |r.value| :: r.value[k] in all
    ensures r.Success? ==> forall k | 0 <= k < |r.value| :: ReadyAt(fs, r.value, k)
    ensures r.Success? ==> forall k | 0 <= k < |all| :: !Ready(fs, r.value, all[k])
  {
    if !newOk {
      return Failure(HeapExhausted);
    }
    var schedule, exhausted := ScheduleReady(fs, all, addOk);
    if exhausted {
      return Failure(HeapExhausted);
    }
    NoneReadyMeans(fs, schedule, all);
    ScheduleSoundMeans(fs, all, schedule);
    ScheduleSoundDistinct(fs, all, schedule);
    return Success(schedule);
  }

  // --- The transitive module set ---

  /** An unbound module: its name and, per fragment, the names it imports. */
  datatype UnboundModule = UnboundModule(name: string, fragmentImports: seq<seq<string>>)

  /** The module loader's modules by name. */
  type Loader = map<string, UnboundModule>

  predicate LoaderNamed(loader: Loader) {
    forall n | n in loader :: loader[n].name == n
  }

  /** Every module `m` imports can be looked up and is in `array`. */
  predicate ImportsPresent(loader: Loader, m: string, buffer: seq<string>)
    requires m in loader
  {
    forall fi, ii | 0 <= fi < |loader[m].fragmentImports| && 0 <= ii < |loader[m].fragmentImports[fi]| ::
      loader[m].fragmentImports[fi][ii] in loader && loader[m].fragmentImports[fi][ii] in buffer
  }

  /** Some fragment of the loaded module `a` imports the name `b`. */
  predicate ImportsName(loader: Loader, a: string, b: string) {
    && a in loader
    && exists fi, ii | 0 <= fi < |loader[a].fragmentImports| && 0 <= ii < |loader[a].fragmentImports[fi]| ::
         loader[a].fragmentImports[fi][ii] == b
  }

  /** Every name a loaded module imports is itself loaded, so the module
      loader never misses a lookup. */
  ghost predicate ImportsClosed(loader: Loader) {
    forall a, b | ImportsName(loader, a, b) :: b in loader
  }

  /** The module at position `k` is imported by a module before it. */
  predicate ImportedBefore(loader: Loader, after: seq<string>, k: nat)
    requires k < |after|
  {
    exists j | 0 <= j < k :: ImportsName(loader, after[j], after[k])
  }

  /** Every module from position `from` on was added because a module
      before it imports it. */
  predicate GrownByImports(loader: Loader, after: seq<string>, from: nat) {
    forall k | from <= k < |after| :: ImportedBefore(loader, after, k)
  }

  lemma GrownByImportsJoin(loader: Loader, current: seq<string>, next: seq<string>, from: nat)
    requires current <= next && from <= |current|
    requires GrownByImports(loader, current, from) && GrownByImports(loader, next, |current|)
    ensures GrownByImports(loader, next, from)
  {
    forall k | from <= k < |current|
      ensures ImportedBefore(loader, next, k)
    {
      assert ImportedBefore(loader, current, k);
      var j :| 0 <= j < k && ImportsName(loader, current[j], current[k]);
      assert next[j] == current[j] && next[k] == current[k];
    }
  }

  /** A module added right after `current` because the module at
      `importer` imports it keeps the array grown by imports. */
  lemma GrownByImportedName(loader: Loader, current: seq<string>, next: seq<string>, importer: nat, name: string)
    requires current <= next && importer < |current| < |next| && next[|current|] == name
    requires ImportsName(loader, current[importer], name)
    requires GrownByImports(loader, next, |current| + 1)
    ensures GrownByImports(loader, next, |current|)
  {
    assert next[importer] == current[importer];
    assert ImportedBefore(loader, next, |current|);
  }

  lemma OkRangeJoin(addOk: nat -> bool, a: nat, b: nat, c: nat)
    requires a <= b
    requires forall n: nat | a <= n < b :: addOk(n)
    requires forall n: nat | b <= n < c :: addOk(n)
    ensures forall n: nat | a <= n < c :: addOk(n)
  {
  }

  lemma PrefixElements(a: seq<string>, b: seq<string>)
    requires a <= b
    ensures forall x | x in a :: x in b
  {
    forall x | x in a
      ensures x in b
    {
      var k :| 0 <= k < |a| && a[k] == x;
      assert b[k] == x;
    }
  }

  /** Growing the array never adds to the modules still missing. */
  lemma MissingNoMore(loader: Loader, buffer: seq<string>, current: seq<string>)
    requires buffer <= current
    ensures |loader.Keys - Elements(current)| <= |loader.Keys - Elements(buffer)|
  {
    assert Elements(buffer) <= Elements(current) by {
      forall n | n in buffer
        ensures n in current
      {
        var k :| 0 <= k < |buffer| && buffer[k] == n;
        assert current[k] == n;
      }
    }
    SubsetCardinality(loader.Keys - Elements(current), loader.Keys - Elements(buffer));
  }

  /** Every name a fragment of `m` imports is imported by `m`. */
  lemma ImportsEach(loader: Loader, m: string, fi: nat)
    requires m in loader && fi < |loader[m].fragmentImports|
    ensures forall i | 0 <= i < |loader[m].fragmentImports[fi]| :: ImportsName(loader, m, loader[m].fragmentImports[fi][i])
  {
    forall i | 0 <= i < |loader[m].fragmentImports[fi]|
      ensures ImportsName(loader, m, loader[m].fragmentImports[fi][i])
    {
      assert loader[m].fragmentImports[fi][i] == loader[m].fragmentImports[fi][i];
    }
  }

  function Elements(buffer: seq<string>): set<string> {
    set n | n in buffer
  }

  /** The result of one step of `ensure_module_in_array`: the array grown
      at the end, every element still loadable, and every module added
      during the step with all its imports present. */
  predicate Extends(loader: Loader, before: seq<string>, after: seq<string>) {
    && before <= after
    && (forall n | n in after :: n in loader)
    && (Distinct(before) ==> Distinct(after))
    && forall k | |before| <= k < |after| :: ImportsPresent(loader, after[k], after)
  }

  lemma ExtendsTransitive(loader: Loader, a: seq<string>, b: seq<string>, c: seq<string>)
    requires Extends(loader, a, b) && Extends(loader, b, c)
    ensures Extends(loader, a, c)
  {
    forall k | |a| <= k < |c|
      ensures ImportsPresent(loader, c[k], c)
    {
      if k < |b| {
        assert c[k] == b[k];
      }
    }
  }

  /** Once `m` is added, fewer modules of the loader are missing. */
  lemma FewerMissing(loader: Loader, buffer: seq<string>, m: string, current: seq<string>)
    requires m in loader && m !in buffer && buffer + [m] <= current
    ensures |loader.Keys - Elements(current)| < |loader.Keys - Elements(buffer)|
  {
    var start := buffer + [m];
    assert Elements(start) == Elements(buffer) + {m};
    assert Elements(start) <= Elements(current) by {
      forall n | n in start
        ensures n in current
      {
        var k :| 0 <= k < |start| && start[k] == n;
        assert current[k] == n;
      }
    }
    assert loader.Keys - Elements(start) == (loader.Keys - Elements(buffer)) - {m};
    SubsetCardinality(loader.Keys - Elements(current), loader.Keys - Elements(start));
  }

  /** Adding `m` and then its imports extends `buffer`. */
  lemma ExtendsByModule(loader: Loader, buffer: seq<string>, m: string, current: seq<string>)
    requires m in loader && m !in buffer && forall n | n in buffer :: n in loader
    requires Extends(loader, buffer + [m], current) && ImportsPresent(loader, m, current)
    ensures Extends(loader, buffer, current) && m in current
  {
    var start := buffer + [m];
    assert current[|buffer|] == start[|buffer|] == m;
    if Distinct(buffer) {
      assert Distinct(start);
    }
    forall k | |buffer| <= k < |current|
      ensures ImportsPresent(loader, current[k], current)
    {
    }
  }

  /** `ensure_module_in_array`: add `m` unless `buffer` holds it, then
      every module its fragments import, recursively. `addOk(n)` says
      whether appending to a buffer of length `n` succeeds. A missing
      import is NotFound, a failed append HeapExhausted. Everything added
      is `m` or imported by a module before it. */
  method EnsureModuleInArray(loader: Loader, buffer: seq<string>, m: string, addOk: nat -> bool)
    returns (r: Result<seq<string>, Cause>)
    requires LoaderNamed(loader) && m in loader
    requires forall n | n in buffer :: n in loader
    ensures r.Failure? ==> r.error == NotFound || r.error == HeapExhausted
    ensures r.Failure? && r.error == HeapExhausted ==> exists n: nat | |buffer| <= n :: !addOk(n)
    ensures m !in buffer && !addOk(|buffer|) ==> r == Failure(HeapExhausted)
    ensures r.Success? ==> forall n: nat | |buffer| <= n < |r.value| :: addOk(n)
    ensures r.Success? ==> Extends(loader, buffer, r.value) && m in r.value
    ensures r.Success? && m !in buffer ==> r.value[|buffer|] == m && GrownByImports(loader, r.value, |buffer| + 1)
    ensures m in buffer ==> r == Success(buffer)
    ensures r == Failure(NotFound) ==> !ImportsClosed(loader)
    ensures ImportsClosed(loader) && (forall n: nat | |buffer| <= n :: addOk(n)) ==> r.Success?
    decreases |loader.Keys - Elements(buffer)|, 2
  {
    if m in buffer {
      return Success(buffer);
    }
    if !addOk(|buffer|) {
      return Failure(HeapExhausted);
    }
    var start := buffer + [m];
    var limit := |loader.Keys - Elements(buffer)|;
    var imports := loader[m].fragmentImports;
    var current := start;
    var fi := 0;
    while fi < |imports|
      invariant 0 <= fi <= |imports|
      invariant Extends(loader, start, current)
      invariant forall n: nat | |buffer| <= n < |current| :: addOk(n)
      invariant GrownByImports(loader, current, |buffer| + 1)
      invariant forall f, i | 0 <= f < fi && 0 <= i < |imports[f]| :: imports[f][i] in loader && imports[f][i] in current
    {
      FewerMissing(loader, buffer, m, current);
      assert current[|buffer|] == m;
      ImportsEach(loader, m, fi);
      var next := EnsureImportsInArray(loader, current, imports[fi], addOk, limit, |buffer|);
      if next.Failure? {
        return next;
      }
      ExtendsTransitive(loader, start, current, next.value);
      GrownByImportsJoin(loader, current, next.value, |buffer| + 1);
      OkRangeJoin(addOk, |buffer|, |current|, |next.value|);
      PrefixElements(current, next.value);
      current := next.value;
      fi := fi + 1;
    }
    ExtendsByModule(loader, buffer, m, current);
    return Success(current);
  }

  /** The inner loop of `ensure_module_in_array`: ensure each name that
      the module at `importer` imports, in turn. `limit` bounds the
      modules still missing. */
  method EnsureImportsInArray(loader: Loader, buffer: seq<string>, names: seq<string>, addOk: nat -> bool,
      ghost limit: nat, ghost importer: nat)
    returns (r: Result<seq<string>, Cause>)
    requires LoaderNamed(loader)
    requires forall n | n in buffer :: n in loader
    requires |loader.Keys - Elements(buffer)| < limit
    requires importer < |buffer| && forall i | 0 <= i < |names| :: ImportsName(loader, buffer[importer], names[i])
    ensures r.Failure? ==> r.error == NotFound || r.error == HeapExhausted
    ensures r.Failure? && r.error == HeapExhausted ==> exists n: nat | |buffer| <= n :: !addOk(n)
    ensures r.Success? ==> forall n: nat | |buffer| <= n < |r.value| :: addOk(n)
    ensures r.Success? ==> Extends(loader, buffer, r.value) && GrownByImports(loader, r.value, |buffer|)
    ensures r.Success? ==> forall i | 0 <= i < |names| :: names[i] in loader && names[i] in r.value
    ensures r == Failure(NotFound) ==> !ImportsClosed(loader)
    ensures ImportsClosed(loader) && (forall n: nat | |buffer| <= n :: addOk(n)) ==> r.Success?
    decreases limit, 1
  {
    var current := buffer;
    var ii := 0;
    while ii < |names|
      invariant 0 <= ii <= |names|
      invariant Extends(loader, buffer, current)
      invariant forall n: nat | |buffer| <= n < |current| :: addOk(n)
      invariant GrownByImports(loader, current, |buffer|)
      invariant forall i | 0 <= i < ii :: names[i] in loader && names[i] in current
    {
      var next := EnsureImportedName(loader, buffer, current, names[ii], addOk, limit, importer);
      if next.Failure? {
        return next;
      }
      PrefixElements(current, next.value);
      current := next.value;
      ii := ii + 1;
    }
    return Success(current);
  }

  /** One step of the inner loop of `ensure_module_in_array`: look the
      name up, NotFound when the loader lacks it, and ensure its module. */
  method EnsureImportedName(loader: Loader, buffer: seq<string>, current: seq<string>, name: string,
      addOk: nat -> bool, ghost limit: nat, ghost importer: nat)
    returns (r: Result<seq<string>, Cause>)
    requires LoaderNamed(loader)
    requires forall n | n in buffer :: n in loader
    requires |loader.Keys - Elements(buffer)| < limit
    requires importer < |buffer| && ImportsName(loader, buffer[importer], name)
    requires Extends(loader, buffer, current) && GrownByImports(loader, current, |buffer|)
    requires forall n: nat | |buffer| <= n < |current| :: addOk(n)
    ensures r.Failure? ==> r.error == NotFound || r.error == HeapExhausted
    ensures r.Failure? && r.error == HeapExhausted ==> exists n: nat | |buffer| <= n :: !addOk(n)
    ensures r.Success? ==> name in loader && name in r.value && current <= r.value
    ensures r.Success? ==> forall n: nat | |buffer| <= n < |r.value| :: addOk(n)
    ensures r.Success? ==> Extends(loader, buffer, r.value) && GrownByImports(loader, r.value, |buffer|)
    ensures name !in loader ==> r == Failure(NotFound)
    ensures r == Failure(NotFound) ==> !ImportsClosed(loader)
    ensures ImportsClosed(loader) && (forall n: nat | |buffer| <= n :: addOk(n)) ==> r.Success?
    decreases limit, 0
  {
    if name !in loader {
      return Failure(NotFound);
    }
    MissingNoMore(loader, buffer, current);
    var next := EnsureModuleInArray(loader, current, name, addOk);
    if next.Failure? {
      return next;
    }
    if name !in current {
      GrownByImportedName(loader, current, next.value, importer, name);
      GrownByImportsJoin(loader, current, next.value, |buffer|);
      ExtendsTransitive(loader, buffer, current, next.value);
      OkRangeJoin(addOk, |buffer|, |current|, |next.value|);
    }
    return next;
  }

  /** `build_transitive_module_array`: from a new, empty array. `newOk`
      says whether the array can be allocated. On success the array starts
      with `m`, is closed under imports, and holds nothing else: every
      later module is imported by one before it. */
  method BuildTransitiveModuleArray(loader: Loader, m: string, newOk: bool, addOk: nat -> bool)
    returns (r: Result<seq<string>, Cause>)
    requires LoaderNamed(loader) && m in loader
    ensures !newOk || !addOk(0) ==> r == Failure(HeapExhausted)
    ensures r.Failure? ==> r.error == NotFound || r.error == HeapExhausted
    ensures r.Failure? && r.error == HeapExhausted ==> !newOk || exists n: nat :: !addOk(n)
    ensures r.Success? ==> newOk && forall n: nat | n < |r.value| :: addOk(n)
    ensures r.Success? ==> |r.value| > 0 && r.value[0] == m && Distinct(r.value)
    ensures r.Success? ==> forall n | n in r.value :: n in loader && ImportsPresent(loader, n, r.value)
    ensures r.Success? ==> GrownByImports(loader, r.value, 1)
    ensures r == Failure(NotFound) ==> !ImportsClosed(loader)
    ensures ImportsClosed(loader) && newOk && (forall n: nat :: addOk(n)) ==> r.Success?
  {
    if !newOk {
      return Failure(HeapExhausted);
    }
    r := EnsureModuleInArray(loader, [], m, addOk);
    if r.Success? {
      forall n | n in r.value
        ensures n in loader && ImportsPresent(loader, n, r.value)
      {
        var k :| 0 <= k < |r.value| && r.value[k] == n;
      }
    }
  }

  // --- Builtins ---

  /** `validate_builtin_method_binding`: the signature's parameter count
      less the subject and the selector, as a `size_t`, must equal the
      builtin's argument count. */
  function ValidateBuiltinMethodBinding(parameterCount: Size, argumentCount: Size): (r: Result<(), Cause>)
    ensures r.Failure? ==> r.error == BuiltinBindingFailed
    ensures parameterCount >= 2 ==> (r.Success? <==> parameterCount - 2 == argumentCount)
    ensures parameterCount < 2 ==> (r.Success? <==> argumentCount == SizeLimit - 2 + parameterCount)
  {
    var positional := (parameterCount - 1 - 1) % SizeLimit;
    if positional != argumentCount then Failure(BuiltinBindingFailed) else Success(())
  }

  // --- Fragment epochs ---

  datatype Epoch = Unbound | Binding | Complete

  function EpochRank(e: Epoch): nat {
    match e
    case Unbound => 0
    case Binding => 1
    case Complete => 2
  }

  datatype Bound = Bound(epoch: Epoch, result: Result<(), Cause>)

  /** `bind_module_fragment`: a real fragment must be unbound; it is marked
      binding while its imports and elements are applied (whose outcomes
      are given) and complete once both succeed. A synthetic fragment goes
      straight to complete. */
  function BindModuleFragment(isReal: bool, epoch: Epoch, importsBound: Result<(), Cause>,
      elementsApplied: Result<(), Cause>): (r: Bound)
    requires isReal ==> epoch == Unbound
    ensures r.result.Success? <==> !isReal || (importsBound.Success? && elementsApplied.Success?)
    ensures r.result.Success? <==> r.epoch == Complete
    ensures r.result.Failure? ==> r.epoch == Binding
    ensures EpochRank(epoch) <= EpochRank(r.epoch) || !isReal
    ensures r.result.Failure? ==> r.result == (if importsBound.Failure? then importsBound else elementsApplied)
  {
    if !isReal then Bound(Complete, Success(()))
    else if importsBound.Failure? then Bound(Binding, importsBound)
    else if elementsApplied.Failure? then Bound(Binding, elementsApplied)
    else Bound(Complete, Success(()))
  }
}

=== FILE: collections.dfy ===
/** Facts about sequences and sets that several modules use. */
module Collections {

  /** No element occurs twice. */
  predicate Distinct<T(==)>(s: seq<T>) {
    forall i, j | 0 <= i < j < |s| :: s[i] != s[j]
  }

  /** A repetition-free sequence drawn from `b` is no longer than `b`. */
  lemma {:induction false} DistinctWithin<T>(a: seq<T>, b: seq<T>)
    requires Distinct(a) && forall x | x in a :: x in b
    ensures |a| <= |b|
  {
    if |a| > 0 {
      assert a[0] in a;
      var k :| 0 <= k < |b| && b[k] == a[0];
      var b' := b[..k] + b[k + 1..];
      forall x | x in a[1..]
        ensures x in b'
      {
        var i :| 0 <= i < |a[1..]| && a[1..][i] == x;
        assert a[i + 1] == x;
        assert x in a;
        var j :| 0 <= j < |b| && b[j] == x;
        assert j != k by {
          assert a[0] != a[i + 1];
        }
        if j < k { assert b'[j] == x; } else { assert b'[j - 1] == x; }
      }
      DistinctWithin(a[1..], b');
    }
  }

  /** A subset is no larger than its superset. */
  lemma {:induction false} SubsetCardinality<T>(a: set<T>, b: set<T>)
    requires a <= b
    ensures |a| <= |b|
  {
    if a != {} {
      var x :| x in a;
      SubsetCardinality(a - {x}, b - {x});
    }
  }

  /** A proper subset is strictly smaller. */
  lemma StrictSubsetCardinality<T>(a: set<T>, b: set<T>)
    requires a < b
    ensures |a| < |b|
  {
    var x :| x in b && x !in a;
    SubsetCardinality(a, b - {x});
  }
}

=== FILE: frameiter.dfy ===
/** Walking the frames of a stack from the top down, across piece
    boundaries, and turning a frame into a backtrace entry (process.c). */
module FrameIteration {
  import opened Wrappers
  import opened Layout
  import opened StackPiece
  import StackGrowth

  // --- Frame iteration ---

  /** The piece a frame is on, or 0 for a frame on no piece. */
  function PieceOf(f: Frame): nat {
    if f.piece.Some? then f.piece.value else 0
  }

  /** The frames below `f` can be walked until an organic frame or the
      stack bottom is reached: every header on the way is readable, within
      a piece each step moves strictly down, and a piece-bottom frame leads
      to an earlier, closed piece. The walk ends at a stack-bottom frame
      whether it is met within a piece or in a lid. */
  ghost predicate Walkable(pieces: seq<Piece>, f: Frame)
    decreases PieceOf(f), f.fp
  {
    && f.piece.Some? && f.piece.value < |pieces|
    && HeaderReadable(pieces[f.piece.value], f.fp)
    && var g := WalkDown(pieces[f.piece.value], f);
       if HasFlag(g.flags, StackPieceBottom) then
         var below := pieces[f.piece.value].previous;
         && below.Some? && below.value < f.piece.value
         && LidReadable(pieces[below.value])
         && var h := ReadLid(pieces[below.value], below.value);
            HasFlag(h.flags, StackBottom) || HasFlag(h.flags, Organic) || Walkable(pieces, h)
       else if HasFlag(g.flags, StackBottom) then true
       else HasFlag(g.flags, Organic) || (g.fp < f.fp && Walkable(pieces, g))
  }

  /** One step down from `f`: the frame below, or, from a piece's bottom
      frame, the frame recorded in the previous piece's lid. */
  function StepDown(pieces: seq<Piece>, f: Frame): (g: Frame)
    requires Walkable(pieces, f)
  {
    var g := WalkDown(pieces[f.piece.value], f);
    if HasFlag(g.flags, StackPieceBottom) then
      var below := pieces[f.piece.value].previous.value;
      ReadLid(pieces[below], below)
    else g
  }

  /** The next organic frame below `f`, or None when the stack bottom comes
      first. */
  function NextOrganic(pieces: seq<Piece>, f: Frame): (r: Option<Frame>)
    requires Walkable(pieces, f)
    ensures r.Some? ==> HasFlag(r.value.flags, Organic)
    ensures r.Some? ==> r.value.piece.Some? && r.value.piece.value <= f.piece.value
    decreases PieceOf(f), f.fp
  {
    var g := StepDown(pieces, f);
    if HasFlag(g.flags, StackBottom) then None
    else if HasFlag(g.flags, Organic) then Some(g)
    else NextOrganic(pieces, g)
  }

  /** A frame the walk passes over without stopping is neither the stack
      bottom nor organic, and the walk continues from it. */
  lemma SkipsNonOrganic(pieces: seq<Piece>, f: Frame)
    requires Walkable(pieces, f)
    requires !HasFlag(StepDown(pieces, f).flags, Organic)
    requires !HasFlag(StepDown(pieces, f).flags, StackBottom)
    ensures Walkable(pieces, StepDown(pieces, f))
    ensures NextOrganic(pieces, f) == NextOrganic(pieces, StepDown(pieces, f))
    ensures PieceOf(StepDown(pieces, f)) < PieceOf(f)
      || (PieceOf(StepDown(pieces, f)) == PieceOf(f) && StepDown(pieces, f).fp < f.fp)
  {
  }

  /** One step of `frame_iter_advance`'s loop: walk down, and from a
      piece's bottom frame jump to the lid of the previous piece. */
  method AdvanceStep(pieces: seq<Piece>, current: Frame) returns (g: Frame)
    requires Walkable(pieces, current)
    ensures g == StepDown(pieces, current)
  {
    var index := current.piece.value;
    g := WalkDown(pieces[index], current);
    if HasFlag(g.flags, StackPieceBottom) {
      var below := pieces[index].previous.value;
      g := ReadLid(pieces[below], below);
    }
  }

  /** `frame_iter_advance`, with the stack-bottom test applied after a jump
      to the previous piece's lid as well: step down until an organic frame
      is reached (true) or the stack-bottom frame is (false). */
  method FrameIterAdvance(pieces: seq<Piece>, f: Frame) returns (more: bool, current: Frame)
    requires Walkable(pieces, f)
    ensures more <==> NextOrganic(pieces, f).Some?
    ensures more ==> current == NextOrganic(pieces, f).value && HasFlag(current.flags, Organic)
    ensures !more ==> HasFlag(current.flags, StackBottom)
  {
    current := f;
    while true
      invariant Walkable(pieces, current)
      invariant NextOrganic(pieces, current) == NextOrganic(pieces, f)
      decreases PieceOf(current), current.fp
    {
      var g := AdvanceStep(pieces, current);
      if HasFlag(g.flags, StackBottom) {
        return false, g;
      }
      if HasFlag(g.flags, Organic) {
        return true, g;
      }
      SkipsNonOrganic(pieces, current);
      current := g;
    }
  }

  /** How `frame_iter_advance` as written ends: at a frame (`more` says
      whether it is organic), at a failed header check, or, in the model
      only, when the step bound runs out. */
  datatype Advanced = Advanced(more: bool, frame: Frame) | CheckFailed | OutOfFuel

  /** `frame_iter_advance` as written: after jumping to the previous
      piece's lid it tests only whether that frame is organic, so a lid
      recording the stack-bottom frame is walked below. A header the walk
      cannot read, below the bottom of its piece, is the failed check in
      `access_frame_header_field`; `fuel` bounds the steps. */
  function FrameIterAdvanceAsWritten(pieces: seq<Piece>, f: Frame, fuel: nat): (r: Advanced)
    ensures r.Advanced? && r.more ==> HasFlag(r.frame.flags, Organic)
    ensures r.Advanced? && !r.more ==> HasFlag(r.frame.flags, StackBottom)
    decreases fuel
  {
    if fuel == 0 then OutOfFuel
    else if f.piece.None? || f.piece.value >= |pieces| || !HeaderReadable(pieces[f.piece.value], f.fp) then
      CheckFailed
    else
      var g := WalkDown(pieces[f.piece.value], f);
      if HasFlag(g.flags, StackPieceBottom) then
        var below := pieces[f.piece.value].previous;
        if below.None? || below.value >= |pieces| || !LidReadable(pieces[below.value]) then CheckFailed
        else
          var h := ReadLid(pieces[below.value], below.value);
          if HasFlag(h.flags, Organic) then Advanced(true, h)
          else FrameIterAdvanceAsWritten(pieces, h, fuel - 1)
      else if HasFlag(g.flags, StackBottom) then Advanced(false, g)
      else if HasFlag(g.flags, Organic) then Advanced(true, g)
      else FrameIterAdvanceAsWritten(pieces, g, fuel - 1)
  }

  /** The number of steps the walk from `f` takes before it stops. */
  ghost function WalkLength(pieces: seq<Piece>, f: Frame): (n: nat)
    requires Walkable(pieces, f)
    ensures n >= 1
    decreases PieceOf(f), f.fp
  {
    var g := StepDown(pieces, f);
    if HasFlag(g.flags, StackBottom) || HasFlag(g.flags, Organic) then 1
    else 1 + WalkLength(pieces, g)
  }

  /** Whenever an organic frame lies below, the as-written iteration finds
      the same one as the corrected: the two differ only on a walk that
      ends at a stack-bottom frame. */
  lemma {:induction false} AsWrittenFindsNextOrganic(pieces: seq<Piece>, f: Frame, fuel: nat)
    requires Walkable(pieces, f) && NextOrganic(pieces, f).Some?
    requires fuel >= WalkLength(pieces, f)
    ensures FrameIterAdvanceAsWritten(pieces, f, fuel) == Advanced(true, NextOrganic(pieces, f).value)
    decreases PieceOf(f), f.fp
  {
    var g := StepDown(pieces, f);
    if !HasFlag(g.flags, Organic) {
      AsWrittenFindsNextOrganic(pieces, g, fuel - 1);
    }
  }

  /** A new stack whose first frame does not fit on its first piece: the
      frame goes on a second piece and the first piece's lid records the
      stack-bottom frame. Walking down from the new frame, the as-written
      iteration passes the stack-bottom frame, reaches the empty frame at
      offset 0 and fails the header check below it; the corrected one stops
      at the stack-bottom frame and reports that no organic frame remains. */
  method FirstFrameOnSecondPiece(stackId: nat, defaultCapacity: nat, stackBottomMark: nat, stackBottomCode: Val,
      capacity: nat, pieceBottomMark: nat, pieceBottomCode: Val)
    returns (pieces: seq<Piece>, top: Frame)
    requires FrameHeaderSize + stackBottomMark <= defaultCapacity
    requires pieceBottomMark <= 1
    requires defaultCapacity < capacity + 2 * FrameHeaderSize
    ensures |pieces| == 2 && top.piece == Some(1) && HasFlag(top.flags, Organic)
    ensures forall fuel: nat | fuel >= 3 :: FrameIterAdvanceAsWritten(pieces, top, fuel) == CheckFailed
    ensures Walkable(pieces, top) && NextOrganic(pieces, top) == None
  {
    var made := StackGrowth.NewStack(stackId, defaultCapacity, stackBottomMark, stackBottomCode, true);
    var first := made.value.pieces[0];
    var reopened := OpenStackPiece(first, 0);
    var grown := StackGrowth.PushStackFrame([reopened.piece], made.value.stack, stackId, reopened.frame,
      capacity, [], pieceBottomMark, pieceBottomCode, true);
    pieces := grown.value.pieces;
    top := grown.value.frame;
    var bottom := reopened.frame;
    var empty := Frame(0, 0, 0, SyntheticEmptyFlags, 0, Some(0));
    HeaderBelowKept(first, pieces[0], bottom);
    assert StepDown(pieces, top) == bottom;
    assert !HasFlag(bottom.flags, Organic) && HasFlag(bottom.flags, StackBottom);
    assert WalkDown(pieces[0], bottom) == empty;
    assert !HasFlag(empty.flags, StackPieceBottom) && !HasFlag(empty.flags, StackBottom);
    assert !HasFlag(empty.flags, Organic) && !HeaderReadable(pieces[0], empty.fp);
    forall fuel: nat | fuel >= 3
      ensures FrameIterAdvanceAsWritten(pieces, top, fuel) == CheckFailed
    {
      assert FrameIterAdvanceAsWritten(pieces, empty, fuel - 2) == CheckFailed;
      assert FrameIterAdvanceAsWritten(pieces, bottom, fuel - 1) == CheckFailed;
    }
  }

  // --- Backtrace entries ---

  /** The opcodes `capture_backtrace_entry` distinguishes; every other one
      is `OtherOpcode`. */
  datatype Opcode =
    | Invoke
    | SignalEscape
    | SignalContinue
    | BuiltinMaybeEscape
    | CallEnsurer
    | OtherOpcode(code: nat)

  /** `is_invocation_opcode`. */
  predicate IsInvocationOpcode(op: Opcode) {
    match op
    case Invoke => true
    case SignalEscape => true
    case SignalContinue => true
    case BuiltinMaybeEscape => true
    case CallEnsurer => true
    case OtherOpcode(_) => false
  }

  /** A backtrace entry: the invocation map from tags to arguments, or none
      for an ensurer call, and the opcode. */
  datatype Entry = Entry(invocation: Option<map<int, Val>>, opcode: Opcode)

  /** Every pending argument the tags name lies on the frame. */
  predicate ArgumentsPending(s: State, entries: seq<TagEntry>) {
    Fits(s) && forall i | 0 <= i < |entries| :: entries[i].offset < s.frame.sp
  }

  /** The invocation map built by setting each tag to its pending argument,
      in entry order. */
  function InvocationMap(s: State, entries: seq<TagEntry>): (m: map<int, Val>)
    requires ArgumentsPending(s, entries)
    ensures forall i | 0 <= i < |entries| :: entries[i].tag in m
    ensures forall t | t in m :: exists i | 0 <= i < |entries| :: entries[i].tag == t
  {
    if |entries| == 0 then map[]
    else
      var last := entries[|entries| - 1];
      var m := InvocationMap(s, entries[..|entries| - 1]);
      assert forall i | 0 <= i < |entries| - 1 :: entries[..|entries| - 1][i] == entries[i];
      m[last.tag := PeekValue(s, last.offset)]
  }

  /** The entry with the last occurrence of `t` decides its argument. */
  predicate LastWithTag(s: State, entries: seq<TagEntry>, t: int, i: nat)
    requires ArgumentsPending(s, entries)
  {
    && i < |entries| && entries[i].tag == t
    && forall j | i < j < |entries| :: entries[j].tag != t
  }

  /** Each tag of the invocation map holds the argument of the last entry
      carrying that tag: later entries overwrite earlier ones. */
  lemma {:induction false} InvocationMapLastWins(s: State, entries: seq<TagEntry>, i: nat)
    requires ArgumentsPending(s, entries) && i < |entries| && LastWithTag(s, entries, entries[i].tag, i)
    ensures InvocationMap(s, entries)[entries[i].tag] == PeekValue(s, entries[i].offset)
  {
    var n := |entries| - 1;
    if i < n {
      var prefix := entries[..n];
      assert prefix[i] == entries[i];
      assert forall j | i < j < |prefix| :: prefix[j] == entries[j];
      InvocationMapLastWins(s, prefix, i);
      assert entries[n].tag != entries[i].tag;
    }
  }

  /** The code block of the frame's header. */
  function FrameCodeBlock(s: State): Val
    requires Fits(s) && FrameHeaderSize <= s.frame.fp <= s.piece.capacity
  {
    GetHeader(s.piece.storage, s.frame.fp, CodeBlockOffset)
  }

  /** The call tags and the state the arguments are read from, for an
      invocation opcode other than an ensurer call: popped off the frame
      for a builtin escape, otherwise the value-pool entry the instruction
      names. */
  function CallTagsFor(s: State, op: Opcode, pc: nat, invokeSize: nat): Option<(Val, State)>
    requires Fits(s) && FrameHeaderSize <= s.frame.fp <= s.piece.capacity
    requires FrameCodeBlock(s).CodeBlock? && invokeSize <= pc
  {
    var code := FrameCodeBlock(s);
    if op == BuiltinMaybeEscape then
      match PopValue(s)
      case Success(popped) => Some((popped.value, popped.state))
      case Failure(_) => None
    else if pc - invokeSize + 1 < |code.bytecode| && code.bytecode[pc - invokeSize + 1] < |code.valuePool| then
      Some((code.valuePool[code.bytecode[pc - invokeSize + 1]], s))
    else None
  }

  /** The instruction before the pc lies in the bytecode and, when it is
      an invocation, its call tags are readable and name pending arguments. */
  predicate InstructionCapturable(s: State, decode: nat -> Opcode, invokeSize: nat)
    requires Fits(s) && FrameHeaderSize <= s.frame.fp <= s.piece.capacity
    requires FrameCodeBlock(s).CodeBlock? && invokeSize <= s.frame.pc
  {
    && s.frame.pc - invokeSize < |FrameCodeBlock(s).bytecode|
    && var op := decode(FrameCodeBlock(s).bytecode[s.frame.pc - invokeSize]);
       (IsInvocationOpcode(op) && op != CallEnsurer) ==>
         && CallTagsFor(s, op, s.frame.pc, invokeSize).Some?
         && var (tags, t) := CallTagsFor(s, op, s.frame.pc, invokeSize).value;
            tags.CallTags? && ArgumentsPending(t, tags.entries)
  }

  /** What `capture_backtrace_entry` checks of a frame: a code block in
      its header, the instruction before the pc inside the bytecode, and
      for an invocation readable call tags whose arguments are pending. */
  predicate Capturable(s: State, decode: nat -> Opcode, invokeSize: nat) {
    && Fits(s) && FrameHeaderSize <= s.frame.fp <= s.piece.capacity
    && FrameCodeBlock(s).CodeBlock?
    && (s.frame.pc < invokeSize || InstructionCapturable(s, decode, invokeSize))
  }

  /** `capture_backtrace_entry`. `decode` reads an opcode from a bytecode
      short, `invokeSize` is the length of an invocation instruction and
      `heapOk` says whether the map and entry could be allocated. */
  function CaptureBacktraceEntry(s: State, decode: nat -> Opcode, invokeSize: nat, heapOk: bool)
    : (r: Result<Option<Entry>, Cause>)
    requires Capturable(s, decode, invokeSize)
    ensures r == Success(None) <==>
      s.frame.pc < invokeSize
      || !IsInvocationOpcode(decode(FrameCodeBlock(s).bytecode[s.frame.pc - invokeSize]))
    ensures r.Failure? ==> r.error == HeapExhausted && !heapOk
    ensures r.Success? && r.value.Some? ==>
      && s.frame.pc >= invokeSize
      && var op := decode(FrameCodeBlock(s).bytecode[s.frame.pc - invokeSize]);
         && r.value.value.opcode == op
         && (r.value.value.invocation.None? <==> op == CallEnsurer)
  {
    if s.frame.pc < invokeSize then Success(None)
    else
      var code := FrameCodeBlock(s);
      var op := decode(code.bytecode[s.frame.pc - invokeSize]);
      if !IsInvocationOpcode(op) then Success(None)
      else if !heapOk then Failure(HeapExhausted)
      else if op == CallEnsurer then Success(Some(Entry(None, op)))
      else
        var (tags, t) := CallTagsFor(s, op, s.frame.pc, invokeSize).value;
        Success(Some(Entry(Some(InvocationMap(t, tags.entries)), op)))
  }

  /** For an invocation the entry maps each tag to the argument the last
      call-tags entry with that tag points at. */
  lemma CapturedArguments(s: State, decode: nat -> Opcode, invokeSize: nat, i: nat)
    requires Capturable(s, decode, invokeSize) && invokeSize <= s.frame.pc
    requires var op := decode(FrameCodeBlock(s).bytecode[s.frame.pc - invokeSize]);
      IsInvocationOpcode(op) && op != CallEnsurer
    requires var (tags, t) := CallTagsFor(s, decode(FrameCodeBlock(s).bytecode[s.frame.pc - invokeSize]),
      s.frame.pc, invokeSize).value;
      i < |tags.entries| && LastWithTag(t, tags.entries, tags.entries[i].tag, i)
    ensures var op := decode(FrameCodeBlock(s).bytecode[s.frame.pc - invokeSize]);
      var (tags, t) := CallTagsFor(s, op, s.frame.pc, invokeSize).value;
      var r := CaptureBacktraceEntry(s, decode, invokeSize, true);
      && r.Success? && r.value.Some? && r.value.value.invocation.Some?
      && tags.entries[i].tag in r.value.value.invocation.value
      && r.value.value.invocation.value[tags.entries[i].tag] == PeekValue(t, tags.entries[i].offset)
  {
    var op := decode(FrameCodeBlock(s).bytecode[s.frame.pc - invokeSize]);
    var (tags, t) := CallTagsFor(s, op, s.frame.pc, invokeSize).value;
    InvocationMapLastWins(t, tags.entries, i);
  }

  // --- Call tags and escapes ---

  /** The entries of a call tags object are ordered by tag. */
  predicate SortedByTag(entries: seq<TagEntry>) {
    forall i, j | 0 <= i < j < |entries| :: entries[i].tag <= entries[j].tag
  }

  /** `new_heap_call_tags`: the entries must already be sorted; the object
      is made unless the heap is exhausted (`heapOk`). */
  function NewHeapCallTags(entries: seq<TagEntry>, heapOk: bool): (r: Result<Val, Cause>)
    requires SortedByTag(entries)
    ensures r.Success? <==> heapOk
    ensures r.Failure? ==> r.error == HeapExhausted
    ensures r.Success? ==> r.value.CallTags? && r.value.entries == entries && SortedByTag(r.value.entries)
  {
    if heapOk then Success(CallTags(entries)) else Failure(HeapExhausted)
  }

  /** Where an escape's captured state lives on the stack, while it does. */
  datatype EscapeSection = EscapeSection(piece: nat, fp: nat)

  /** An escape object: the section of stack it returns to, or none once
      that section is gone. */
  datatype Escape = Escape(section: Option<EscapeSection>)

  /** `new_heap_escape`: an escape over `section`. `heapOk` says whether
      the heap supplied the object. */
  function NewHeapEscape(section: Option<EscapeSection>, heapOk: bool): (r: Result<Escape, Cause>)
    ensures r.Failure? <==> !heapOk
    ensures r.Failure? ==> r.error == HeapExhausted
    ensures r.Success? ==> r.value.section == section
  {
    if heapOk then Success(Escape(section)) else Failure(HeapExhausted)
  }

  /** `escape_is_live`: whether the escape still has a section. */
  function EscapeIsLive(self: Escape): bool {
    self.section.Some?
  }

  /** A new escape is live exactly when it was made over a section, and
      one made over nothing never is. */
  lemma NewEscapeLiveness(section: Option<EscapeSection>)
    ensures EscapeIsLive(NewHeapEscape(section, true).value) <==> section.Some?
    ensures !EscapeIsLive(NewHeapEscape(None, true).value)
  {
  }
}

=== FILE: globals.dfy ===
/** Size shorthands and the tiny helpers of globals.h. Sizes are `size_t`, so
    they are modelled as naturals below 2^64. */
module Globals {

  const KB: nat := 1024
  const MB: nat := KB * KB

  /** The width of `size_t` on the 64-bit targets the VM is built for. */
  const SizeLimit: nat := 0x1_0000_0000_0000_0000

  type Size = x: nat | x < SizeLimit

  /** `kMostNegativeInt32`, the smallest `int32_t`. */
  const MostNegativeInt32: int := -0x8000_0000

  type Int32 = x: int | MostNegativeInt32 <= x < 0x8000_0000

  /** The largest of two sizes. */
  function MaxSize(a: Size, b: Size): (r: Size)
    ensures r >= a && r >= b
    ensures r == a || r == b
  {
    if a < b then b else a
  }

  /** The smallest of two sizes. */
  function MinSize(a: Size, b: Size): (r: Size)
    ensures r <= a && r <= b
    ensures r == a || r == b
  {
    if a < b then a else b
  }

  /** Bit `i` of a 32-bit word. */
  predicate BitSet(w: bv32, i: bv32)
    requires i < 32
  {
    (w >> i) & 1 == 1
  }

  /** The mask `m` with the flag bits `f` switched on, as an unsigned 32-bit
      OR. */
  function SetEnumFlag(m: bv32, f: bv32): (r: bv32)
    ensures forall i: bv32 | i < 32 :: BitSet(r, i) <==> BitSet(m, i) || BitSet(f, i)
  {
    OrBits(m, f);
    m | f
  }

  /** A bit of an OR is set exactly when it is set in either operand. */
  lemma OrBits(m: bv32, f: bv32)
    ensures forall i: bv32 | i < 32 :: BitSet(m | f, i) <==> BitSet(m, i) || BitSet(f, i)
  {
    forall i: bv32 | i < 32
      ensures BitSet(m | f, i) <==> BitSet(m, i) || BitSet(f, i)
    {
      assert ((m | f) >> i) & 1 == ((m >> i) & 1) | ((f >> i) & 1);
    }
  }

  lemma MegabyteSize()
    ensures MB == 1024 * 1024
    ensures MB == 1048576
  {
  }
}

=== FILE: heap.dfy ===
/** Alignment arithmetic, the bump-allocated space and the heap's allocation
    entry point (heap.c, alloc.c). Addresses and sizes are 64-bit unsigned
    numbers; the null pointer is address 0. */
module Heap {
  import opened Wrappers
  import opened Values

  function Pow2(n: nat): (r: nat)
    ensures r >= 1
  {
    if n == 0 then 1 else 2 * Pow2(n - 1)
  }

  predicate IsPowerOfTwo(a: nat) {
    a == 1 || (a >= 2 && a % 2 == 0 && IsPowerOfTwo(a / 2))
  }

  function Log2(a: nat): (k: nat)
    requires IsPowerOfTwo(a)
    ensures Pow2(k) == a
  {
    if a == 1 then 0 else 1 + Log2(a / 2)
  }

  lemma {:induction false} Pow2Monotone(k: nat, w: nat)
    requires k <= w
    ensures Pow2(k) <= Pow2(w)
    decreases w
  {
    if k < w {
      Pow2Monotone(k, w - 1);
    }
  }

  lemma Log2Below(a: nat, w: nat)
    requires IsPowerOfTwo(a) && a < Pow2(w)
    ensures Log2(a) < w
  {
    if Log2(a) >= w {
      Pow2Monotone(w, Log2(a));
    }
  }

  /** Bitwise AND of two unsigned numbers. */
  function BitAnd(x: nat, y: nat): (r: nat)
    ensures r <= x
    decreases x
  {
    if x == 0 || y == 0 then 0
    else 2 * BitAnd(x / 2, y / 2) + (if x % 2 == 1 && y % 2 == 1 then 1 else 0)
  }

  /** Bitwise complement of an unsigned number `w` bits wide. */
  function BitNot(y: nat, w: nat): nat
    requires y < Pow2(w)
  {
    Pow2(w) - 1 - y
  }

  /** The `w`-bit mask with bits `k .. w-1` set. */
  function HighMask(k: nat, w: nat): (m: nat)
    requires k <= w
    ensures m == Pow2(w) - Pow2(k)
  {
    Pow2Monotone(k, w);
    Pow2(w) - Pow2(k)
  }

  lemma MulSign(d: int, k: int)
    requires d > 0
    ensures k >= 1 ==> d * k >= d
    ensures k <= -1 ==> d * k <= -d
  {
    if k >= 1 {
      assert d * k == d + d * (k - 1);
    } else if k <= -1 {
      assert d * k == -d + d * (k + 1);
    }
  }

  lemma DivModUnique(n: nat, d: nat, q: nat, r: nat)
    requires d > 0 && r < d && n == d * q + r
    ensures n / d == q && n % d == r
  {
    var q' := n / d;
    assert d * (q' - q) == r - n % d;
    MulSign(d, q' - q);
  }

  /** Keeping the low `w` bits is keeping the low bit and the low `w - 1`
      bits of the rest. */
  lemma ModHalf(x: nat, w: nat)
    requires w >= 1
    ensures x % Pow2(w) == 2 * ((x / 2) % Pow2(w - 1)) + x % 2
  {
    var m := Pow2(w - 1);
    var t := (x / 2) % m;
    var q := (x / 2) / m;
    assert Pow2(w) == 2 * m;
    HalfSplit(x, m);
    DivModUnique(x, 2 * m, q, 2 * t + x % 2);
  }

  lemma HalfSplit(x: nat, m: nat)
    requires m >= 1
    ensures x == (2 * m) * ((x / 2) / m) + (2 * ((x / 2) % m) + x % 2)
  {
    var q := (x / 2) / m;
    assert x / 2 == m * q + (x / 2) % m;
    assert (2 * m) * q == 2 * (m * q);
  }

  lemma HalfDiv(t: nat, b: nat, m: nat)
    requires b < 2 && m >= 1
    ensures (2 * t + b) / (2 * m) == t / m
  {
    var q := t / m;
    var r := t % m;
    assert t == m * q + r;
    assert 2 * t + b == (2 * m) * q + (2 * r + b);
    DivModUnique(2 * t + b, 2 * m, q, 2 * r + b);
  }

  lemma AndMaskStepOnes(x: nat, w: nat)
    requires w >= 1 && x > 0
    requires BitAnd(x / 2, HighMask(0, w - 1)) == x / 2 % Pow2(w - 1)
    ensures BitAnd(x, HighMask(0, w)) == x % Pow2(w)
  {
    var m := HighMask(0, w);
    var p := Pow2(w - 1);
    assert Pow2(w) == 2 * p;
    DivModUnique(m, 2, p - 1, 1);
    assert m / 2 == HighMask(0, w - 1);
    assert BitAnd(x, m) == 2 * BitAnd(x / 2, m / 2) + x % 2;
    ModHalf(x, w);
  }

  lemma AndMaskStep(x: nat, k: nat, w: nat)
    requires 1 <= k < w && x > 0
    requires BitAnd(x / 2, HighMask(k - 1, w - 1)) == (x / 2 % Pow2(w - 1)) / Pow2(k - 1) * Pow2(k - 1)
    ensures BitAnd(x, HighMask(k, w)) == (x % Pow2(w)) / Pow2(k) * Pow2(k)
  {
    var m := HighMask(k, w);
    assert m % 2 == 0 && m / 2 == HighMask(k - 1, w - 1);
    var p := Pow2(k - 1);
    var t := (x / 2) % Pow2(w - 1);
    var q := t / p;
    assert BitAnd(x, m) == 2 * BitAnd(x / 2, m / 2);
    assert BitAnd(x, m) == 2 * (q * p);
    ModHalf(x, w);
    HalfDiv(t, x % 2, p);
    assert Pow2(k) == 2 * p;
    assert (x % Pow2(w)) / Pow2(k) == q;
    Double(q, p);
  }

  lemma Double(q: int, p: int)
    ensures q * (2 * p) == 2 * (q * p)
  {
  }

  /** ANDing with a `w`-bit mask whose bits `k .. w-1` are set keeps the low
      `w` bits, rounded down to a multiple of `2^k`. */
  lemma {:induction false} AndMask(x: nat, k: nat, w: nat)
    requires k <= w
    ensures BitAnd(x, HighMask(k, w)) == (x % Pow2(w)) / Pow2(k) * Pow2(k)
    decreases w
  {
    if w == 0 {
      assert HighMask(k, w) == 0 && x % Pow2(w) == 0;
    } else if x == 0 {
      assert x % Pow2(w) == 0;
    } else if k == w {
      DivModUnique(x % Pow2(w), Pow2(w), 0, x % Pow2(w));
    } else if k == 0 {
      AndMask(x / 2, 0, w - 1);
      AndMaskStepOnes(x, w);
    } else {
      AndMask(x / 2, k - 1, w - 1);
      AndMaskStep(x, k, w);
    }
  }

  lemma {:induction false} Pow2Add(a: nat, b: nat)
    ensures Pow2(a + b) == Pow2(a) * Pow2(b)
    decreases a
  {
    if a > 0 {
      Pow2Add(a - 1, b);
    }
  }

  lemma Pow2Widths()
    ensures Pow2(32) == 0x1_0000_0000
    ensures Pow2(64) == WordLimit
    ensures Pow2(3) == ValueSize
  {
    assert Pow2(2) == 4;
    Pow2Add(2, 2);
    assert Pow2(4) == 16;
    Pow2Add(4, 4);
    assert Pow2(8) == 256;
    Pow2Add(8, 8);
    assert Pow2(16) == 0x1_0000;
    Pow2Add(16, 16);
    assert Pow2(32) == 0x1_0000_0000;
    Pow2Add(32, 32);
  }

  /** An alignment the source accepts: a power of two held in a `uint32_t`. */
  predicate IsAlignment(a: nat) {
    IsPowerOfTwo(a) && a < 0x1_0000_0000
  }

  /** `(x + (alignment - 1)) & ~(alignment - 1)`: the sum wraps at 64 bits and
      the complement is taken `maskWidth` bits wide, then zero-extended. */
  function MaskAlign(alignment: nat, x: Word, maskWidth: nat): (r: Word)
    requires IsAlignment(alignment) && 32 <= maskWidth <= 64
    ensures r == ((x + alignment - 1) % WordLimit % Pow2(maskWidth)) / alignment * alignment
  {
    Pow2Widths();
    Pow2Monotone(32, maskWidth);
    Log2Below(alignment, maskWidth);
    var bumped := (x + (alignment - 1)) % WordLimit;
    assert BitNot(alignment - 1, maskWidth) == HighMask(Log2(alignment), maskWidth);
    AndMask(bumped, Log2(alignment), maskWidth);
    BitAnd(bumped, BitNot(alignment - 1, maskWidth))
  }

  /** Rounding `x + alignment - 1` down to a multiple of the alignment
      gives the first multiple at or above `x`. */
  lemma RoundDownBumped(alignment: nat, x: nat)
    requires alignment > 0
    ensures var r := (x + alignment - 1) / alignment * alignment;
      r >= x && r % alignment == 0 && r < x + alignment
  {
    var n := x + alignment - 1;
    var q := n / alignment;
    var rem := n % alignment;
    assert n == alignment * q + rem && 0 <= rem < alignment;
    assert q * alignment == n - rem;
    DivModUnique(q * alignment, alignment, q, 0);
  }

  /** When `x + alignment - 1` fits in the mask, neither the 64-bit sum nor
      the mask cuts anything off. */
  lemma MaskAlignInRange(alignment: nat, x: Word, w: nat)
    requires IsAlignment(alignment) && 32 <= w <= 64
    requires x + alignment - 1 < Pow2(w)
    ensures MaskAlign(alignment, x, w) == (x + alignment - 1) / alignment * alignment
  {
    Pow2Widths();
    Pow2Monotone(w, 64);
    var b := x + alignment - 1;
    DivModUnique(b, WordLimit, 0, b);
    DivModUnique(b, Pow2(w), 0, b);
  }

  lemma RoundDownAtMost(y: nat, a: nat)
    requires a > 0
    ensures y / a * a <= y
  {
    assert y == a * (y / a) + y % a;
  }

  /** Without wrap-around, rounding up lands on the first multiple of the
      alignment at or above `x`. */
  lemma RoundUpBounds(alignment: nat, x: Word)
    requires IsAlignment(alignment) && x + alignment - 1 < WordLimit
    ensures var r := MaskAlign(alignment, x, 64);
      r >= x && r % alignment == 0 && r < x + alignment
  {
    Pow2Widths();
    MaskAlignInRange(alignment, x, 64);
    RoundDownBumped(alignment, x);
  }

  /** `align_address` as written: the alignment is a `uint32_t`, so the
      complement is computed in 32 bits and clears the upper half of the
      address. */
  function AlignAddressAsWritten(alignment: nat, address: Word): (r: Word)
    requires IsAlignment(alignment)
    ensures r < 0x1_0000_0000
  {
    Pow2Widths();
    RoundDownAtMost((address + alignment - 1) % WordLimit % Pow2(32), alignment);
    MaskAlign(alignment, address, 32)
  }

  /** Aligning the address 2^32 to 8 bytes gives address 0 as written, and
      the address itself with a full-width mask. */
  lemma AlignAddressDropsHighBits()
    ensures AlignAddressAsWritten(8, 0x1_0000_0000) == 0
    ensures AlignAddress(8, 0x1_0000_0000) == 0x1_0000_0000
  {
    Pow2Widths();
  }

  /** `align_address` with the mask as wide as an address. */
  function AlignAddress(alignment: nat, address: Word): (r: Word)
    requires IsAlignment(alignment)
    ensures address + alignment - 1 < WordLimit ==>
      r >= address && r % alignment == 0 && r < address + alignment
  {
    if address + alignment - 1 < WordLimit then
      RoundUpBounds(alignment, address);
      MaskAlign(alignment, address, 64)
    else MaskAlign(alignment, address, 64)
  }

  /** `align_size` as written, with the same 32-bit complement. */
  function AlignSizeAsWritten(alignment: nat, size: Word): (r: Word)
    requires IsAlignment(alignment)
    ensures r < 0x1_0000_0000
  {
    Pow2Widths();
    RoundDownAtMost((size + alignment - 1) % WordLimit % Pow2(32), alignment);
    MaskAlign(alignment, size, 32)
  }

  lemma AlignSizeDropsHighBits()
    ensures AlignSizeAsWritten(8, 0x1_0000_0000) == 0
    ensures AlignSize(8, 0x1_0000_0000) == 0x1_0000_0000
  {
    Pow2Widths();
  }

  /** Below 4 GiB the as-written mask and the full-width mask agree. */
  lemma AlignSizeAsWrittenAgreesBelow4G(alignment: nat, size: Word)
    requires IsAlignment(alignment)
    requires size + alignment - 1 < 0x1_0000_0000
    ensures AlignSizeAsWritten(alignment, size) == AlignSize(alignment, size)
  {
    Pow2Widths();
    MaskAlignInRange(alignment, size, 32);
    MaskAlignInRange(alignment, size, 64);
  }

  /** `align_size` with the mask as wide as a size. */
  function AlignSize(alignment: nat, size: Word): (r: Word)
    requires IsAlignment(alignment)
    ensures size + alignment - 1 < WordLimit ==>
      r >= size && r % alignment == 0 && r < size + alignment
  {
    if size + alignment - 1 < WordLimit then
      RoundUpBounds(alignment, size);
      MaskAlign(alignment, size, 64)
    else MaskAlign(alignment, size, 64)
  }

  lemma AlignSizeValue(alignment: nat, size: Word)
    requires IsAlignment(alignment)
    requires size + alignment - 1 < WordLimit
    ensures AlignSize(alignment, size) == (size + alignment - 1) / alignment * alignment
  {
    Pow2Widths();
    MaskAlignInRange(alignment, size, 64);
  }

  /** Aligning an aligned size changes nothing. */
  lemma AlignSizeIdempotent(alignment: nat, size: Word)
    requires IsAlignment(alignment)
    requires size + 2 * alignment < WordLimit
    ensures AlignSize(alignment, AlignSize(alignment, size)) == AlignSize(alignment, size)
  {
    var r := AlignSize(alignment, size);
    AlignSizeValue(alignment, size);
    AlignSizeValue(alignment, r);
    RoundUpTwice(alignment, size, r, AlignSize(alignment, r));
  }

  /** Rounding up to a multiple of `a` twice is rounding up once. */
  lemma RoundUpTwice(a: nat, b: nat, r: nat, r2: nat)
    requires a > 0
    requires r == (b + a - 1) / a * a && r2 == (r + a - 1) / a * a
    ensures r2 == r
  {
    RoundedDownRoundsUp(a, b + a - 1);
  }

  /** A multiple of `a` taken by rounding `b` down is at most `b` and is
      its own round-up. */
  lemma RoundedDownRoundsUp(a: nat, b: nat)
    requires a > 0
    ensures b / a * a <= b
    ensures (b / a * a + a - 1) / a * a == b / a * a
  {
    RoundDownAtMost(b, a);
    RoundUpMultiple(a, b / a);
  }

  lemma RoundUpMultiple(a: nat, q: int)
    requires a > 0 && q >= 0
    ensures (q * a + a - 1) / a * a == q * a
  {
    DivModUnique(q * a + a - 1, a, q, a - 1);
  }

  // --- Space ---

  /** A space: the block obtained from the allocator, the next free address
      and the end of the usable range. */
  datatype Space = Space(memory: Word, nextFree: Word, limit: Word)

  /** A space's usable range is word aligned and not overrun. */
  predicate SpaceValid(s: Space) {
    s.nextFree % ValueSize == 0 && s.nextFree <= s.limit
  }

  /** The default size of a space: one megabyte. */
  const DefaultSpaceSize: nat := 1024 * 1024

  function SpaceClear(): (s: Space)
    ensures SpaceIsEmpty(s)
  {
    Space(0, 0, 0)
  }

  predicate SpaceIsEmpty(s: Space) {
    s.nextFree == 0
  }

  /** Releases the space's memory if it holds any. */
  function SpaceDispose(s: Space): (r: Space)
    ensures s.memory == 0 ==> r == s
    ensures s.memory != 0 ==> SpaceIsEmpty(r) && r.memory == 0
  {
    if s.memory == 0 then s else SpaceClear()
  }

  lemma DisposeClearedSpace()
    ensures SpaceDispose(SpaceClear()) == SpaceClear()
  {
  }

  /** Sets up a space of `sizeBytes` usable bytes. `memory` is what the
      allocator returned for `sizeBytes` plus one word, 0 when it failed. */
  function SpaceInit(sizeBytes: nat, memory: Word): (r: Result<Space, Cause>)
    requires memory + sizeBytes + ValueSize < WordLimit
    ensures memory == 0 <==> r == Failure(SystemError)
    ensures r.Success? ==> (SpaceValid(r.value)
      && r.value.limit - r.value.nextFree == sizeBytes
      && memory <= r.value.nextFree < memory + ValueSize
      && r.value.limit <= memory + sizeBytes + ValueSize
      && r.value.memory == memory)
  {
    if memory == 0 then Failure(SystemError)
    else
      Pow2Widths();
      var next := AlignAddress(ValueSize, memory);
      Success(Space(memory, next, next + sizeBytes))
  }

  /** Bump allocation. On success the address is the old next free address
      and the space advances by the aligned size; on failure the space is
      returned as it was. */
  function SpaceTryAlloc(s: Space, size: Word): (r: (Option<Word>, Space))
    requires s.limit + ValueSize < WordLimit
    ensures r.0.Some? <==> s.nextFree + AlignSize(ValueSize, size) <= s.limit
    ensures r.0.None? ==> r.1 == s
    ensures r.0.Some? ==> (r.0.value == s.nextFree
      && r.1 == s.(nextFree := s.nextFree + AlignSize(ValueSize, size)))
  {
    Pow2Widths();
    var aligned := AlignSize(ValueSize, size);
    var next := s.nextFree + aligned;
    if next <= s.limit then (Some(s.nextFree), s.(nextFree := next))
    else (None, s)
  }

  /** A successful allocation hands out a word-aligned block of at least the
      requested size inside the usable range, and keeps the space valid. */
  lemma TryAllocBlock(s: Space, size: Word)
    requires SpaceValid(s) && s.limit + ValueSize < WordLimit
    requires size + ValueSize <= WordLimit
    requires SpaceTryAlloc(s, size).0.Some?
    ensures var (a, s') := SpaceTryAlloc(s, size);
      SpaceValid(s') && s'.limit == s.limit && s'.memory == s.memory
      && a.value % ValueSize == 0
      && a.value + size <= s'.nextFree <= s.limit
  {
    Pow2Widths();
    var aligned := AlignSize(ValueSize, size);
    BumpKeepsValid(s, size, aligned);
  }

  /** Bumping the free pointer of a valid space by an aligned amount no
      smaller than `size` and within the limit keeps the space valid. */
  lemma BumpKeepsValid(s: Space, size: nat, aligned: nat)
    requires SpaceValid(s) && aligned >= size && aligned % ValueSize == 0
    requires s.nextFree + aligned <= s.limit
    ensures SpaceValid(s.(nextFree := s.nextFree + aligned))
    ensures s.nextFree + size <= s.nextFree + aligned
  {
  }

  /** Two allocations in a row return disjoint blocks. */
  lemma TryAllocDisjoint(s: Space, n1: Word, n2: Word)
    requires SpaceValid(s) && s.limit + ValueSize < WordLimit
    requires n1 + ValueSize <= WordLimit
    requires SpaceTryAlloc(s, n1).0.Some?
    requires SpaceTryAlloc(SpaceTryAlloc(s, n1).1, n2).0.Some?
    ensures var (a1, s1) := SpaceTryAlloc(s, n1);
      var (a2, _) := SpaceTryAlloc(s1, n2);
      a1.value + n1 <= a2.value
  {
    TryAllocBlock(s, n1);
  }

  /** The heap allocates from its new space only. */
  datatype HeapSpaces = HeapSpaces(newSpace: Space, oldSpace: Space)

  function HeapTryAlloc(h: HeapSpaces, size: Word): (r: (Option<Word>, HeapSpaces))
    requires h.newSpace.limit + ValueSize < WordLimit
    ensures r.1.oldSpace == h.oldSpace
    ensures r.0.Some? <==> h.newSpace.nextFree + AlignSize(ValueSize, size) <= h.newSpace.limit
    ensures r.0.None? ==> r.1 == h
  {
    var (a, s) := SpaceTryAlloc(h.newSpace, size);
    (a, h.(newSpace := s))
  }

  /** Allocates an object of `bytes` bytes. When the heap has no room the
      result is a heap-exhausted condition; otherwise it is an object value
      for the allocated address. The spaces hold no object memory, so the
      species header the C code writes into the new object is not part of
      the result. */
  function AllocHeapObject(h: HeapSpaces, bytes: Word): (r: Result<(Word, HeapSpaces), Cause>)
    requires SpaceValid(h.newSpace) && h.newSpace.limit + ValueSize < WordLimit
    requires bytes + ValueSize <= WordLimit
    ensures r.Failure? <==> h.newSpace.nextFree + AlignSize(ValueSize, bytes) > h.newSpace.limit
    ensures r.Failure? ==> r.error == HeapExhausted
    ensures r.Success? ==> (InDomain(r.value.0, ObjectDomain)
      && GetObjectAddress(r.value.0) == h.newSpace.nextFree
      && SpaceValid(r.value.1.newSpace))
  {
    var (a, h') := HeapTryAlloc(h, bytes);
    match a
    case None => Failure(HeapExhausted)
    case Some(addr) =>
      TryAllocBlock(h.newSpace, bytes);
      Success((NewObject(addr), h'))
  }
}

=== FILE: idmap.dfy ===
/** The identity hash map (value.c, growth in alloc.c): an open-addressing
    table with linear probing. The entry array holds three words per entry
    (key, hash, value); here it is a sequence of slots, one per entry, and a
    slot is empty when its hash word is not an integer. Keys are compared by
    identity (`==`) and hashed by an abstract total function `hash`. */
module IdHashMap {
  import opened Wrappers
  import Heap

  /** Words per entry in the entry array. */
  const EntryFieldCount: nat := 3

  datatype Slot<K, V> = Empty | Full(key: K, hash: nat, value: V)

  datatype IdMap<K, V> = IdMap(size: nat, capacity: nat, entries: seq<Slot<K, V>>)

  /** The length of the entry array in words. */
  function EntryArrayLength<K(==,!new), V>(m: IdMap<K, V>): nat {
    |m.entries| * EntryFieldCount
  }

  // --- Occupancy ---

  /** The number of full slots. */
  function Occupied<K(==,!new), V>(e: seq<Slot<K, V>>): (n: nat)
    ensures n <= |e|
  {
    if |e| == 0 then 0
    else Occupied(e[..|e| - 1]) + (if e[|e| - 1].Full? then 1 else 0)
  }

  lemma {:induction false} OccupiedUpdate<K(!new), V>(e: seq<Slot<K, V>>, j: nat, s: Slot<K, V>)
    requires j < |e|
    ensures Occupied(e[j := s]) ==
      Occupied(e) - (if e[j].Full? then 1 else 0) + (if s.Full? then 1 else 0)
  {
    var e' := e[j := s];
    if j < |e| - 1 {
      assert e'[..|e'| - 1] == e[..|e| - 1][j := s];
      OccupiedUpdate(e[..|e| - 1], j, s);
    } else {
      assert e'[..|e'| - 1] == e[..|e| - 1];
    }
  }

  /** Fewer full slots than slots leaves an empty one. */
  lemma {:induction false} OccupiedLeavesEmpty<K(!new), V>(e: seq<Slot<K, V>>)
    requires Occupied(e) < |e|
    ensures exists j | 0 <= j < |e| :: e[j].Empty?
  {
    if e[|e| - 1].Full? {
      OccupiedLeavesEmpty(e[..|e| - 1]);
      var j :| 0 <= j < |e| - 1 && e[..|e| - 1][j].Empty?;
      assert e[j].Empty?;
    }
  }

  /** Empty slots do not count. */
  lemma {:induction false} OccupiedSkipsEmpty<K(!new), V>(e: seq<Slot<K, V>>, a: nat, b: nat)
    requires a <= b <= |e|
    requires forall j | a <= j < b :: e[j].Empty?
    ensures Occupied(e[..b]) == Occupied(e[..a])
  {
    if a < b {
      OccupiedSkipsEmpty(e, a, b - 1);
      assert e[..b][..b - 1] == e[..b - 1];
    }
  }

  lemma OccupiedCountsFull<K(!new), V>(e: seq<Slot<K, V>>, j: nat)
    requires j < |e| && e[j].Full?
    ensures Occupied(e[..j + 1]) == Occupied(e[..j]) + 1
  {
    assert e[..j + 1][..j] == e[..j];
  }

  function AllEmpty<K(==,!new), V>(capacity: nat): (e: seq<Slot<K, V>>)
    ensures |e| == capacity && Occupied(e) == 0
    ensures forall j | 0 <= j < capacity :: e[j].Empty?
  {
    if capacity == 0 then [] else AllEmpty(capacity - 1) + [Empty]
  }

  // --- Keys and contents ---

  predicate Holds<K(==,!new), V>(e: seq<Slot<K, V>>, j: int, k: K) {
    0 <= j < |e| && e[j].Full? && e[j].key == k
  }

  ghost predicate UniqueKeys<K(!new), V>(e: seq<Slot<K, V>>) {
    forall i, j | 0 <= i < |e| && 0 <= j < |e| && e[i].Full? && e[j].Full? && e[i].key == e[j].key :: i == j
  }

  predicate HashesStored<K(==,!new), V>(e: seq<Slot<K, V>>, hash: K -> nat) {
    forall j | 0 <= j < |e| && e[j].Full? :: e[j].hash == hash(e[j].key)
  }

  /** The value bound to `k`, if any. */
  function Lookup<K(==,!new), V>(e: seq<Slot<K, V>>, k: K): (r: Option<V>)
    ensures r.Some? ==> exists j :: Holds(e, j, k) && e[j].value == r.value
    ensures r.None? ==> forall j :: !Holds(e, j, k)
  {
    if |e| == 0 then None
    else if e[|e| - 1].Full? && e[|e| - 1].key == k then Some(e[|e| - 1].value)
    else
      var r := Lookup(e[..|e| - 1], k);
      assert forall j | Holds(e[..|e| - 1], j, k) :: Holds(e, j, k);
      assert forall j | Holds(e, j, k) :: Holds(e[..|e| - 1], j, k);
      r
  }

  /** With unique keys, the slot holding `k` gives its binding. */
  lemma LookupAt<K(!new), V>(e: seq<Slot<K, V>>, j: nat, k: K)
    requires UniqueKeys(e) && Holds(e, j, k)
    ensures Lookup(e, k) == Some(e[j].value)
  {
    var i :| Holds(e, i, k) && e[i].value == Lookup(e, k).value;
  }

  // --- Probing ---

  /** The slot probed after `t` steps from `start`, wrapping once. */
  function Step(start: nat, t: nat, capacity: nat): (i: nat)
    requires start < capacity && t < capacity
    ensures i < capacity
  {
    if start + t < capacity then start + t else start + t - capacity
  }

  /** The number of steps from `start` to slot `j`. */
  function Dist(start: nat, j: nat, capacity: nat): (t: nat)
    requires start < capacity && j < capacity
    ensures t < capacity && Step(start, t, capacity) == j
  {
    if start <= j then j - start else j + capacity - start
  }

  /** Probing visits each slot exactly once per lap, starting at `start`,
      moving to `(i + 1) % capacity` each time. */
  lemma StepWalk(start: nat, t: nat, u: nat, capacity: nat)
    requires start < capacity && t < capacity && u < capacity
    ensures Step(start, 0, capacity) == start
    ensures Step(start, t, capacity) == (start + t) % capacity
    ensures t + 1 < capacity ==> Step(start, t + 1, capacity) == (Step(start, t, capacity) + 1) % capacity
    ensures Step(start, t, capacity) == Step(start, u, capacity) ==> t == u
    ensures Dist(start, Step(start, t, capacity), capacity) == t
  {
    if start + t < capacity {
      Heap.DivModUnique(start + t, capacity, 0, start + t);
    } else {
      Heap.DivModUnique(start + t, capacity, 1, start + t - capacity);
    }
    var i := Step(start, t, capacity);
    if i + 1 < capacity {
      Heap.DivModUnique(i + 1, capacity, 0, i + 1);
    } else {
      Heap.DivModUnique(i + 1, capacity, 1, 0);
    }
  }

  /** Every slot on the probe path from `start` before step `d` is full. */
  predicate ProbedFull<K(==,!new), V>(e: seq<Slot<K, V>>, start: nat, d: nat)
    requires start < |e| && d <= |e|
  {
    forall t | 0 <= t < d :: e[Step(start, t, |e|)].Full?
  }

  /** The linear-probing invariant: no empty slot lies between an entry's
      home slot and the slot holding it. */
  predicate ChainsUnbroken<K(==,!new), V>(e: seq<Slot<K, V>>) {
    forall j | 0 <= j < |e| && e[j].Full? ::
      ProbedFull(e, e[j].hash % |e|, Dist(e[j].hash % |e|, j, |e|))
  }

  predicate Matches<K(==,!new), V>(s: Slot<K, V>, k: K, h: nat) {
    s.Full? && s.hash == h && s.key == k
  }

  datatype Probe = Found(index: nat, steps: nat) | Free(index: nat, steps: nat)

  /** The probe loop of `find_id_hash_map_entry`: from slot `start`, stop at
      the entry for `key` or at the first empty slot. The loop ends because
      an empty slot lies ahead. */
  function Find<K(==,!new), V>(e: seq<Slot<K, V>>, k: K, h: nat, start: nat, steps: nat): (p: Probe)
    requires start < |e| && steps < |e|
    requires exists t | steps <= t < |e| :: e[Step(start, t, |e|)].Empty?
    decreases |e| - steps
    ensures steps <= p.steps < |e| && p.index == Step(start, p.steps, |e|)
    ensures p.Found? ==> Matches(e[p.index], k, h)
    ensures p.Free? ==> e[p.index].Empty?
    ensures forall t | steps <= t < p.steps ::
      e[Step(start, t, |e|)].Full? && !Matches(e[Step(start, t, |e|)], k, h)
  {
    var i := Step(start, steps, |e|);
    if e[i].Empty? then Free(i, steps)
    else if e[i].hash == h && e[i].key == k then Found(i, steps)
    else Find(e, k, h, start, steps + 1)
  }

  /** The map invariant, `id_hash_map_validate`'s conditions together with
      what the probing relies on. */
  ghost predicate Valid<K(!new), V>(m: IdMap<K, V>, hash: K -> nat) {
    && m.size < m.capacity
    && |m.entries| == m.capacity
    && m.size == Occupied(m.entries)
    && UniqueKeys(m.entries)
    && HashesStored(m.entries, hash)
    && ChainsUnbroken(m.entries)
  }

  /** Probes for `k` from its home slot. */
  function FindEntry<K(==,!new), V>(m: IdMap<K, V>, hash: K -> nat, k: K): (p: Probe)
    requires Valid(m, hash)
    ensures p.index < |m.entries|
    ensures p.Found? <==> Lookup(m.entries, k).Some?
    ensures p.Found? ==> Holds(m.entries, p.index, k)
    ensures p.Free? ==> (m.entries[p.index].Empty?
      && ProbedFull(m.entries, hash(k) % |m.entries|, Dist(hash(k) % |m.entries|, p.index, |m.entries|)))
  {
    var e := m.entries;
    var start := hash(k) % |e|;
    OccupiedLeavesEmpty(e);
    var j :| 0 <= j < |e| && e[j].Empty?;
    assert e[Step(start, Dist(start, j, |e|), |e|)].Empty?;
    var p := Find(e, k, hash(k), start, 0);
    StepWalk(start, p.steps, 0, |e|);
    FindComplete(m, hash, k, p);
    p
  }

  /** A stored key is found: the probe cannot stop early on an empty slot,
      and cannot pass the key's slot. */
  lemma FindComplete<K(!new), V>(m: IdMap<K, V>, hash: K -> nat, k: K, p: Probe)
    requires Valid(m, hash) && p.index < |m.entries|
    requires var e := m.entries; var start := hash(k) % |e|;
      && p.steps < |e| && p.index == Step(start, p.steps, |e|)
      && (p.Found? ==> Matches(e[p.index], k, hash(k)))
      && (p.Free? ==> e[p.index].Empty?)
      && (forall t | 0 <= t < p.steps ::
            e[Step(start, t, |e|)].Full? && !Matches(e[Step(start, t, |e|)], k, hash(k)))
    ensures p.Found? <==> Lookup(m.entries, k).Some?
  {
    var e := m.entries;
    var start := hash(k) % |e|;
    if p.Found? {
      assert Holds(e, p.index, k);
    }
    if p.Free? && Lookup(e, k).Some? {
      var j :| Holds(e, j, k) && e[j].value == Lookup(e, k).value;
      var d := Dist(start, j, |e|);
      StepWalk(start, d, p.steps, |e|);
      assert ProbedFull(e, start, d);
      if d <= p.steps {
        assert Matches(e[Step(start, d, |e|)], k, hash(k));
      }
    }
  }

  // --- Operations ---

  /** `id_hash_map_validate`: the size is below the capacity and the entry
      array has three words per entry. */
  function Validate<K(==,!new), V>(m: IdMap<K, V>): (r: Result<(), Cause>)
    ensures r.Success? <==> m.size < m.capacity && |m.entries| == m.capacity
    ensures r.Failure? ==> r.error == ValidationFailed
  {
    if m.size < m.capacity && EntryArrayLength(m) == m.capacity * EntryFieldCount then Success(())
    else Failure(ValidationFailed)
  }

  /** `new_heap_id_hash_map` with its entry array already allocated: every
      slot empty. */
  function NewIdMap<K(==,!new), V>(capacity: nat): (m: IdMap<K, V>)
    requires capacity > 0
    ensures m.size == 0 && m.capacity == capacity && |m.entries| == capacity
    ensures forall j | 0 <= j < capacity :: m.entries[j].Empty?
    ensures forall k :: Lookup(m.entries, k).None?
  {
    IdMap(0, capacity, AllEmpty(capacity))
  }

  /** A fresh map satisfies the invariant whatever the hash function. */
  lemma NewIdMapValid<K(!new), V>(capacity: nat, hash: K -> nat)
    requires capacity > 0
    ensures Valid(NewIdMap<K, V>(capacity), hash)
  {
  }

  /** `get_id_hash_map_at`. */
  function Get<K(==,!new), V>(m: IdMap<K, V>, hash: K -> nat, k: K): (r: Result<V, Cause>)
    requires Valid(m, hash)
    ensures r.Success? <==> Lookup(m.entries, k).Some?
    ensures r.Success? ==> Lookup(m.entries, k) == Some(r.value)
    ensures r.Failure? ==> r.error == NotFound
  {
    var p := FindEntry(m, hash, k);
    if p.Found? then
      LookupAt(m.entries, p.index, k);
      Success(m.entries[p.index].value)
    else Failure(NotFound)
  }

  /** Writing `k`'s entry into slot `i`, when no other slot holds `k`,
      keeps the keys unique. */
  lemma WriteKeepsUnique<K(!new), V>(e: seq<Slot<K, V>>, i: nat, s: Slot<K, V>)
    requires i < |e| && s.Full? && UniqueKeys(e)
    requires forall o | 0 <= o < |e| && o != i :: !Holds(e, o, s.key)
    ensures UniqueKeys(e[i := s])
  {
    var e' := e[i := s];
    forall a, b | 0 <= a < |e'| && 0 <= b < |e'| && e'[a].Full? && e'[b].Full? && e'[a].key == e'[b].key
      ensures a == b
    {
      if a != b && (a == i || b == i) {
        var o := if a == i then b else a;
        assert Holds(e, o, s.key);
      }
    }
  }

  /** Writing `k`'s entry into slot `i` changes no other key's binding. */
  lemma WriteKeepsOthers<K(!new), V>(e: seq<Slot<K, V>>, i: nat, s: Slot<K, V>)
    requires i < |e| && s.Full? && UniqueKeys(e) && UniqueKeys(e[i := s])
    requires e[i].Full? ==> e[i].key == s.key
    ensures forall k2 | k2 != s.key :: Lookup(e[i := s], k2) == Lookup(e, k2)
  {
    var e' := e[i := s];
    forall k2 | k2 != s.key
      ensures Lookup(e', k2) == Lookup(e, k2)
    {
      if Lookup(e, k2).Some? {
        var j :| Holds(e, j, k2) && e[j].value == Lookup(e, k2).value;
        LookupAt(e', j, k2);
      } else if Lookup(e', k2).Some? {
        var j :| Holds(e', j, k2) && e'[j].value == Lookup(e', k2).value;
        assert Holds(e, j, k2);
      }
    }
  }

  /** Writing slot `i` where probing for `k` stopped keeps the invariant and
      rebinds `k` alone. */
  lemma WriteSlot<K(!new), V>(m: IdMap<K, V>, hash: K -> nat, k: K, v: V, p: Probe)
    requires Valid(m, hash)
    requires p == FindEntry(m, hash, k)
    requires p.Free? ==> m.size + 1 < m.capacity
    ensures var e' := m.entries[p.index := Full(k, hash(k), v)];
      var m' := IdMap(if p.Free? then m.size + 1 else m.size, m.capacity, e');
      && Valid(m', hash)
      && Lookup(e', k) == Some(v)
      && forall k2 | k2 != k :: Lookup(e', k2) == Lookup(m.entries, k2)
  {
    var e := m.entries;
    var i := p.index;
    var s := Full(k, hash(k), v);
    var e' := e[i := s];
    OccupiedUpdate(e, i, s);
    assert p.Free? ==> Lookup(e, k).None?;
    WriteKeepsUnique(e, i, s);
    forall j | 0 <= j < |e'| && e'[j].Full?
      ensures ProbedFull(e', e'[j].hash % |e'|, Dist(e'[j].hash % |e'|, j, |e'|))
    {
      var start := e'[j].hash % |e'|;
      if j != i || p.Found? {
        assert ProbedFull(e, start, Dist(start, j, |e|));
      }
    }
    LookupAt(e', i, k);
    WriteKeepsOthers(e, i, s);
  }

  /** `try_set_id_hash_map_at`. When only one empty slot is left the map
      counts as full: an existing key is still overwritten, a new one is
      refused with MapFull. */
  function TrySet<K(==,!new), V>(m: IdMap<K, V>, hash: K -> nat, k: K, v: V): (r: Result<IdMap<K, V>, Cause>)
    requires Valid(m, hash)
    ensures r.Failure? <==> m.size == m.capacity - 1 && Lookup(m.entries, k).None?
    ensures r.Failure? ==> r.error == MapFull
    ensures r.Success? ==>
      && Valid(r.value, hash)
      && r.value.capacity == m.capacity
      && r.value.size == m.size + (if Lookup(m.entries, k).None? then 1 else 0)
      && Lookup(r.value.entries, k) == Some(v)
      && forall k2 | k2 != k :: Lookup(r.value.entries, k2) == Lookup(m.entries, k2)
  {
    var isFull := m.size == m.capacity - 1;
    var p := FindEntry(m, hash, k);
    if p.Free? && isFull then Failure(MapFull)
    else
      WriteSlot(m, hash, k, v, p);
      var e' := m.entries[p.index := Full(k, hash(k), v)];
      Success(IdMap(if p.Free? then m.size + 1 else m.size, m.capacity, e'))
  }

  /** A binding set is read back, and no other binding changes. */
  lemma GetAfterSet<K(!new), V>(m: IdMap<K, V>, hash: K -> nat, k: K, v: V, k2: K)
    requires Valid(m, hash) && TrySet(m, hash, k, v).Success?
    ensures Get(TrySet(m, hash, k, v).value, hash, k) == Success(v)
    ensures k2 != k ==> Get(TrySet(m, hash, k, v).value, hash, k2) == Get(m, hash, k2)
  {
  }

  // --- Iteration ---

  /** `id_hash_map_iter_advance`: the first full slot at or after `cursor`,
      with the cursor moved past it, or nothing and the cursor at the end. */
  method IterAdvance<K(==,!new), V>(e: seq<Slot<K, V>>, cursor: nat) returns (current: Option<nat>, next: nat)
    requires cursor <= |e|
    ensures cursor <= next <= |e|
    ensures current.Some? ==> cursor <= current.value == next - 1 && e[current.value].Full?
    ensures current.None? ==> next == |e|
    ensures forall j | cursor <= j < (if current.Some? then current.value else next) :: e[j].Empty?
  {
    next := cursor;
    while next < |e|
      invariant cursor <= next <= |e|
      invariant forall j | cursor <= j < next :: e[j].Empty?
    {
      var i := next;
      next := next + 1;
      if e[i].Full? {
        return Some(i), next;
      }
    }
    return None, next;
  }

  /** Runs the iterator to the end: every full slot once, in slot order. */
  method OccupiedSlots<K(==,!new), V>(e: seq<Slot<K, V>>) returns (slots: seq<nat>)
    ensures forall a, b | 0 <= a < b < |slots| :: slots[a] < slots[b]
    ensures forall j :: j in slots <==> 0 <= j < |e| && e[j].Full?
    ensures |slots| == Occupied(e)
  {
    slots := [];
    var cursor := 0;
    while cursor < |e|
      invariant cursor <= |e|
      invariant forall a, b | 0 <= a < b < |slots| :: slots[a] < slots[b]
      invariant forall a | 0 <= a < |slots| :: slots[a] < cursor
      invariant forall j :: j in slots <==> 0 <= j < cursor && e[j].Full?
      invariant |slots| == Occupied(e[..cursor])
      decreases |e| - cursor
    {
      var current, next := IterAdvance(e, cursor);
      if current.Some? {
        OccupiedSkipsEmpty(e, cursor, current.value);
        OccupiedCountsFull(e, current.value);
        slots := slots + [current.value];
      } else {
        OccupiedSkipsEmpty(e, cursor, next);
      }
      cursor := next;
    }
    assert e[..cursor] == e;
  }

  // --- Growth ---

  /** Slot indices in increasing order, each of a full slot. */
  predicate SlotList<K(==,!new), V>(e: seq<Slot<K, V>>, slots: seq<nat>) {
    && (forall a, b | 0 <= a < b < |slots| :: slots[a] < slots[b])
    && (forall a | 0 <= a < |slots| :: slots[a] < |e| && e[slots[a]].Full?)
  }

  /** The re-insertion loop's invariant after `i` of the listed entries:
      `n` binds exactly the keys of the first `i`, as `e` does. */
  ghost predicate Reinserted<K(!new), V>(e: seq<Slot<K, V>>, slots: seq<nat>, n: IdMap<K, V>, i: nat)
    requires SlotList(e, slots) && i <= |slots|
  {
    && (forall k | Lookup(n.entries, k).Some? :: Lookup(n.entries, k) == Lookup(e, k))
    && (forall t | 0 <= t < i :: Lookup(n.entries, e[slots[t]].key).Some?)
    && (forall t | i <= t < |slots| :: Lookup(n.entries, e[slots[t]].key).None?)
  }

  lemma ReinsertStep<K(!new), V>(m: IdMap<K, V>, hash: K -> nat, slots: seq<nat>, n: IdMap<K, V>, i: nat)
    requires Valid(m, hash) && SlotList(m.entries, slots) && i < |slots| <= m.capacity
    requires Valid(n, hash) && n.capacity == 2 * m.capacity && n.size == i
    requires Reinserted(m.entries, slots, n, i)
    ensures var s := m.entries[slots[i]];
      var r := TrySet(n, hash, s.key, s.value);
      && r.Success? && Valid(r.value, hash)
      && r.value.capacity == n.capacity && r.value.size == i + 1
      && Reinserted(m.entries, slots, r.value, i + 1)
  {
    var e := m.entries;
    var s := e[slots[i]];
    LookupAt(e, slots[i], s.key);
    var r := TrySet(n, hash, s.key, s.value);
    forall t | 0 <= t < |slots| && t != i
      ensures e[slots[t]].key != s.key
    {
      assert slots[t] != slots[i];
    }
  }

  /** `extend_id_hash_map`: allocate an entry array twice the size (which can
      fail, leaving the map as it was), then re-insert every binding. No
      re-insertion fails, because the new map is less than half full. */
  method Extend<K(==,!new), V>(m: IdMap<K, V>, hash: K -> nat, arrayAllocated: bool)
    returns (r: Result<IdMap<K, V>, Cause>)
    requires Valid(m, hash)
    ensures r.Failure? <==> !arrayAllocated
    ensures r.Failure? ==> r.error == HeapExhausted
    ensures r.Success? ==>
      && Valid(r.value, hash)
      && r.value.capacity == 2 * m.capacity
      && r.value.size == m.size
      && forall k :: Lookup(r.value.entries, k) == Lookup(m.entries, k)
  {
    if !arrayAllocated {
      return Failure(HeapExhausted);
    }
    var e := m.entries;
    var slots := OccupiedSlots(e);
    assert SlotList(e, slots) by {
      forall a | 0 <= a < |slots|
        ensures slots[a] < |e| && e[slots[a]].Full?
      {
        assert slots[a] in slots;
      }
    }
    var n: IdMap<K, V> := NewIdMap(2 * m.capacity);
    NewIdMapValid<K, V>(2 * m.capacity, hash);
    var i := 0;
    while i < |slots|
      invariant i <= |slots|
      invariant Valid(n, hash) && n.capacity == 2 * m.capacity && n.size == i
      invariant Reinserted(e, slots, n, i)
    {
      ReinsertStep(m, hash, slots, n, i);
      n := TrySet(n, hash, e[slots[i]].key, e[slots[i]].value).value;
      i := i + 1;
    }
    ExtendKeepsAll(e, slots, n);
    return Success(n);
  }

  /** Once every listed entry is re-inserted, every binding is back. */
  lemma ExtendKeepsAll<K(!new), V>(e: seq<Slot<K, V>>, slots: seq<nat>, n: IdMap<K, V>)
    requires SlotList(e, slots) && Reinserted(e, slots, n, |slots|)
    requires forall j :: j in slots <==> 0 <= j < |e| && e[j].Full?
    ensures forall k :: Lookup(n.entries, k) == Lookup(e, k)
  {
    forall k
      ensures Lookup(n.entries, k) == Lookup(e, k)
    {
      ExtendKeeps(e, slots, n, k);
    }
  }

  lemma ExtendKeeps<K(!new), V>(e: seq<Slot<K, V>>, slots: seq<nat>, n: IdMap<K, V>, k: K)
    requires SlotList(e, slots) && Reinserted(e, slots, n, |slots|)
    requires forall j :: j in slots <==> 0 <= j < |e| && e[j].Full?
    ensures Lookup(n.entries, k) == Lookup(e, k)
  {
    if Lookup(e, k).Some? {
      var j :| Holds(e, j, k) && e[j].value == Lookup(e, k).value;
      assert j in slots;
      var t :| 0 <= t < |slots| && slots[t] == j;
      assert Lookup(n.entries, e[slots[t]].key).Some?;
    }
  }

  /** `set_id_hash_map_at`: try once; only when the map is full, extend it
      and try again, which then succeeds. */
  method SetAt<K(==,!new), V>(m: IdMap<K, V>, hash: K -> nat, k: K, v: V, arrayAllocated: bool)
    returns (r: Result<IdMap<K, V>, Cause>)
    requires Valid(m, hash)
    ensures r.Failure? <==>
      m.size == m.capacity - 1 && Lookup(m.entries, k).None? && !arrayAllocated
    ensures r.Failure? ==> r.error == HeapExhausted
    ensures r.Success? ==>
      && Valid(r.value, hash)
      && Lookup(r.value.entries, k) == Some(v)
      && forall k2 | k2 != k :: Lookup(r.value.entries, k2) == Lookup(m.entries, k2)
  {
    var first := TrySet(m, hash, k, v);
    if first.Failure? && first.error == MapFull {
      var extended := Extend(m, hash, arrayAllocated);
      if extended.Failure? {
        return extended;
      }
      var second := TrySet(extended.value, hash, k, v);
      return second;
    }
    return first;
  }
}

=== FILE: layout.dfy ===
/** Frame layout constants and frame flags of the segmented call stack
    (process.h). */
module Layout {

  /** The number of word-size fields of a transient frame. */
  const FrameFieldCount: nat := 5

  /** The words of a frame header: the frame fields except the implicit stack
      pointer and the stack piece, plus the code block, the pc and the
      argument map. */
  const FrameHeaderSize: nat := (FrameFieldCount - 2) + 1 + 1 + 1

  /** The stack entries that record the complete state of a frame: everything
      but the stack piece, plus the pc. */
  const CapturedStateSize: nat := (FrameFieldCount - 1) + 1

  /** Offsets of the header fields, counted down from the frame pointer. The
      field at offset `k` lives in the slot `fp - k - 1`. */
  const PreviousFramePointerOffset: nat := 0
  const PreviousLimitOffset: nat := 1
  const PreviousFlagsOffset: nat := 2
  const CodeBlockOffset: nat := 3
  const PreviousPcOffset: nat := 4
  const ArgumentMapOffset: nat := 5

  function HeaderOffsets(): seq<nat> {
    [PreviousFramePointerOffset, PreviousLimitOffset, PreviousFlagsOffset,
     CodeBlockOffset, PreviousPcOffset, ArgumentMapOffset]
  }

  lemma HeaderLayout()
    ensures FrameHeaderSize == 6
    ensures CapturedStateSize == FrameFieldCount == 5
    ensures |HeaderOffsets()| == FrameHeaderSize
    ensures forall i | 0 <= i < |HeaderOffsets()| :: HeaderOffsets()[i] < FrameHeaderSize
    ensures forall i, j | 0 <= i < j < |HeaderOffsets()| :: HeaderOffsets()[i] != HeaderOffsets()[j]
  {
  }

  /** The flags a frame can carry. `Lid` marks the zero-size frame that closes
      a stack piece. */
  datatype FrameFlag = Synthetic | StackPieceBottom | StackPieceEmpty | StackBottom | Organic | Lid

  /** The bit of each flag. The first five are the values of `frame_flag_t`;
      the lid flag has no value in the header, so the next free bit is used. */
  function FlagBit(f: FrameFlag): bv32 {
    match f
    case Synthetic => 0x01
    case StackPieceBottom => 0x02
    case StackPieceEmpty => 0x04
    case StackBottom => 0x08
    case Organic => 0x10
    case Lid => 0x20
  }

  /** Is the flag set in the flag word? */
  predicate HasFlag(w: bv32, f: FrameFlag) {
    w & FlagBit(f) != 0
  }

  /** The flag word holding exactly the flags of `fs`. */
  function FlagWord(fs: set<FrameFlag>): (w: bv32)
    ensures forall f :: HasFlag(w, f) <==> f in fs
  {
    (if Synthetic in fs then FlagBit(Synthetic) else 0)
    | (if StackPieceBottom in fs then FlagBit(StackPieceBottom) else 0)
    | (if StackPieceEmpty in fs then FlagBit(StackPieceEmpty) else 0)
    | (if StackBottom in fs then FlagBit(StackBottom) else 0)
    | (if Organic in fs then FlagBit(Organic) else 0)
    | (if Lid in fs then FlagBit(Lid) else 0)
  }

  /** Every flag is a single bit and no two flags share it. */
  lemma FlagBitsDistinct(f: FrameFlag, g: FrameFlag)
    ensures FlagBit(f) & (FlagBit(f) - 1) == 0 && FlagBit(f) != 0
    ensures f != g ==> FlagBit(f) & FlagBit(g) == 0
  {
  }

  /** An OR of flags determines which flags were ORed. */
  lemma {:induction false} FlagWordInjective(a: set<FrameFlag>, b: set<FrameFlag>)
    requires FlagWord(a) == FlagWord(b)
    ensures a == b
  {
    forall f
      ensures f in a <==> f in b
    {
      assert HasFlag(FlagWord(a), f) <==> f in a;
    }
  }

  const SyntheticEmptyFlags: bv32 := FlagWord({Synthetic, StackPieceEmpty})
  const PieceBottomFlags: bv32 := FlagWord({Synthetic, StackPieceBottom})
  const StackBottomFlags: bv32 := FlagWord({Synthetic, StackBottom})
  const OrganicFlags: bv32 := FlagWord({Organic})
  const LidFlags: bv32 := FlagWord({Lid, Synthetic})
}

=== FILE: objmem.dfy ===
/** Object sizes and arrays laid out in byte-addressed memory (value.c,
    alloc.c). Memory is a sequence of bytes; a word is stored little-endian
    in eight consecutive bytes. */
module ObjectMemory {
  import opened Values
  import opened Heap

  // --- Sizes ---

  /** Header, length word and the characters plus their terminating null,
      rounded up to whole words. */
  function CalcStringSize(charCount: nat): (r: nat)
    requires charCount + 1 + ValueSize < WordLimit
    ensures r % ValueSize == 0
    ensures ObjectHeaderSize + ValueSize + charCount + 1 <= r
    ensures r < ObjectHeaderSize + ValueSize + charCount + 1 + ValueSize
  {
    Pow2Widths();
    ObjectHeaderSize + ValueSize + AlignSize(ValueSize, charCount + 1)
  }

  /** Header, length word and the data bytes rounded up to whole words. */
  function CalcBlobSize(byteCount: nat): (r: nat)
    requires byteCount + ValueSize < WordLimit
    ensures r % ValueSize == 0
    ensures ObjectHeaderSize + ValueSize + byteCount <= r
    ensures r < ObjectHeaderSize + ValueSize + byteCount + ValueSize
  {
    Pow2Widths();
    ObjectHeaderSize + ValueSize + AlignSize(ValueSize, byteCount)
  }

  /** Header, length word and one word per element, computed in `size_t`:
      for a length whose size does not fit in a word the sum wraps. */
  function CalcArraySize(length: Word): (r: Word)
    ensures ObjectSize(length + 1) < WordLimit ==> r == ObjectSize(length + 1)
    ensures ObjectSize(length + 1) < WordLimit ==> r == ObjectFieldOffset(1) + length * ValueSize
    ensures ObjectSize(length + 1) >= WordLimit ==> r < ObjectSize(length + 1)
    ensures r % ValueSize == 0
  {
    ObjectLayout(length + 1, 0);
    ObjectLayout(1, 0);
    (ObjectHeaderSize + ValueSize + length * ValueSize) % WordLimit
  }

  /** An array of 2^61 elements has the size of an empty array once the
      multiplication wraps. */
  lemma CalcArraySizeWraps()
    ensures CalcArraySize(0x2000_0000_0000_0000) == CalcArraySize(0)
    ensures CalcArraySize(0) == ObjectSize(1)
  {
    ObjectLayout(1, 0);
    ObjectLayout(0x2000_0000_0000_0001, 0);
  }

  // --- Byte memory ---

  type Byte = b: nat | b < 256
  type Memory = seq<Byte>

  function Pow256(n: nat): (r: nat)
    ensures r >= 1
  {
    if n == 0 then 1 else 256 * Pow256(n - 1)
  }

  /** The number held little-endian in the bytes. */
  function LoadBytes(bs: seq<Byte>): (r: nat)
    ensures r < Pow256(|bs|)
  {
    if |bs| == 0 then 0 else bs[0] + 256 * LoadBytes(bs[1..])
  }

  /** The low `n` bytes of `w`, least significant first. */
  function WordBytes(w: nat, n: nat): (bs: seq<Byte>)
    ensures |bs| == n
  {
    if n == 0 then [] else [w % 256] + WordBytes(w / 256, n - 1)
  }

  lemma {:induction false} LoadWordBytes(w: nat, n: nat)
    requires w < Pow256(n)
    ensures LoadBytes(WordBytes(w, n)) == w
  {
    if n > 0 {
      LoadWordBytes(w / 256, n - 1);
      assert WordBytes(w, n)[1..] == WordBytes(w / 256, n - 1);
    }
  }

  lemma WordFitsEightBytes(w: Word)
    ensures w < Pow256(8)
  {
    assert Pow256(8) == WordLimit;
  }

  function LoadWord(m: Memory, a: nat): (w: Word)
    requires a + ValueSize <= |m|
  {
    WordFitsEightBytes(0);
    LoadBytes(m[a..a + ValueSize])
  }

  function StoreWord(m: Memory, a: nat, w: Word): (m': Memory)
    requires a + ValueSize <= |m|
    ensures |m'| == |m|
    ensures m'[a..a + ValueSize] == WordBytes(w, ValueSize)
    ensures forall i | 0 <= i < |m| && !(a <= i < a + ValueSize) :: m'[i] == m[i]
  {
    m[..a] + WordBytes(w, ValueSize) + m[a + ValueSize..]
  }

  /** A stored word reads back, and words that do not overlap it are
      untouched. */
  lemma StoreThenLoad(m: Memory, a: nat, w: Word, b: nat)
    requires a + ValueSize <= |m| && b + ValueSize <= |m|
    ensures LoadWord(StoreWord(m, a, w), a) == w
    ensures a + ValueSize <= b || b + ValueSize <= a ==>
      LoadWord(StoreWord(m, a, w), b) == LoadWord(m, b)
  {
    WordFitsEightBytes(w);
    LoadWordBytes(w, ValueSize);
    var m' := StoreWord(m, a, w);
    if a + ValueSize <= b || b + ValueSize <= a {
      assert m'[b..b + ValueSize] == m[b..b + ValueSize];
    }
  }

  // --- Arrays ---

  /** An array object at address `o`: its length word holds the tagged
      integer `length` and its elements fit in memory. */
  predicate IsArray(m: Memory, o: nat, length: nat) {
    o + ObjectSize(length + 1) <= |m|
    && IsInt64(length)
    && LoadWord(m, o + ObjectFieldOffset(0)) == NewInteger(length)
  }

  /** `get_array_at` as written: the element index is added to the byte
      address of the elements without scaling by the word size. */
  function GetArrayAtAsWritten(m: Memory, o: nat, length: nat, index: nat): Word
    requires IsArray(m, o, length) && index < length
  {
    LoadWord(m, o + ObjectFieldOffset(1) + index)
  }

  /** `set_array_at` as written, with the same unscaled offset. */
  function SetArrayAtAsWritten(m: Memory, o: nat, length: nat, index: nat, v: Word): (m': Memory)
    requires IsArray(m, o, length) && index < length
    ensures |m'| == |m|
  {
    StoreWord(m, o + ObjectFieldOffset(1) + index, v)
  }

  /** A two-element array whose first element is set to 0 and second to 1
      reads back 256, not 0, as its first element. */
  lemma ArrayElementsOverlapAsWritten()
    ensures var m := StoreWord(seq(32, i => 0), 8, NewInteger(2));
      IsArray(m, 0, 2)
      && var m1 := SetArrayAtAsWritten(m, 0, 2, 0, 0);
         IsArray(m1, 0, 2)
         && var m2 := SetArrayAtAsWritten(m1, 0, 2, 1, 1);
            IsArray(m2, 0, 2)
            && GetArrayAtAsWritten(m2, 0, 2, 0) == 256
  {
    var m := StoreWord(seq(32, i => 0), 8, NewInteger(2));
    StoreThenLoad(seq(32, i => 0), 8, NewInteger(2), 8);
    assert IsArray(m, 0, 2);
    var m1 := SetArrayAtAsWritten(m, 0, 2, 0, 0);
    assert m1 == StoreWord(m, 16, 0);
    StoreThenLoad(m, 16, 0, 8);
    assert IsArray(m1, 0, 2);
    var m2 := SetArrayAtAsWritten(m1, 0, 2, 1, 1);
    assert m2 == StoreWord(m1, 17, 1);
    StoreThenLoad(m1, 17, 1, 8);
    assert IsArray(m2, 0, 2);
    assert m1[16..24][0] == m1[16];
    OverlappingStore(m1);
    assert GetArrayAtAsWritten(m2, 0, 2, 0) == LoadWord(m2, 16);
  }

  function Zeros(n: nat): (bs: seq<Byte>)
    ensures |bs| == n && forall i | 0 <= i < n :: bs[i] == 0
  {
    seq(n, _ => 0)
  }

  lemma {:induction false} LoadZeros(n: nat)
    ensures LoadBytes(Zeros(n)) == 0
  {
    if n > 0 {
      LoadZeros(n - 1);
      assert Zeros(n)[1..] == Zeros(n - 1);
    }
  }

  /** A one in the second byte of a word is 256. */
  lemma LoadSecondByte()
    ensures LoadBytes([0, 1, 0, 0, 0, 0, 0, 0]) == 256
  {
    LoadZeros(6);
    assert [0, 1, 0, 0, 0, 0, 0, 0][2..] == Zeros(6);
  }

  /** Storing 1 one byte above a zero byte makes the word at the zero byte
      read 256. */
  lemma OverlappingStore(m1: Memory)
    requires |m1| >= 32 && m1[16..24] == WordBytes(0, 8)
    ensures LoadWord(StoreWord(m1, 17, 1), 16) == 256
  {
    var m2 := StoreWord(m1, 17, 1);
    assert WordBytes(0, 8)[0] == 0;
    assert WordBytes(1, 8) == [1, 0, 0, 0, 0, 0, 0, 0];
    assert m2[16] == m1[16] == 0;
    forall k | 17 <= k < 24
      ensures m2[k] == if k == 17 then 1 else 0
    {
      assert m2[k] == m2[17..25][k - 17];
    }
    assert m2[16..24] == [0, 1, 0, 0, 0, 0, 0, 0];
    LoadSecondByte();
  }

  /** The address of element `index`, scaled by the word size. */
  function ElementAddress(o: nat, index: nat): nat {
    o + ObjectFieldOffset(1) + index * ValueSize
  }

  function GetArrayAt(m: Memory, o: nat, length: nat, index: nat): Word
    requires IsArray(m, o, length) && index < length
  {
    LoadWord(m, ElementAddress(o, index))
  }

  function SetArrayAt(m: Memory, o: nat, length: nat, index: nat, v: Word): (m': Memory)
    requires IsArray(m, o, length) && index < length
    ensures IsArray(m', o, length)
    ensures GetArrayAt(m', o, length, index) == v
    ensures forall j | 0 <= j < length && j != index ::
      GetArrayAt(m', o, length, j) == GetArrayAt(m, o, length, j)
  {
    var m' := StoreWord(m, ElementAddress(o, index), v);
    StoreThenLoad(m, ElementAddress(o, index), v, o + ObjectFieldOffset(0));
    forall j | 0 <= j < length && j != index
      ensures LoadWord(m', ElementAddress(o, j)) == LoadWord(m, ElementAddress(o, j))
    {
      StoreThenLoad(m, ElementAddress(o, index), v, ElementAddress(o, j));
    }
    StoreThenLoad(m, ElementAddress(o, index), v, ElementAddress(o, index));
    m'
  }

  /** Lays out a fresh array of `length` elements at `o`, every element
      `null`, as `new_heap_array` does after allocating its bytes. */
  method NewHeapArray(m: Memory, o: nat, length: nat, nullValue: Word) returns (m': Memory)
    requires length < WordLimit && ObjectSize(length + 1) < WordLimit
    requires o + CalcArraySize(length) <= |m| && IsInt64(length)
    ensures IsArray(m', o, length)
    ensures |m'| == |m|
    ensures forall i | 0 <= i < length :: GetArrayAt(m', o, length, i) == nullValue
  {
    m' := StoreWord(m, o + ObjectFieldOffset(0), NewInteger(length));
    StoreThenLoad(m, o + ObjectFieldOffset(0), NewInteger(length), o + ObjectFieldOffset(0));
    var i := 0;
    while i < length
      invariant 0 <= i <= length
      invariant IsArray(m', o, length) && |m'| == |m|
      invariant forall j | 0 <= j < i :: GetArrayAt(m', o, length, j) == nullValue
    {
      m' := SetArrayAt(m', o, length, i, nullValue);
      i := i + 1;
    }
  }

  /** A pair array of `n` pairs is an array of `2n` elements. */
  method NewHeapPairArray(m: Memory, o: nat, n: nat, nullValue: Word) returns (m': Memory)
    requires 2 * n < WordLimit && ObjectSize(2 * n + 1) < WordLimit
    requires o + CalcArraySize(2 * n) <= |m| && IsInt64(2 * n)
    ensures IsArray(m', o, 2 * n)
    ensures forall i | 0 <= i < 2 * n :: GetArrayAt(m', o, 2 * n, i) == nullValue
  {
    m' := NewHeapArray(m, o, 2 * n, nullValue);
  }
}

=== FILE: stack.dfy ===
/** Stack pieces and frames (process.c). A stack piece is a fixed array of
    slots; a frame is a cursor over one piece given by slot offsets. Below
    each frame pointer lies a six-slot header recording the frame beneath,
    so frames form a chain that can be walked down. A piece is closed when
    its lid offset is an integer: the lid is a zero-size frame pushed on top
    that records the state of the frame that was current. */
module StackPiece {
  import opened Wrappers
  import opened Layout

  /** The slot contents the stack code distinguishes. Everything pushed by
      the interpreter that is not one of the others is `Data`. */
  datatype Val =
    | Nothing
    | Int(n: int)
    | FlagSet(w: bv32)
    | CodeBlock(bytecode: seq<nat>, valuePool: seq<Val>)
    | ArgMap(offsets: seq<nat>)
    | CallTags(entries: seq<TagEntry>)
    | Data(d: int)

  /** One entry of a call tags object: a tag and the stack offset of its
      argument counted down from the stack pointer. */
  datatype TagEntry = TagEntry(tag: int, offset: nat)

  datatype Piece = Piece(
    capacity: nat,
    storage: seq<Val>,
    previous: Option<nat>,
    stack: Option<nat>,
    lid: Val)

  predicate WellFormed(p: Piece) {
    |p.storage| == p.capacity
  }

  /** `is_stack_piece_closed`. */
  predicate IsClosed(p: Piece) {
    p.lid.Int?
  }

  /** `frame_t`: stack pointer, frame pointer and limit as offsets into the
      piece's storage, the flag word, the pc and the piece (an index into
      the arena of pieces). */
  datatype Frame = Frame(sp: nat, fp: nat, limit: nat, flags: bv32, pc: nat, piece: Option<nat>)

  /** `frame_empty`. */
  function EmptyFrame(): Frame {
    Frame(0, 0, 0, 0, 0, None)
  }

  /** The slot of the header field at `offset` below frame pointer `fp`, as
      `access_frame_header_field` computes it. */
  function HeaderSlot(fp: nat, offset: nat): int {
    fp - offset - 1
  }

  function GetHeader(s: seq<Val>, fp: nat, offset: nat): Val
    requires offset < FrameHeaderSize <= fp <= |s|
  {
    s[HeaderSlot(fp, offset)]
  }

  /** The header `try_push_new_frame` writes below the new frame pointer
      `fp`, recording the frame `below`. */
  function WriteHeader(s: seq<Val>, fp: nat, below: Frame): (s': seq<Val>)
    requires FrameHeaderSize <= fp <= |s|
    ensures |s'| == |s|
    ensures GetHeader(s', fp, PreviousFramePointerOffset) == Int(below.fp)
    ensures GetHeader(s', fp, PreviousLimitOffset) == Int(below.limit)
    ensures GetHeader(s', fp, PreviousFlagsOffset) == FlagSet(below.flags)
    ensures GetHeader(s', fp, CodeBlockOffset) == Nothing
    ensures GetHeader(s', fp, PreviousPcOffset) == Int(below.pc)
    ensures GetHeader(s', fp, ArgumentMapOffset) == Nothing
    ensures forall i | 0 <= i < |s| && !(fp - FrameHeaderSize <= i < fp) :: s'[i] == s[i]
  {
    s[fp - 1 := Int(below.fp)]
     [fp - 2 := Int(below.limit)]
     [fp - 3 := FlagSet(below.flags)]
     [fp - 4 := Nothing]
     [fp - 5 := Int(below.pc)]
     [fp - 6 := Nothing]
  }

  /** Overwrites one header field, as the `frame_set_*` setters do.
      `access_frame_header_field` accepts offsets up to the header size
      itself and any slot at or above the bottom of the piece. */
  function SetHeader(p: Piece, fp: nat, offset: nat, v: Val): (p': Piece)
    requires WellFormed(p) && offset <= FrameHeaderSize && offset < fp <= p.capacity
    ensures WellFormed(p') && p'.capacity == p.capacity
    ensures p'.previous == p.previous && p'.stack == p.stack && p'.lid == p.lid
    ensures 0 <= HeaderSlot(fp, offset) < p.capacity && p'.storage[HeaderSlot(fp, offset)] == v
    ensures offset < FrameHeaderSize <= fp ==> GetHeader(p'.storage, fp, offset) == v
    ensures forall i | 0 <= i < p.capacity && i != HeaderSlot(fp, offset) ::
      p'.storage[i] == p.storage[i]
  {
    p.(storage := p.storage[HeaderSlot(fp, offset) := v])
  }

  datatype Pushed = Pushed(ok: bool, piece: Piece, frame: Frame)

  /** `try_push_new_frame`. Every frame but a lid leaves a header's worth of
      slots free at the top of the piece, so that the piece can always be
      closed. */
  function TryPushNewFrame(p: Piece, f: Frame, capacity: nat, flags: bv32, isLid: bool): (r: Pushed)
    requires WellFormed(p) && !IsClosed(p)
    ensures r.ok <==> f.sp + FrameHeaderSize + capacity <= p.capacity - (if isLid then 0 else FrameHeaderSize)
    ensures !r.ok ==> r.piece == p && r.frame == f
    ensures r.ok ==>
      && WellFormed(r.piece)
      && r.piece.capacity == p.capacity && r.piece.previous == p.previous
      && r.piece.stack == p.stack && r.piece.lid == p.lid
      && r.frame.sp == r.frame.fp == f.sp + FrameHeaderSize
      && r.frame.limit == r.frame.fp + capacity
      && r.frame.flags == flags && r.frame.pc == 0 && r.frame.piece == f.piece
      && GetHeader(r.piece.storage, r.frame.fp, PreviousFramePointerOffset) == Int(f.fp)
      && GetHeader(r.piece.storage, r.frame.fp, PreviousLimitOffset) == Int(f.limit)
      && GetHeader(r.piece.storage, r.frame.fp, PreviousFlagsOffset) == FlagSet(f.flags)
      && GetHeader(r.piece.storage, r.frame.fp, CodeBlockOffset) == Nothing
      && GetHeader(r.piece.storage, r.frame.fp, PreviousPcOffset) == Int(f.pc)
      && GetHeader(r.piece.storage, r.frame.fp, ArgumentMapOffset) == Nothing
      && forall i | 0 <= i < p.capacity && !(f.sp <= i < r.frame.fp) ::
           r.piece.storage[i] == p.storage[i]
  {
    var pieceLimit: int := p.capacity - (if isLid then 0 else FrameHeaderSize);
    var newFp := f.sp + FrameHeaderSize;
    var newLimit := newFp + capacity;
    if newLimit > pieceLimit then Pushed(false, p, f)
    else
      var frame := Frame(newFp, newFp, newLimit, flags, 0, f.piece);
      Pushed(true, p.(storage := WriteHeader(p.storage, newFp, f)), frame)
  }

  /** The header below `fp` holds what `frame_walk_down_stack` reads back:
      non-negative offsets and pc, and a flag word. */
  predicate HeaderReadable(p: Piece, fp: nat) {
    && FrameHeaderSize <= fp <= |p.storage|
    && GetHeader(p.storage, fp, PreviousFramePointerOffset).Int?
    && GetHeader(p.storage, fp, PreviousFramePointerOffset).n >= 0
    && GetHeader(p.storage, fp, PreviousLimitOffset).Int?
    && GetHeader(p.storage, fp, PreviousLimitOffset).n >= 0
    && GetHeader(p.storage, fp, PreviousFlagsOffset).FlagSet?
    && GetHeader(p.storage, fp, PreviousPcOffset).Int?
    && GetHeader(p.storage, fp, PreviousPcOffset).n >= 0
  }

  /** `frame_walk_down_stack`: the frame below, as recorded in the header;
      its stack pointer is the first slot of this frame's header. */
  function WalkDown(p: Piece, f: Frame): (g: Frame)
    requires HeaderReadable(p, f.fp)
    ensures g.sp + FrameHeaderSize == f.fp
    ensures g.piece == f.piece
  {
    Frame(
      f.fp - FrameHeaderSize,
      GetHeader(p.storage, f.fp, PreviousFramePointerOffset).n,
      GetHeader(p.storage, f.fp, PreviousLimitOffset).n,
      GetHeader(p.storage, f.fp, PreviousFlagsOffset).w,
      GetHeader(p.storage, f.fp, PreviousPcOffset).n,
      f.piece)
  }

  /** Pushing a frame and walking down again gives back the frame exactly. */
  lemma PushThenWalkDown(p: Piece, f: Frame, capacity: nat, flags: bv32, isLid: bool)
    requires WellFormed(p) && !IsClosed(p)
    requires TryPushNewFrame(p, f, capacity, flags, isLid).ok
    ensures var r := TryPushNewFrame(p, f, capacity, flags, isLid);
      HeaderReadable(r.piece, r.frame.fp) && WalkDown(r.piece, r.frame) == f
  {
  }

  /** The header below a frame pointer lies beneath it: a piece that keeps
      the slots below `f.fp` reads the same frame below `f`. */
  lemma HeaderBelowKept(p: Piece, q: Piece, f: Frame)
    requires HeaderReadable(p, f.fp) && f.fp <= |q.storage|
    requires forall i | 0 <= i < f.fp :: q.storage[i] == p.storage[i]
    ensures HeaderReadable(q, f.fp) && WalkDown(q, f) == WalkDown(p, f)
  {
  }

  datatype Closed = Closed(piece: Piece, frame: Frame)

  /** `close_frame`: push a lid frame, record its frame pointer in the piece
      and reset the frame cursor. The flags keep the lid frame's value. */
  function CloseFrame(p: Piece, f: Frame): (r: Closed)
    requires WellFormed(p) && !IsClosed(p)
    requires f.sp + FrameHeaderSize <= p.capacity
    ensures WellFormed(r.piece) && IsClosed(r.piece)
    ensures r.piece.lid == Int(f.sp + FrameHeaderSize)
    ensures r.piece.capacity == p.capacity && r.piece.previous == p.previous && r.piece.stack == p.stack
    ensures forall i | 0 <= i < f.sp :: r.piece.storage[i] == p.storage[i]
    ensures r.frame == Frame(0, 0, 0, LidFlags, 0, None)
  {
    var pushed := TryPushNewFrame(p, f, 0, LidFlags, true);
    Closed(
      pushed.piece.(lid := Int(pushed.frame.fp)),
      Frame(0, 0, 0, pushed.frame.flags, 0, None))
  }

  /** A closed piece whose lid header can be read. */
  predicate LidReadable(p: Piece) {
    IsClosed(p) && p.lid.n >= 0 && HeaderReadable(p, p.lid.n)
  }

  /** `read_stack_piece_lid`: the frame the lid recorded, on piece `index`. */
  function ReadLid(p: Piece, index: nat): (f: Frame)
    requires LidReadable(p)
    ensures f.piece == Some(index)
    ensures f.sp + FrameHeaderSize == p.lid.n
  {
    WalkDown(p, Frame(0, p.lid.n, 0, 0, 0, Some(index)))
  }

  /** `open_stack_piece`: read the lid and mark the piece open. */
  function OpenStackPiece(p: Piece, index: nat): (r: Closed)
    requires LidReadable(p)
    ensures !IsClosed(r.piece) && r.piece.lid == Nothing
    ensures r.piece.storage == p.storage && r.piece.capacity == p.capacity
    ensures r.piece.previous == p.previous && r.piece.stack == p.stack
    ensures r.frame == ReadLid(p, index)
  {
    Closed(p.(lid := Nothing), ReadLid(p, index))
  }

  /** Closing the current frame's piece and opening it again restores the
      frame exactly and leaves the piece open. */
  lemma CloseThenOpen(p: Piece, f: Frame, index: nat)
    requires WellFormed(p) && !IsClosed(p)
    requires f.sp + FrameHeaderSize <= p.capacity && f.piece == Some(index)
    ensures LidReadable(CloseFrame(p, f).piece)
    ensures OpenStackPiece(CloseFrame(p, f).piece, index).frame == f
    ensures !IsClosed(OpenStackPiece(CloseFrame(p, f).piece, index).piece)
  {
    PushThenWalkDown(p, f, 0, LidFlags, true);
  }

  // --- Values on the frame ---

  /** The piece and the frame over it, as the value operations see them. */
  datatype State = State(piece: Piece, frame: Frame)

  predicate Fits(s: State) {
    WellFormed(s.piece) && s.frame.sp <= s.piece.capacity && s.frame.limit <= s.piece.capacity
  }

  /** `frame_push_value`: OutOfBounds unless the stack pointer lies in
      `[fp, limit)`. */
  function PushValue(s: State, v: Val): (r: Result<State, Cause>)
    requires Fits(s)
    ensures r.Failure? <==> !(s.frame.fp <= s.frame.sp < s.frame.limit)
    ensures r.Failure? ==> r.error == OutOfBounds
    ensures r.Success? ==> Fits(r.value) && r.value.frame == s.frame.(sp := s.frame.sp + 1)
    ensures r.Success? ==> r.value.piece == s.piece.(storage := s.piece.storage[s.frame.sp := v])
  {
    if s.frame.fp <= s.frame.sp < s.frame.limit then
      Success(State(s.piece.(storage := s.piece.storage[s.frame.sp := v]), s.frame.(sp := s.frame.sp + 1)))
    else Failure(OutOfBounds)
  }

  datatype Popped = Popped(value: Val, state: State)

  /** `frame_pop_value`: OutOfBounds unless the slot below the stack pointer
      lies in `[fp, limit)`. */
  function PopValue(s: State): (r: Result<Popped, Cause>)
    requires Fits(s)
    ensures r.Failure? <==> !(s.frame.fp + 1 <= s.frame.sp <= s.frame.limit)
    ensures r.Failure? ==> r.error == OutOfBounds
    ensures r.Success? ==> r.value.state == State(s.piece, s.frame.(sp := s.frame.sp - 1))
  {
    if s.frame.sp >= 1 && s.frame.fp <= s.frame.sp - 1 < s.frame.limit then
      Success(Popped(s.piece.storage[s.frame.sp - 1], State(s.piece, s.frame.(sp := s.frame.sp - 1))))
    else Failure(OutOfBounds)
  }

  /** `frame_peek_value`: the value `index` places below the top. The
      source does not check the bounds. */
  function PeekValue(s: State, index: nat): Val
    requires Fits(s) && index < s.frame.sp
  {
    s.piece.storage[s.frame.sp - index - 1]
  }

  /** Values come off in the order opposite to the one they went on. */
  lemma PushThenPop(s: State, v: Val)
    requires Fits(s) && PushValue(s, v).Success?
    ensures PeekValue(PushValue(s, v).value, 0) == v
    ensures PopValue(PushValue(s, v).value) ==
      Success(Popped(v, State(PushValue(s, v).value.piece, s.frame)))
  {
  }

  /** Pushing leaves the values below it where they were. */
  lemma PushKeepsBelow(s: State, v: Val, index: nat)
    requires Fits(s) && PushValue(s, v).Success? && index < s.frame.sp
    ensures PeekValue(PushValue(s, v).value, index + 1) == PeekValue(s, index)
  {
  }

  /** `frame_get_local`: defined only for locals already pushed. */
  function GetLocal(s: State, index: nat): (r: Result<Val, Cause>)
    requires Fits(s)
    ensures r.Success? <==> s.frame.fp + index < s.frame.sp
    ensures r.Failure? ==> r.error == OutOfBounds
    ensures r.Success? ==> r.value == PeekValue(s, s.frame.sp - s.frame.fp - index - 1)
  {
    if s.frame.fp + index < s.frame.sp then Success(s.piece.storage[s.frame.fp + index])
    else Failure(OutOfBounds)
  }

  /** The argument map is readable and maps `param` to a slot below the
      header. */
  predicate ArgumentReadable(s: State, param: nat) {
    && Fits(s)
    && FrameHeaderSize <= s.frame.fp <= s.piece.capacity
    && GetHeader(s.piece.storage, s.frame.fp, ArgumentMapOffset).ArgMap?
    && param < |GetHeader(s.piece.storage, s.frame.fp, ArgumentMapOffset).offsets|
    && GetHeader(s.piece.storage, s.frame.fp, ArgumentMapOffset).offsets[param] < s.frame.fp - FrameHeaderSize
  }

  /** `frame_get_argument`: the argument map sends parameter `param` to an
      offset counted down from the slot below the header. */
  function GetArgument(s: State, param: nat): (v: Val)
    requires ArgumentReadable(s, param)
  {
    var offset := GetHeader(s.piece.storage, s.frame.fp, ArgumentMapOffset).offsets[param];
    s.piece.storage[(s.frame.fp - FrameHeaderSize) - (offset + 1)]
  }

  /** The arguments are the values the caller left on top of its frame:
      reading argument `param` is peeking below the callee's header as the
      caller would have peeked before the push. */
  lemma ArgumentIsCallerPeek(p: Piece, f: Frame, capacity: nat, argMap: seq<nat>, param: nat)
    requires WellFormed(p) && !IsClosed(p) && f.sp <= p.capacity && f.limit <= p.capacity
    requires TryPushNewFrame(p, f, capacity, FlagWord({Organic}), false).ok
    requires param < |argMap| && argMap[param] < f.sp
    ensures var r := TryPushNewFrame(p, f, capacity, FlagWord({Organic}), false);
      var s := State(SetHeader(r.piece, r.frame.fp, ArgumentMapOffset, ArgMap(argMap)), r.frame);
      ArgumentReadable(s, param)
      && GetArgument(s, param) == PeekValue(State(p, f), argMap[param])
  {
  }
}

=== FILE: stackgrow.dfy ===
/** Creating stacks and growing them by pieces (alloc.c, process.c). The
    pieces of all stacks live in an arena, a sequence indexed by piece
    number; a piece's `previous` is the piece below it. */
module StackGrowth {
  import opened Wrappers
  import opened Layout
  import opened StackPiece

  /** A stack object: its top piece, the capacity new pieces get by
      default, and the top barrier. */
  datatype Stack = Stack(topPiece: nat, defaultCapacity: nat, topBarrier: Val)

  /** `new_heap_stack_piece`: `userCapacity` slots plus room for the lid,
      every slot nothing, closed over an empty synthetic frame at offset 0. */
  function NewStackPiece(userCapacity: nat, previous: Option<nat>, stack: Option<nat>): (p: Piece)
    ensures WellFormed(p) && p.capacity == userCapacity + FrameHeaderSize
    ensures p.previous == previous && p.stack == stack
    ensures IsClosed(p) && p.lid == Int(FrameHeaderSize) && LidReadable(p)
    ensures forall i | FrameHeaderSize <= i < p.capacity :: p.storage[i] == Nothing
  {
    var full := userCapacity + FrameHeaderSize;
    var blank := Piece(full, seq(full, _ => Nothing), previous, stack, Nothing);
    var bottom := Frame(0, 0, 0, SyntheticEmptyFlags, 0, None);
    PushThenWalkDown(blank, bottom, 0, LidFlags, true);
    CloseFrame(blank, bottom).piece
  }

  /** Opening a new piece finds the empty frame at offset 0. */
  lemma OpenNewStackPiece(userCapacity: nat, previous: Option<nat>, stack: Option<nat>, index: nat)
    ensures ReadLid(NewStackPiece(userCapacity, previous, stack), index)
      == Frame(0, 0, 0, SyntheticEmptyFlags, 0, Some(index))
  {
    var full := userCapacity + FrameHeaderSize;
    var blank := Piece(full, seq(full, _ => Nothing), previous, stack, Nothing);
    CloseThenOpen(blank, Frame(0, 0, 0, SyntheticEmptyFlags, 0, Some(index)), index);
  }

  /** A frame over an open piece that leaves room for the lid. */
  predicate OpenFrame(p: Piece, f: Frame) {
    WellFormed(p) && !IsClosed(p) && f.sp <= f.limit && f.limit + FrameHeaderSize <= p.capacity
  }

  /** `push_stack_bottom_frame` inside `new_heap_stack`: on a new piece,
      push the synthetic stack-bottom frame sized for its code block and
      close the piece again. */
  method PushStackBottomFrame(p: Piece, index: nat, highWaterMark: nat, codeBlock: Val)
    returns (p': Piece)
    requires WellFormed(p) && LidReadable(p)
    requires ReadLid(p, index) == Frame(0, 0, 0, SyntheticEmptyFlags, 0, Some(index))
    requires FrameHeaderSize + highWaterMark + FrameHeaderSize <= p.capacity
    ensures WellFormed(p') && LidReadable(p') && p'.capacity == p.capacity
    ensures p'.previous == p.previous && p'.stack == p.stack
    ensures ReadLid(p', index) == Frame(FrameHeaderSize, FrameHeaderSize,
      FrameHeaderSize + highWaterMark, StackBottomFlags, 0, Some(index))
    ensures GetHeader(p'.storage, FrameHeaderSize, CodeBlockOffset) == codeBlock
    ensures HeaderReadable(p', FrameHeaderSize)
      && WalkDown(p', ReadLid(p', index)) == ReadLid(p, index)
  {
    var op := OpenStackPiece(p, index);
    var pushed := TryPushNewFrame(op.piece, op.frame, highWaterMark, StackBottomFlags, false);
    PushThenWalkDown(op.piece, op.frame, highWaterMark, StackBottomFlags, false);
    var withCode := SetHeader(pushed.piece, pushed.frame.fp, CodeBlockOffset, codeBlock);
    CloseThenOpen(withCode, pushed.frame, index);
    p' := CloseFrame(withCode, pushed.frame).piece;
    forall i | 0 <= i < FrameHeaderSize && i != HeaderSlot(FrameHeaderSize, CodeBlockOffset)
      ensures p'.storage[i] == pushed.piece.storage[i]
    {
    }
  }

  datatype NewStackResult = NewStackResult(pieces: seq<Piece>, stack: Stack)

  /** `new_heap_stack`: one piece, whose back-reference is the new stack
      `stackId`, holding the stack-bottom frame. `heapOk` says whether
      the heap supplied both objects. */
  method NewStack(stackId: nat, defaultCapacity: nat, bottomHighWaterMark: nat, bottomCode: Val, heapOk: bool)
    returns (r: Result<NewStackResult, Cause>)
    requires FrameHeaderSize + bottomHighWaterMark <= defaultCapacity
    ensures r.Failure? <==> !heapOk
    ensures r.Failure? ==> r.error == HeapExhausted
    ensures r.Success? ==>
      && |r.value.pieces| == 1
      && r.value.stack == Stack(0, defaultCapacity, Nothing)
      && var p := r.value.pieces[0];
         && WellFormed(p) && LidReadable(p)
         && p.stack == Some(stackId) && p.previous == None
         && p.capacity == defaultCapacity + FrameHeaderSize
         && ReadLid(p, 0) == Frame(FrameHeaderSize, FrameHeaderSize,
              FrameHeaderSize + bottomHighWaterMark, StackBottomFlags, 0, Some(0))
         && GetHeader(p.storage, FrameHeaderSize, CodeBlockOffset) == bottomCode
         && HeaderReadable(p, FrameHeaderSize)
         && WalkDown(p, ReadLid(p, 0)) == Frame(0, 0, 0, SyntheticEmptyFlags, 0, Some(0))
  {
    if !heapOk {
      return Failure(HeapExhausted);
    }
    var piece := NewStackPiece(defaultCapacity, None, None);
    OpenNewStackPiece(defaultCapacity, None, None, 0);
    piece := piece.(stack := Some(stackId));
    piece := PushStackBottomFrame(piece, 0, bottomHighWaterMark, bottomCode);
    return Success(NewStackResult([piece], Stack(0, defaultCapacity, Nothing)));
  }

  /** `push_stack_piece_bottom_frame`: on a new piece, push the synthetic
      piece-bottom frame with room for the transferred arguments, give it its
      code block and argument map, and close the piece. */
  method PushPieceBottomFrame(p: Piece, index: nat, highWaterMark: nat, codeBlock: Val, argMap: seq<nat>)
    returns (p': Piece)
    requires WellFormed(p) && LidReadable(p)
    requires ReadLid(p, index) == Frame(0, 0, 0, SyntheticEmptyFlags, 0, Some(index))
    requires FrameHeaderSize + highWaterMark + |argMap| + FrameHeaderSize <= p.capacity
    ensures WellFormed(p') && LidReadable(p') && p'.capacity == p.capacity
    ensures p'.previous == p.previous && p'.stack == p.stack
    ensures ReadLid(p', index) == Frame(FrameHeaderSize, FrameHeaderSize,
      FrameHeaderSize + highWaterMark + |argMap|, PieceBottomFlags, 0, Some(index))
    ensures GetHeader(p'.storage, FrameHeaderSize, CodeBlockOffset) == codeBlock
    ensures GetHeader(p'.storage, FrameHeaderSize, ArgumentMapOffset) == ArgMap(argMap)
  {
    var op := OpenStackPiece(p, index);
    var pushed := TryPushNewFrame(op.piece, op.frame, highWaterMark + |argMap|, PieceBottomFlags, false);
    var q := SetHeader(pushed.piece, pushed.frame.fp, CodeBlockOffset, codeBlock);
    q := SetHeader(q, pushed.frame.fp, ArgumentMapOffset, ArgMap(argMap));
    CloseThenOpen(q, pushed.frame, index);
    p' := CloseFrame(q, pushed.frame).piece;
  }

  /** `transfer_top_arguments`: open the new piece and push the top `count`
      values of the old frame in their original order, then close it. */
  method TransferTopArguments(p: Piece, index: nat, source: State, count: nat) returns (p': Piece)
    requires WellFormed(p) && LidReadable(p) && Fits(source) && count <= source.frame.sp
    requires var t := ReadLid(p, index);
      t.fp <= t.sp && t.sp + count <= t.limit <= p.capacity && t.sp + count + FrameHeaderSize <= p.capacity
    ensures WellFormed(p') && LidReadable(p') && p'.capacity == p.capacity
    ensures p'.previous == p.previous && p'.stack == p.stack
    ensures ReadLid(p', index) == ReadLid(p, index).(sp := ReadLid(p, index).sp + count)
    ensures forall j | 0 <= j < ReadLid(p, index).sp :: p'.storage[j] == p.storage[j]
    ensures forall j | ReadLid(p, index).sp <= j < ReadLid(p, index).sp + count ::
      p'.storage[j] == PeekValue(source, count - (j - ReadLid(p, index).sp) - 1)
  {
    var op := OpenStackPiece(p, index);
    var s := PushTopValues(State(op.piece, op.frame), source, count);
    CloseThenOpen(s.piece, s.frame, index);
    p' := CloseFrame(s.piece, s.frame).piece;
  }

  /** The loop of `transfer_top_arguments`: pushes the top `count` values
      of `source`, deepest first. */
  method PushTopValues(s0: State, source: State, count: nat) returns (s: State)
    requires Fits(s0) && !IsClosed(s0.piece) && Fits(source) && count <= source.frame.sp
    requires s0.frame.fp <= s0.frame.sp && s0.frame.sp + count <= s0.frame.limit
    ensures Fits(s) && s.frame == s0.frame.(sp := s0.frame.sp + count)
    ensures s.piece.capacity == s0.piece.capacity && s.piece.lid == s0.piece.lid
    ensures s.piece.previous == s0.piece.previous && s.piece.stack == s0.piece.stack
    ensures forall j | 0 <= j < s0.frame.sp :: s.piece.storage[j] == s0.piece.storage[j]
    ensures forall j | s0.frame.sp <= j < s0.frame.sp + count ::
      s.piece.storage[j] == PeekValue(source, count - (j - s0.frame.sp) - 1)
  {
    var base := s0.frame.sp;
    s := s0;
    var i := 0;
    while i < count
      invariant i <= count
      invariant s.frame == s0.frame.(sp := base + i)
      invariant Fits(s) && s.piece.capacity == s0.piece.capacity && s.piece.lid == s0.piece.lid
      invariant s.piece.previous == s0.piece.previous && s.piece.stack == s0.piece.stack
      invariant forall j | 0 <= j < base :: s.piece.storage[j] == s0.piece.storage[j]
      invariant forall j | base <= j < base + i :: s.piece.storage[j] == PeekValue(source, count - (j - base) - 1)
    {
      var pushed := PushValue(s, PeekValue(source, count - i - 1));
      s := pushed.value;
      i := i + 1;
    }
  }

  datatype Grown = Grown(pieces: seq<Piece>, stack: Stack, frame: Frame)

  /** The slots a frame with `locals` locals takes on a piece, its header
      included. */
  function FrameRoom(locals: nat): nat {
    FrameHeaderSize + locals
  }

  /** The capacity `push_stack_frame` asks for when the top piece is full:
      the new frame and its header, the piece-bottom frame's one local and
      its header, and the transferred arguments. */
  function RequiredCapacity(capacity: nat, argCount: nat): (n: nat)
    ensures n == FrameRoom(capacity) + FrameRoom(1) + argCount
    ensures n > capacity + argCount + 2 * FrameHeaderSize
  {
    capacity + FrameHeaderSize + 1 + FrameHeaderSize + argCount
  }

  /** The new piece `push_stack_frame` prepares: the piece-bottom frame
      over the arguments copied from the top of `source`, then closed. */
  method PrepareNewPiece(index: nat, userCapacity: nat, previous: nat, stackId: nat,
      source: State, argMap: seq<nat>, bottomHighWaterMark: nat, bottomCode: Val)
    returns (np: Piece)
    requires Fits(source) && |argMap| <= source.frame.sp
    requires FrameHeaderSize + bottomHighWaterMark + |argMap| + FrameHeaderSize <= userCapacity + FrameHeaderSize
    ensures WellFormed(np) && LidReadable(np) && np.capacity == userCapacity + FrameHeaderSize
    ensures np.previous == Some(previous) && np.stack == Some(stackId)
    ensures ReadLid(np, index) == Frame(FrameHeaderSize + |argMap|, FrameHeaderSize,
      FrameHeaderSize + bottomHighWaterMark + |argMap|, PieceBottomFlags, 0, Some(index))
    ensures GetHeader(np.storage, FrameHeaderSize, ArgumentMapOffset) == ArgMap(argMap)
    ensures forall j | FrameHeaderSize <= j < FrameHeaderSize + |argMap| ::
      np.storage[j] == PeekValue(source, |argMap| - (j - FrameHeaderSize) - 1)
  {
    np := NewStackPiece(userCapacity, Some(previous), Some(stackId));
    OpenNewStackPiece(userCapacity, Some(previous), Some(stackId), index);
    np := PushPieceBottomFrame(np, index, bottomHighWaterMark, bottomCode, argMap);
    var withMap := np;
    np := TransferTopArguments(np, index, source, |argMap|);
    assert np.storage[HeaderSlot(FrameHeaderSize, ArgumentMapOffset)]
      == withMap.storage[HeaderSlot(FrameHeaderSize, ArgumentMapOffset)];
  }

  /** The retried push on the new piece, once it is open: the frame fits
      above the piece-bottom frame and its arguments, and the argument map
      goes into its header. */
  method PushOnNewPiece(np: Piece, index: nat, capacity: nat, argMap: seq<nat>,
      source: State, bottomHighWaterMark: nat)
    returns (q: Piece, frame: Frame)
    requires WellFormed(np) && LidReadable(np)
    requires Fits(source) && |argMap| <= source.frame.sp
    requires np.capacity >= RequiredCapacity(capacity, |argMap|) + FrameHeaderSize
    requires bottomHighWaterMark <= 1
    requires ReadLid(np, index) == Frame(FrameHeaderSize + |argMap|, FrameHeaderSize,
      FrameHeaderSize + bottomHighWaterMark + |argMap|, PieceBottomFlags, 0, Some(index))
    requires forall j | FrameHeaderSize <= j < FrameHeaderSize + |argMap| ::
      np.storage[j] == PeekValue(source, |argMap| - (j - FrameHeaderSize) - 1)
    ensures OpenFrame(q, frame) && frame.piece == Some(index)
    ensures frame.sp == frame.fp && FrameHeaderSize + |argMap| <= frame.fp
    ensures frame.limit == frame.fp + capacity
    ensures frame.flags == OrganicFlags && frame.pc == 0
    ensures GetHeader(q.storage, frame.fp, ArgumentMapOffset) == ArgMap(argMap)
    ensures forall k | 0 <= k < |argMap| ::
      q.storage[(frame.fp - FrameHeaderSize) - (k + 1)] == PeekValue(source, k)
    ensures q.previous == np.previous && q.stack == np.stack && q.capacity == np.capacity
    ensures HeaderReadable(q, frame.fp) && WalkDown(q, frame) == ReadLid(np, index)
  {
    var argCount := |argMap|;
    var op := OpenStackPiece(np, index);
    var retry := TryPushNewFrame(op.piece, op.frame, capacity, OrganicFlags, false);
    assert retry.ok;
    PushThenWalkDown(op.piece, op.frame, capacity, OrganicFlags, false);
    q := SetHeader(retry.piece, retry.frame.fp, ArgumentMapOffset, ArgMap(argMap));
    frame := retry.frame;
    forall k | 0 <= k < argCount
      ensures q.storage[(frame.fp - FrameHeaderSize) - (k + 1)] == PeekValue(source, k)
    {
      var j := argCount - k - 1;
      assert (frame.fp - FrameHeaderSize) - (k + 1) == FrameHeaderSize + j;
    }
  }

  /** The frame `push_stack_frame` leaves current on piece `top`: open,
      empty, `capacity` slots deep, organic at pc 0, with the argument map
      in its header and the arguments below the header at the offsets the
      caller would have peeked them at. */
  predicate PushedFrame(top: Piece, frame: Frame, capacity: nat, argMap: seq<nat>, caller: State)
    requires Fits(caller) && |argMap| <= caller.frame.sp
  {
    && OpenFrame(top, frame)
    && frame.sp == frame.fp && FrameHeaderSize + |argMap| <= frame.fp
    && frame.limit == frame.fp + capacity
    && frame.flags == OrganicFlags && frame.pc == 0
    && GetHeader(top.storage, frame.fp, ArgumentMapOffset) == ArgMap(argMap)
    && forall k | 0 <= k < |argMap| ::
         top.storage[(frame.fp - FrameHeaderSize) - (k + 1)] == PeekValue(caller, k)
  }

  /** A stack grown by one piece: the new piece, last in the arena, is the
      top and lies on the old top, and the new frame sits directly on the
      piece-bottom frame; the old top is closed over the caller's frame and
      keeps the slots below it; no other piece changes. */
  predicate GrownOnto(pieces: seq<Piece>, stack: Stack, stackId: nat, f: Frame, g: Grown,
      argMap: seq<nat>, bottomHighWaterMark: nat)
    requires stack.topPiece < |pieces| && f.sp <= |pieces[stack.topPiece].storage|
  {
    && |g.pieces| == |pieces| + 1
    && g.stack == stack.(topPiece := |pieces|)
    && g.frame.piece == Some(|pieces|)
    && g.pieces[|pieces|].previous == Some(stack.topPiece)
    && g.pieces[|pieces|].stack == Some(stackId)
    && HeaderReadable(g.pieces[|pieces|], g.frame.fp)
    && WalkDown(g.pieces[|pieces|], g.frame) == Frame(FrameHeaderSize + |argMap|, FrameHeaderSize,
         FrameHeaderSize + bottomHighWaterMark + |argMap|, PieceBottomFlags, 0, Some(|pieces|))
    && LidReadable(g.pieces[stack.topPiece]) && ReadLid(g.pieces[stack.topPiece], stack.topPiece) == f
    && WellFormed(g.pieces[stack.topPiece]) && g.pieces[stack.topPiece].capacity == pieces[stack.topPiece].capacity
    && (forall i | 0 <= i < f.sp :: g.pieces[stack.topPiece].storage[i] == pieces[stack.topPiece].storage[i])
    && forall i | 0 <= i < |pieces| && i != stack.topPiece :: g.pieces[i] == pieces[i]
  }

  /** The fast path of `push_stack_frame`: the frame fits on the top piece,
      directly above the caller's frame, whose top values are its
      arguments. */
  method PushOnTopPiece(p: Piece, f: Frame, capacity: nat, argMap: seq<nat>) returns (q: Piece, frame: Frame)
    requires OpenFrame(p, f) && |argMap| <= f.sp
    requires TryPushNewFrame(p, f, capacity, OrganicFlags, false).ok
    ensures PushedFrame(q, frame, capacity, argMap, State(p, f))
    ensures frame.piece == f.piece && q.previous == p.previous && q.stack == p.stack
    ensures HeaderReadable(q, frame.fp) && WalkDown(q, frame) == f
  {
    var pushed := TryPushNewFrame(p, f, capacity, OrganicFlags, false);
    PushThenWalkDown(p, f, capacity, OrganicFlags, false);
    q := SetHeader(pushed.piece, pushed.frame.fp, ArgumentMapOffset, ArgMap(argMap));
    frame := pushed.frame;
    forall k | 0 <= k < |argMap|
      ensures q.storage[(frame.fp - FrameHeaderSize) - (k + 1)] == PeekValue(State(p, f), k)
    {
      assert (frame.fp - FrameHeaderSize) - (k + 1) == f.sp - k - 1;
    }
  }

  /** The slow path of `push_stack_frame`, when the top piece is full. */
  method GrowStack(pieces: seq<Piece>, stack: Stack, stackId: nat, f: Frame, capacity: nat,
      argMap: seq<nat>, bottomHighWaterMark: nat, bottomCode: Val)
    returns (g: Grown)
    requires stack.topPiece < |pieces| && f.piece == Some(stack.topPiece)
    requires OpenFrame(pieces[stack.topPiece], f)
    requires |argMap| <= f.sp
    requires bottomHighWaterMark <= 1
    ensures GrownOnto(pieces, stack, stackId, f, g, argMap, bottomHighWaterMark)
    ensures PushedFrame(g.pieces[|pieces|], g.frame, capacity, argMap, State(pieces[stack.topPiece], f))
    ensures g.pieces[|pieces|].capacity
      == (if stack.defaultCapacity < RequiredCapacity(capacity, |argMap|)
          then RequiredCapacity(capacity, |argMap|) else stack.defaultCapacity) + FrameHeaderSize
  {
    var top := stack.topPiece;
    var source := State(pieces[top], f);
    var required := RequiredCapacity(capacity, |argMap|);
    var newCapacity := if stack.defaultCapacity < required then required else stack.defaultCapacity;
    var index := |pieces|;
    var np := PrepareNewPiece(index, newCapacity, top, stackId, source, argMap, bottomHighWaterMark, bottomCode);
    CloseThenOpen(pieces[top], f, top);
    var closedBelow := CloseFrame(pieces[top], f).piece;
    var q, frame := PushOnNewPiece(np, index, capacity, argMap, source, bottomHighWaterMark);
    g := Grown(pieces[top := closedBelow] + [q], stack.(topPiece := index), frame);
  }

  /** `push_stack_frame`. If the new frame does not fit on the top piece, a
      new piece (of at least the default capacity) is put on top of it; the
      pending arguments are copied across, the old piece is closed and the
      frame is pushed on the new piece, where it fits. Either way the
      arguments can be read below the new frame's header at the offsets the
      caller would have peeked them at. */
  method PushStackFrame(pieces: seq<Piece>, stack: Stack, stackId: nat, f: Frame, capacity: nat,
      argMap: seq<nat>, bottomHighWaterMark: nat, bottomCode: Val, heapOk: bool)
    returns (r: Result<Grown, Cause>)
    requires stack.topPiece < |pieces| && f.piece == Some(stack.topPiece)
    requires OpenFrame(pieces[stack.topPiece], f)
    requires |argMap| <= f.sp
    requires bottomHighWaterMark <= 1
    ensures var fits := TryPushNewFrame(pieces[stack.topPiece], f, capacity, OrganicFlags, false).ok;
      r.Failure? <==> !fits && !heapOk
    ensures r.Failure? ==> r.error == HeapExhausted
    ensures r.Success? ==>
      && r.value.stack.topPiece < |r.value.pieces| && r.value.frame.piece == Some(r.value.stack.topPiece)
      && PushedFrame(r.value.pieces[r.value.stack.topPiece], r.value.frame, capacity, argMap,
           State(pieces[stack.topPiece], f))
    ensures r.Success? && TryPushNewFrame(pieces[stack.topPiece], f, capacity, OrganicFlags, false).ok ==>
      r.value.stack == stack && |r.value.pieces| == |pieces|
      && forall i | 0 <= i < |pieces| && i != stack.topPiece :: r.value.pieces[i] == pieces[i]
    ensures r.Success? && !TryPushNewFrame(pieces[stack.topPiece], f, capacity, OrganicFlags, false).ok ==>
      GrownOnto(pieces, stack, stackId, f, r.value, argMap, bottomHighWaterMark)
  {
    var top := stack.topPiece;
    var first := TryPushNewFrame(pieces[top], f, capacity, OrganicFlags, false);
    if first.ok {
      var q, frame := PushOnTopPiece(pieces[top], f, capacity, argMap);
      return Success(Grown(pieces[top := q], stack, frame));
    }
    if !heapOk {
      return Failure(HeapExhausted);
    }
    var g := GrowStack(pieces, stack, stackId, f, capacity, argMap, bottomHighWaterMark, bottomCode);
    return Success(g);
  }

  // --- Validation ---

  /** Every piece's previous piece comes earlier in the arena. */
  predicate Ordered(pieces: seq<Piece>) {
    forall i | 0 <= i < |pieces| && pieces[i].previous.Some? :: pieces[i].previous.value < i
  }

  /** The pieces from `i` down through the `previous` links. */
  function PieceChain(pieces: seq<Piece>, i: nat): (c: seq<nat>)
    requires Ordered(pieces) && i < |pieces|
    ensures |c| >= 1 && c[0] == i
    ensures forall j | 0 <= j < |c| :: c[j] < |pieces|
    decreases i
  {
    match pieces[i].previous
    case None => [i]
    case Some(q) => [i] + PieceChain(pieces, q)
  }

  /** `stack_validate`: the top is a piece, and every piece reachable from
      it belongs to this stack. */
  method StackValidate(pieces: seq<Piece>, stack: Stack, stackId: nat) returns (r: Result<(), Cause>)
    requires Ordered(pieces)
    ensures r.Success? <==> (stack.topPiece < |pieces|
      && forall j | j in PieceChain(pieces, stack.topPiece) :: pieces[j].stack == Some(stackId))
    ensures r.Failure? ==> r.error == ValidationFailed
  {
    if stack.topPiece >= |pieces| {
      return Failure(ValidationFailed);
    }
    var current: Option<nat> := Some(stack.topPiece);
    ghost var seen: seq<nat> := [];
    while current.Some?
      invariant current.Some? ==> current.value < |pieces|
      invariant PieceChain(pieces, stack.topPiece)
        == seen + (if current.Some? then PieceChain(pieces, current.value) else [])
      invariant forall j | j in seen :: j < |pieces| && pieces[j].stack == Some(stackId)
      decreases if current.Some? then current.value + 1 else 0
    {
      var i := current.value;
      if pieces[i].stack != Some(stackId) {
        assert i in PieceChain(pieces, stack.topPiece);
        return Failure(ValidationFailed);
      }
      seen := seen + [i];
      current := pieces[i].previous;
    }
    return Success(());
  }
}

=== FILE: syntax.dfy ===
/** Small rules of the syntax-tree compiler (syntax.c): parameter order
    indices and the ordering they induce, the stack offsets of invocation
    arguments, the code emitted for a sequence and the scoping of a local
    declaration. */
module Syntax {
  import opened Wrappers
  import opened Globals
  import opened Collections

  // --- Parameter ordering ---

  /** A parameter tag: an integer, a key with its id, or anything else. */
  datatype Tag = IntegerTag(n: int) | KeyTag(id: nat) | OtherTag

  /** What one tag contributes to the order index: `2 + n` for an integer
      tag, computed as a `size_t` (so small negative integers wrap round),
      and the id of the subject and selector keys (ids 0 and 1). */
  function TagOrderIndex(t: Tag): Option<Size> {
    match t
    case IntegerTag(n) => Some((2 + n) % SizeLimit)
    case KeyTag(id) => if id < 2 then Some(id) else None
    case OtherTag => None
  }

  /** `get_parameter_order_index_for_array`: the least index any tag
      contributes, and `maxIndex` (the source's `kMaxOrderIndex`) when none
      contributes a smaller one. */
  function OrderIndex(tags: seq<Tag>, maxIndex: Size): (r: Size)
    ensures r <= maxIndex
    ensures forall i | 0 <= i < |tags| && TagOrderIndex(tags[i]).Some? :: r <= TagOrderIndex(tags[i]).value
    ensures r == maxIndex || exists i | 0 <= i < |tags| :: TagOrderIndex(tags[i]) == Some(r)
  {
    if |tags| == 0 then maxIndex
    else
      var prefix := tags[..|tags| - 1];
      assert forall i | 0 <= i < |prefix| :: prefix[i] == tags[i];
      var rest := OrderIndex(prefix, maxIndex);
      match TagOrderIndex(tags[|tags| - 1])
      case None => rest
      case Some(k) => MinSize(rest, k)
  }

  /** The subject comes first, then the selector, then the positional
      parameters by position. */
  lemma OrderIndexExamples(maxIndex: Size)
    requires maxIndex > 5
    ensures OrderIndex([KeyTag(0)], maxIndex) == 0
    ensures OrderIndex([KeyTag(1)], maxIndex) == 1
    ensures OrderIndex([IntegerTag(3), OtherTag], maxIndex) == 5
    ensures OrderIndex([KeyTag(7)], maxIndex) == maxIndex
  {
    assert [IntegerTag(3), OtherTag][..1] == [IntegerTag(3)];
    assert [IntegerTag(3)][..0] == [];
  }

  /** Position `a` sorts strictly before `b`: a smaller key, or an equal key
      and an earlier position. */
  predicate Before(keys: seq<Size>, a: nat, b: nat)
    requires a < |keys| && b < |keys|
  {
    keys[a] < keys[b] || (keys[a] == keys[b] && a < b)
  }

  /** The positions that sort before `a`. */
  function Preceding(keys: seq<Size>, a: nat): set<nat>
    requires a < |keys|
  {
    set b | 0 <= b < |keys| && Before(keys, b, a)
  }

  /** The place of parameter `a` in the sorted order. */
  function Rank(keys: seq<Size>, a: nat): nat
    requires a < |keys|
  {
    |Preceding(keys, a)|
  }

  /** The numbers below `n`. */
  function Range(n: nat): (r: set<nat>)
    ensures |r| == n
    ensures forall b: nat :: b in r <==> b < n
  {
    if n == 0 then {} else Range(n - 1) + {n - 1}
  }

  /** Ranks lie below the number of parameters and follow the order. */
  lemma RankBounds(keys: seq<Size>, a: nat, b: nat)
    requires a < |keys| && b < |keys|
    ensures Rank(keys, a) < |keys|
    ensures Before(keys, a, b) ==> Rank(keys, a) < Rank(keys, b)
  {
    var all := Range(|keys|);
    assert Preceding(keys, a) <= all - {a};
    SubsetCardinality(Preceding(keys, a), all - {a});
    if Before(keys, a, b) {
      assert Preceding(keys, a) <= Preceding(keys, b);
      assert a in Preceding(keys, b) && a !in Preceding(keys, a);
      StrictSubsetCardinality(Preceding(keys, a), Preceding(keys, b));
    }
  }

  /** `n` distinct numbers below `n`: a permutation of `[0, n)`. */
  predicate IsPermutation(s: seq<nat>, n: nat) {
    |s| == n && (forall i | 0 <= i < |s| :: s[i] < n) && Distinct(s)
  }

  /** The place of every parameter in the sorted order. */
  function Ranks(keys: seq<Size>): seq<nat> {
    seq(|keys|, i requires 0 <= i < |keys| => Rank(keys, i))
  }

  /** The places form a permutation that follows the keys. */
  lemma RanksArePermutation(keys: seq<Size>)
    ensures IsPermutation(Ranks(keys), |keys|)
    ensures forall a, b | 0 <= a < |keys| && 0 <= b < |keys| && keys[a] < keys[b] :: Ranks(keys)[a] < Ranks(keys)[b]
  {
    var r := Ranks(keys);
    forall i, j | 0 <= i < |keys| && 0 <= j < |keys| && i != j
      ensures r[i] != r[j] && (Before(keys, i, j) ==> r[i] < r[j])
    {
      RankBounds(keys, i, j);
      RankBounds(keys, j, i);
    }
    forall i | 0 <= i < |keys|
      ensures r[i] < |keys|
    {
      RankBounds(keys, i, i);
    }
  }

  /** `calc_abstract_parameter_ordering`: `ordering[i]` becomes the place
      of parameter `i` in the parameters sorted by order index. The source
      sorts with `qsort`, which may order equal indices either way; this
      model breaks ties by position. Entries past the parameters keep their
      values. */
  method CalcAbstractParameterOrdering(params: seq<seq<Tag>>, maxIndex: Size, scratchCount: nat, ordering: seq<nat>)
    returns (result: seq<nat>)
    requires scratchCount >= 2 * |params|
    requires |ordering| >= |params|
    ensures |result| == |ordering| && result[|params|..] == ordering[|params|..]
    ensures IsPermutation(result[..|params|], |params|)
    ensures forall a, b | 0 <= a < |params| && 0 <= b < |params|
      && OrderIndex(params[a], maxIndex) < OrderIndex(params[b], maxIndex) :: result[a] < result[b]
  {
    var n := |params|;
    var keys := seq(n, i requires 0 <= i < n => OrderIndex(params[i], maxIndex));
    var places: seq<nat> := [];
    var a := 0;
    while a < n
      invariant 0 <= a <= n && |places| == a
      invariant forall i | 0 <= i < a :: places[i] == Rank(keys, i)
    {
      places := places + [Rank(keys, a)];
      a := a + 1;
    }
    assert places == Ranks(keys);
    RanksArePermutation(keys);
    result := places + ordering[n..];
    assert result[..n] == places;
  }

  // --- Invocation arguments ---

  /** The stack offsets `emit_invocation_ast` records: argument `i` of `n`
      is `n - i - 1` values below the top once all are pushed. */
  function ArgumentOffsets(n: nat): (offsets: seq<nat>)
    ensures IsPermutation(offsets, n)
    ensures n > 0 ==> offsets[n - 1] == 0
  {
    seq(n, i requires 0 <= i < n => n - i - 1)
  }

  /** After the arguments are pushed in order over any stack, the recorded
      offset of argument `i` reaches exactly that argument. */
  lemma OffsetsReachArguments<T>(stack: seq<T>, arguments: seq<T>, i: nat)
    requires i < |arguments|
    ensures var s := stack + arguments;
      s[|s| - ArgumentOffsets(|arguments|)[i] - 1] == arguments[i]
  {
  }

  /** The code of the arguments and the invocation record, a tag and an
      offset for each argument, that `emit_invocation_ast` hands to the
      invoke instruction. */
  datatype Invocation = Invocation(code: seq<Instr>, record: seq<(Tag, nat)>)

  /** `emit_invocation_ast` for arguments with the given tags: the record
      is allocated first, then each argument's value is emitted in order.
      `heapOk` is whether the record can be allocated. */
  method EmitInvocationAst(tags: seq<Tag>, heapOk: bool) returns (r: Result<Invocation, Cause>)
    ensures r.Failure? <==> !heapOk
    ensures r.Failure? ==> r.error == HeapExhausted
    ensures r.Success? ==> |r.value.code| == |r.value.record| == |tags|
    ensures r.Success? ==> forall i | 0 <= i < |tags| ::
      r.value.code[i] == EmitValue(i) && r.value.record[i] == (tags[i], ArgumentOffsets(|tags|)[i])
  {
    if !heapOk {
      return Failure(HeapExhausted);
    }
    var n := |tags|;
    var code: seq<Instr> := [];
    var record: seq<(Tag, nat)> := [];
    var i := 0;
    while i < n
      invariant 0 <= i <= n && |code| == |record| == i
      invariant forall k | 0 <= k < i :: code[k] == EmitValue(k) && record[k] == (tags[k], n - k - 1)
    {
      record := record + [(tags[i], n - i - 1)];
      code := code + [EmitValue(i)];
      i := i + 1;
    }
    return Success(Invocation(code, record));
  }

  /** Pushing elements `from` on, one after the other. */
  lemma {:induction false} RunPushes(code: seq<Instr>, values: seq<int>, nullValue: int, stack: seq<int>, from: nat)
    requires from <= |values| && |code| == |values| - from
    requires forall j | 0 <= j < |code| :: code[j] == EmitValue(from + j)
    ensures Run(code, values, nullValue, stack) == Some(stack + values[from..])
    decreases |code|
  {
    if |code| == 0 {
      assert stack + values[from..] == stack;
    } else {
      assert code[0] == EmitValue(from);
      assert Run(code, values, nullValue, stack) == Run(code[1..], values, nullValue, stack + [values[from]]);
      forall j | 0 <= j < |code[1..]|
        ensures code[1..][j] == EmitValue(from + 1 + j)
      {
        assert code[1..][j] == code[j + 1];
      }
      RunPushes(code[1..], values, nullValue, stack + [values[from]], from + 1);
      assert stack + [values[from]] + values[from + 1..] == stack + values[from..];
    }
  }

  /** Once the argument code has run, every tag's recorded offset reaches
      the value of its own argument. */
  lemma InvocationRecordReachesArguments(inv: Invocation, tags: seq<Tag>, values: seq<int>, nullValue: int, stack: seq<int>, i: nat)
    requires |inv.code| == |inv.record| == |tags| == |values|
    requires forall k | 0 <= k < |tags| ::
      inv.code[k] == EmitValue(k) && inv.record[k] == (tags[k], ArgumentOffsets(|tags|)[k])
    requires i < |tags|
    ensures Run(inv.code, values, nullValue, stack) == Some(stack + values)
    ensures var s := stack + values;
      inv.record[i].0 == tags[i] && inv.record[i].1 < |values| && s[|s| - inv.record[i].1 - 1] == values[i]
  {
    RunPushes(inv.code, values, nullValue, stack, 0);
    assert values[0..] == values;
    OffsetsReachArguments(stack, values, i);
  }

  // --- Sequences ---

  /** The instructions this model distinguishes: pushing null, popping
      values, and the code of the sequence's `index`th element. */
  datatype Instr = PushNull | Pop(count: nat) | EmitValue(index: nat)

  /** `emit_sequence_ast` for a sequence of `length` elements. */
  method EmitSequenceAst(length: nat) returns (code: seq<Instr>)
    ensures length == 0 ==> code == [PushNull]
    ensures length == 1 ==> code == [EmitValue(0)]
    ensures length > 1 ==> |code| == 2 * length - 1
    ensures length > 1 ==> forall j | 0 <= j < |code| :: code[j] == if j % 2 == 0 then EmitValue(j / 2) else Pop(1)
  {
    if length == 0 {
      return [PushNull];
    } else if length == 1 {
      return [EmitValue(0)];
    }
    code := [];
    var i := 0;
    while i < length
      invariant 0 <= i <= length
      invariant |code| == if i == 0 then 0 else 2 * i - 1
      invariant forall j | 0 <= j < |code| :: code[j] == if j % 2 == 0 then EmitValue(j / 2) else Pop(1)
    {
      if i > 0 {
        code := code + [Pop(1)];
      }
      code := code + [EmitValue(i)];
      i := i + 1;
    }
  }

  /** Runs code over a stack, each element's code pushing its value; None
      when a pop finds too few values. */
  function Run(code: seq<Instr>, values: seq<int>, nullValue: int, stack: seq<int>): Option<seq<int>>
    decreases |code|
  {
    if |code| == 0 then Some(stack)
    else match code[0]
      case PushNull => Run(code[1..], values, nullValue, stack + [nullValue])
      case Pop(n) =>
        if n <= |stack| then Run(code[1..], values, nullValue, stack[..|stack| - n]) else None
      case EmitValue(i) =>
        if i < |values| then Run(code[1..], values, nullValue, stack + [values[i]]) else None
  }

  /** Alternating single pops and elements, from element `from` on, leave
      just the last element's value in place of the top. */
  lemma {:induction false} RunAlternating(code: seq<Instr>, values: seq<int>, nullValue: int, stack: seq<int>, from: nat)
    requires 0 < from < |values| && |stack| > 0
    requires |code| == 2 * (|values| - from)
    requires forall j | 0 <= j < |code| :: code[j] == if j % 2 == 0 then Pop(1) else EmitValue(from + j / 2)
    ensures Run(code, values, nullValue, stack) == Some(stack[..|stack| - 1] + [values[|values| - 1]])
    decreases |values| - from
  {
    var popped := stack[..|stack| - 1];
    var pushed := popped + [values[from]];
    assert code[0] == Pop(1) && code[1] == EmitValue(from);
    var rest := code[2..];
    assert code[1..][0] == code[1] && code[1..][1..] == rest;
    assert Run(code, values, nullValue, stack) == Run(code[1..], values, nullValue, popped);
    assert Run(code[1..], values, nullValue, popped) == Run(rest, values, nullValue, pushed);
    if from + 1 < |values| {
      forall j | 0 <= j < |rest|
        ensures rest[j] == if j % 2 == 0 then Pop(1) else EmitValue(from + 1 + j / 2)
      {
        assert rest[j] == code[j + 2];
      }
      RunAlternating(rest, values, nullValue, pushed, from + 1);
      assert pushed[..|pushed| - 1] == popped;
    } else {
      assert rest == [];
    }
  }

  /** A sequence leaves exactly one value: the last element's, or null
      when it is empty. */
  method SequenceLeavesLast(values: seq<int>, nullValue: int, stack: seq<int>) returns (code: seq<Instr>)
    ensures Run(code, values, nullValue, stack)
      == Some(stack + [if |values| == 0 then nullValue else values[|values| - 1]])
  {
    code := EmitSequenceAst(|values|);
    if |values| > 1 {
      var first := stack + [values[0]];
      assert code[0] == EmitValue(0);
      var rest := code[1..];
      assert Run(code, values, nullValue, stack) == Run(rest, values, nullValue, first);
      forall j | 0 <= j < |rest|
        ensures rest[j] == if j % 2 == 0 then Pop(1) else EmitValue(1 + j / 2)
      {
        assert rest[j] == code[j + 1];
      }
      RunAlternating(rest, values, nullValue, first, 1);
      assert first[..|first| - 1] == stack;
    } else if |values| == 1 {
      assert Run(code, values, nullValue, stack) == Run([], values, nullValue, stack + [values[0]]);
    } else {
      assert Run(code, values, nullValue, stack) == Run([], values, nullValue, stack + [nullValue]);
    }
  }

  // --- Local declarations ---

  /** A symbol bound by a scope, with the stack offset of its value. */
  datatype ScopeEntry = ScopeEntry(symbol: nat, offset: nat)

  /** The part of the assembler a local declaration touches: the stack
      height and the chain of scopes, innermost last. */
  datatype Assembler = Assembler(height: nat, scopes: seq<ScopeEntry>)

  predicate IsSymbolBound(a: Assembler, symbol: nat) {
    exists i | 0 <= i < |a.scopes| :: a.scopes[i].symbol == symbol
  }

  /** Emitting an expression: on success it leaves one more value. */
  function Emit(a: Assembler, outcome: Result<(), Cause>): Assembler {
    if outcome.Success? then a.(height := a.height + 1) else a
  }

  datatype Emitted = Emitted(result: Result<(), Cause>, assembler: Assembler)

  /** `emit_local_declaration_ast` as written: the outcomes of emitting the
      value and the body are given. When the body fails the error is
      returned before the declaration's scope is popped. */
  function EmitLocalDeclarationAsWritten(a: Assembler, symbol: nat, value: Result<(), Cause>, body: Result<(), Cause>)
    : (r: Emitted)
    ensures r.result.Success? <==> value.Success? && !IsSymbolBound(a, symbol) && body.Success?
    ensures value.Success? && !IsSymbolBound(a, symbol) && body.Failure? ==>
      r.result == body && r.assembler.scopes == a.scopes + [ScopeEntry(symbol, a.height)]
    ensures !(value.Success? && !IsSymbolBound(a, symbol) && body.Failure?) ==> r.assembler.scopes == a.scopes
  {
    var offset := a.height;
    if value.Failure? then Emitted(value, a)
    else
      var a1 := Emit(a, value);
      if IsSymbolBound(a1, symbol) then Emitted(Failure(InvalidSyntax), a1)
      else
        var a2 := a1.(scopes := a1.scopes + [ScopeEntry(symbol, offset)]);
        if body.Failure? then Emitted(body, a2)
        else Emitted(Success(()), Emit(a2, body).(scopes := a1.scopes))
  }

  /** A body that fails leaves the declaration's symbol bound. */
  lemma LocalScopeLeaksAsWritten(a: Assembler, symbol: nat, cause: Cause)
    requires !IsSymbolBound(a, symbol)
    ensures var r := EmitLocalDeclarationAsWritten(a, symbol, Success(()), Failure(cause));
      && r.result == Failure(cause)
      && r.assembler.scopes == a.scopes + [ScopeEntry(symbol, a.height)]
      && IsSymbolBound(r.assembler, symbol)
  {
    var r := EmitLocalDeclarationAsWritten(a, symbol, Success(()), Failure(cause));
    assert r.assembler.scopes[|a.scopes|].symbol == symbol;
  }

  /** `emit_local_declaration_ast` with the scope popped on every path: a
      symbol already bound is InvalidSyntax, the body's failure is passed
      on, and the scopes are as they were whatever happens. */
  function EmitLocalDeclaration(a: Assembler, symbol: nat, value: Result<(), Cause>, body: Result<(), Cause>): (r: Emitted)
    ensures r.assembler.scopes == a.scopes
    ensures r.result.Success? <==> value.Success? && !IsSymbolBound(a, symbol) && body.Success?
    ensures value.Success? && IsSymbolBound(a, symbol) ==> r.result == Failure(InvalidSyntax)
    ensures value.Success? && !IsSymbolBound(a, symbol) && body.Failure? ==> r.result == body
    ensures value.Failure? ==> r.result == value
    ensures r.result.Success? ==> r.assembler.height == a.height + 2
  {
    var offset := a.height;
    if value.Failure? then Emitted(value, a)
    else
      var a1 := Emit(a, value);
      if IsSymbolBound(a1, symbol) then Emitted(Failure(InvalidSyntax), a1)
      else
        var a2 := a1.(scopes := a1.scopes + [ScopeEntry(symbol, offset)]);
        var a3 := Emit(a2, body).(scopes := a1.scopes);
        if body.Failure? then Emitted(body, a3)
        else Emitted(Success(()), a3)
  }

  /** The two agree whenever the body can be emitted. */
  lemma LocalDeclarationAgreesOnSuccess(a: Assembler, symbol: nat, value: Result<(), Cause>, body: Result<(), Cause>)
    requires body.Success?
    ensures EmitLocalDeclarationAsWritten(a, symbol, value, body) == EmitLocalDeclaration(a, symbol, value, body)
  {
  }
}

=== FILE: tagged.dfy ===
/** Rules of the small tagged values (tagged.c): how a stage offset prints,
    how stage offsets and booleans are ordered, and how a relation prints. */
module Tagged {
  import opened Wrappers
  import opened Globals

  const MostPositiveInt32: int := 0x7fff_ffff

  /** An `int32_t` result reduced modulo 2^32 into the signed range, as the
      hardware wraps an overflowing signed operation. */
  function WrapInt32(x: int): (r: Int32)
    ensures (r - x) % 0x1_0000_0000 == 0
    ensures MostNegativeInt32 <= x <= MostPositiveInt32 ==> r == x
  {
    var m := x % 0x1_0000_0000;
    if m <= MostPositiveInt32 then m else m - 0x1_0000_0000
  }

  /** `k` copies of `c`; none when `k` is not positive, as a counting loop
      from 0 while below `k` produces. */
  function Repeat(c: char, k: int): (s: string)
    ensures |s| == if k > 0 then k else 0
    ensures forall i | 0 <= i < |s| :: s[i] == c
  {
    if k <= 0 then [] else seq(k, _ => c)
  }

  // --- Stage offsets ---

  /** Reads back a printed stage offset: `k` at-signs are the offset `-k`
      and `k + 1` dollar signs the offset `k`. */
  function ParseStageOffset(s: string): Option<int> {
    if |s| == 0 then None
    else if forall i | 0 <= i < |s| :: s[i] == '@' then Some(-|s|)
    else if forall i | 0 <= i < |s| :: s[i] == '$' then Some(|s| - 1)
    else None
  }

  /** `stage_offset_print_on` as written: negating the most negative
      offset and adding one to the most positive both overflow `int32_t`,
      here taken to wrap. */
  function StageOffsetPrintAsWritten(offset: Int32): string {
    if offset < 0 then Repeat('@', WrapInt32(-(offset as int)))
    else Repeat('$', WrapInt32(offset as int + 1))
  }

  /** The two extreme offsets print as nothing, the same as each other. */
  lemma StageOffsetExtremesPrintNothing()
    ensures StageOffsetPrintAsWritten(MostNegativeInt32) == []
    ensures StageOffsetPrintAsWritten(MostPositiveInt32) == []
    ensures ParseStageOffset(StageOffsetPrintAsWritten(MostPositiveInt32)) == None
  {
  }

  /** Away from the two extremes the written code prints what the
      corrected one does. */
  lemma AsWrittenAgreesInside(offset: Int32, s: string)
    requires MostNegativeInt32 < offset < MostPositiveInt32
    requires ParseStageOffset(s) == Some(offset as int) && |s| > 0
    requires forall i | 0 <= i < |s| :: s[i] == (if offset < 0 then '@' else '$')
    ensures StageOffsetPrintAsWritten(offset) == s
  {
  }

  /** `stage_offset_print_on` with the count computed without overflow: a
      negative offset `-k` prints as `k` at-signs and `k >= 0` as `k + 1`
      dollar signs, so the text is never empty and reads back as the
      offset it came from. */
  method StageOffsetPrintOn(offset: Int32) returns (s: string)
    ensures |s| > 0
    ensures forall i | 0 <= i < |s| :: s[i] == (if offset < 0 then '@' else '$')
    ensures ParseStageOffset(s) == Some(offset as int)
  {
    var c: char;
    var count: int := offset;
    if count < 0 {
      c := '@';
      count := -count;
    } else {
      c := '$';
      count := count + 1;
    }
    s := [];
    var i := 0;
    while i < count
      invariant 0 <= i <= count && |s| == i
      invariant forall k | 0 <= k < i :: s[k] == c
    {
      s := s + [c];
      i := i + 1;
    }
    if offset >= 0 {
      assert s[0] == '$';
    }
  }

  // --- Ordering ---

  /** `relation_t`: the outcome of an ordering comparison. */
  datatype Relation = LessThan | Equal | GreaterThan | Unordered

  /** The signed comparison the ordering functions delegate to;
      `compare_signed_integers` is not part of this model and is taken to
      compare its arguments numerically. */
  function CompareSignedIntegers(a: int, b: int): (r: Relation)
    ensures r != Unordered
    ensures r == LessThan <==> a < b
    ensures r == Equal <==> a == b
    ensures r == GreaterThan <==> a > b
  {
    if a < b then LessThan else if a == b then Equal else GreaterThan
  }

  /** `stage_offset_ordering_compare`: stage offsets are ordered as the
      signed numbers they hold; earlier stages are less. */
  function StageOffsetOrderingCompare(a: Int32, b: Int32): (r: Relation)
    ensures r != Unordered
    ensures r == LessThan <==> a < b
    ensures r == Equal <==> a == b
    ensures r == GreaterThan <==> b < a
  {
    CompareSignedIntegers(a, b)
  }

  /** A boolean as the integer `get_boolean_value` yields. */
  function BooleanValue(b: bool): int {
    if b then 1 else 0
  }

  /** `boolean_ordering_compare`: false comes before true. */
  function BooleanOrderingCompare(a: bool, b: bool): (r: Relation)
    ensures r != Unordered
    ensures r == LessThan <==> !a && b
    ensures r == Equal <==> a == b
    ensures r == GreaterThan <==> a && !b
  {
    CompareSignedIntegers(BooleanValue(a), BooleanValue(b))
  }

  // --- Relations ---

  /** Reads back a printed relation. */
  function ParseRelation(s: string): Option<Relation> {
    if s == "<" then Some(LessThan)
    else if s == "==" then Some(Equal)
    else if s == ">" then Some(GreaterThan)
    else if s == "?" then Some(Unordered)
    else None
  }

  /** `relation_print_on`: each relation prints as its operator, `?` for
      unordered, and the text reads back as the same relation. */
  function RelationPrint(r: Relation): (s: string)
    ensures 0 < |s| <= 2
    ensures ParseRelation(s) == Some(r)
  {
    match r
    case LessThan => "<"
    case Equal => "=="
    case GreaterThan => ">"
    case Unordered => "?"
  }
}

=== FILE: values.dfy ===
/** Tagged runtime values (value.h). A value is a 64-bit word whose low three
    bits are the domain tag; the rest is a domain-specific payload. */
module Values {
  import opened Wrappers

  const WordLimit: nat := 0x1_0000_0000_0000_0000

  /** A raw encoded value, `encoded_value_t`. */
  type Word = w: nat | w < WordLimit

  const DomainTagSize: nat := 3
  const DomainTagMask: nat := 0x7

  /** `sizeof(value_t)`: values are one word wide. */
  const ValueSize: nat := 8

  datatype Domain = ObjectDomain | IntegerDomain | SignalDomain | MovedObjectDomain

  function DomainTag(d: Domain): nat {
    match d
    case ObjectDomain => 0
    case IntegerDomain => 1
    case SignalDomain => 2
    case MovedObjectDomain => 3
  }

  /** Is the word tagged with the given domain? */
  predicate InDomain(w: Word, d: Domain) {
    w % 8 == DomainTag(d)
  }

  /** The payload of an integer is a signed 61-bit field. */
  const PayloadModulus: nat := 0x2000_0000_0000_0000
  const MinInteger: int := -0x1000_0000_0000_0000
  const MaxInteger: int := 0x0FFF_FFFF_FFFF_FFFF

  /** An `int64_t` argument. */
  predicate IsInt64(v: int) {
    -0x8000_0000_0000_0000 <= v < 0x8000_0000_0000_0000
  }

  /** Stores `v` in the 61-bit payload field; a value outside the payload's
      range keeps only its low 61 bits. */
  function NewInteger(v: int): (w: Word)
    requires IsInt64(v)
    ensures InDomain(w, IntegerDomain)
    ensures (w / 8 - v) % PayloadModulus == 0
  {
    (v % PayloadModulus) * 8 + 1
  }

  /** Reads the payload back, sign-extending bit 60. */
  function GetIntegerValue(w: Word): (v: int)
    requires InDomain(w, IntegerDomain)
    ensures MinInteger <= v <= MaxInteger
    ensures (w / 8 - v) % PayloadModulus == 0
  {
    var p := w / 8;
    if p >= PayloadModulus / 2 then p - PayloadModulus else p
  }

  /** Integers survive the encoding exactly when they fit the 61-bit
      payload. */
  lemma IntegerRoundTrip(v: int)
    requires IsInt64(v)
    ensures GetIntegerValue(NewInteger(v)) == v <==> MinInteger <= v <= MaxInteger
  {
    var w := NewInteger(v);
    var r := GetIntegerValue(w);
    if MinInteger <= v <= MaxInteger {
      assert (r - v) % PayloadModulus == 0;
      assert -(PayloadModulus as int) < r - v < PayloadModulus;
    }
  }

  /** The value reporting unspecific success. */
  function Success(): (w: Word)
    ensures InDomain(w, IntegerDomain) && !InDomain(w, SignalDomain)
    ensures GetIntegerValue(w) == 0
  {
    NewInteger(0)
  }

  /** The signal causes of value.h: every cause but the binding failure,
      which bind.c reports as a condition and never as a signal. */
  type SignalCause = c: Cause | c != BuiltinBindingFailed witness HeapExhausted

  /** The number value.h gives a signal cause: its place in the
      declaration order. */
  function CauseCode(c: SignalCause): (n: nat)
    ensures n < 13
  {
    match c
    case HeapExhausted => 0
    case InternalFamily => 1
    case InvalidInput => 2
    case InvalidSyntax => 3
    case MapFull => 4
    case NotComparable => 5
    case NotFound => 6
    case NothingCause => 7
    case OutOfBounds => 8
    case SystemError => 9
    case UnsupportedBehavior => 10
    case ValidationFailed => 11
    case Wat => 12
  }

  const HalfWord: nat := 0x1_0000_0000

  /** A signal keeps the domain in its low bits and the cause in the next
      32-bit unit. The bits in between are never written: `junk` stands for
      whatever they held. */
  function NewSignal(c: SignalCause, junk: nat): (w: Word)
    requires junk < HalfWord / 8
    ensures InDomain(w, SignalDomain)
    ensures w / HalfWord == CauseCode(c)
  {
    CauseCode(c) * HalfWord + junk * 8 + 2
  }

  /** Reads the cause field of a signal. */
  function GetSignalCause(w: Word): (c: SignalCause)
    requires InDomain(w, SignalDomain)
    requires w / HalfWord < 13
    ensures CauseCode(c) == w / HalfWord
  {
    var n := w / HalfWord;
    if n == 0 then HeapExhausted
    else if n == 1 then InternalFamily
    else if n == 2 then InvalidInput
    else if n == 3 then InvalidSyntax
    else if n == 4 then MapFull
    else if n == 5 then NotComparable
    else if n == 6 then NotFound
    else if n == 7 then NothingCause
    else if n == 8 then OutOfBounds
    else if n == 9 then SystemError
    else if n == 10 then UnsupportedBehavior
    else if n == 11 then ValidationFailed
    else Wat
  }

  /** The cause survives whatever the unwritten bits hold. */
  lemma SignalRoundTrip(c: SignalCause, junk: nat)
    requires junk < HalfWord / 8
    ensures GetSignalCause(NewSignal(c, junk)) == c
  {
  }

  /** A moved-object forward pointer is the target's word plus the
      moved-object tag. */
  function NewMovedObject(target: Word): (w: Word)
    requires InDomain(target, ObjectDomain)
    ensures InDomain(w, MovedObjectDomain)
  {
    target + 3
  }

  function GetMovedObjectTarget(w: Word): (target: Word)
    requires InDomain(w, MovedObjectDomain)
    ensures InDomain(target, ObjectDomain)
  {
    w - 3
  }

  lemma MovedObjectRoundTrip(target: Word, w: Word)
    requires InDomain(target, ObjectDomain)
    requires InDomain(w, MovedObjectDomain)
    ensures GetMovedObjectTarget(NewMovedObject(target)) == target
    ensures NewMovedObject(GetMovedObjectTarget(w)) == w
  {
  }

  /** An object value is its address, which must have the low tag bits
      clear. */
  function NewObject(address: Word): (w: Word)
    requires address % (DomainTagMask + 1) == 0
    ensures InDomain(w, ObjectDomain)
    ensures GetObjectAddress(w) == address
  {
    address
  }

  /** `get_object_address`: the object's address, which is value-aligned. */
  function GetObjectAddress(w: Word): (address: Word)
    requires InDomain(w, ObjectDomain)
    ensures address % (DomainTagMask + 1) == 0
  {
    w
  }

  const ObjectHeaderSize: nat := ValueSize

  /** The byte size of an object with `n` fields besides the header. */
  function ObjectSize(n: nat): nat {
    n * ValueSize + ObjectHeaderSize
  }

  /** The byte offset of field `n`, counting from the first field after the
      header. */
  function ObjectFieldOffset(n: nat): nat {
    n * ValueSize + ObjectHeaderSize
  }

  /** Field `n` lies entirely inside an object with more than `n` fields,
      after its header, and fields never overlap. */
  lemma ObjectLayout(n: nat, m: nat)
    ensures ObjectSize(n) == ObjectFieldOffset(n) == n * ValueSize + ObjectHeaderSize
    ensures ObjectFieldOffset(n) >= ObjectHeaderSize
    ensures n < m ==> ObjectFieldOffset(n) + ValueSize <= ObjectSize(m)
    ensures n < m ==> ObjectFieldOffset(n) + ValueSize <= ObjectFieldOffset(m)
  {
  }
}

=== FILE: wrappers.dfy ===
/** Failure-compatible wrappers shared by every module of the model.
    `Option` stands for a value that may be `nothing`, `Result` for an
    operation that either yields a value or returns a condition. */
module Wrappers {

  datatype Option<+T> = None | Some(value: T) {
    predicate IsFailure() {
      None?
    }

    function PropagateFailure<U>(): Option<U>
      requires None?
    {
      None
    }

    function Extract(): T
      requires Some?
    {
      value
    }
  }

  datatype Result<+R, +E> = Success(value: R) | Failure(error: E) {
    predicate IsFailure() {
      Failure?
    }

    function PropagateFailure<U>(): Result<U, E>
      requires Failure?
    {
      Failure(error)
    }

    function Extract(): R
      requires Success?
    {
      value
    }
  }

  /** The causes a signal or condition can carry: the signal causes of
      value.h in declaration order, then the binding failure that bind.c
      reports as a condition. */
  datatype Cause =
    | HeapExhausted
    | InternalFamily
    | InvalidInput
    | InvalidSyntax
    | MapFull
    | NotComparable
    | NotFound
    | NothingCause
    | OutOfBounds
    | SystemError
    | UnsupportedBehavior
    | ValidationFailed
    | Wat
    | BuiltinBindingFailed
}
